=== FILE: README.md ===
# Mareen assistant core, modelled in Dafny

Mareen is a voice assistant. The user speaks, the assistant logs the turn,
retrieves related past turns, asks a language model and speaks the answer.
This project models the deterministic core of that loop and proves
properties of it:

- **Memory** (`memory.dfy`) is the conversation store of
  `src/core/memory.py`. It holds a sessions table, a conversations table and
  a current-session pointer, with the SQLite tables as sequences in insertion
  order. It covers the start/end/log transitions, the read queries with their
  `ORDER BY` and `LIMIT` semantics, the statistics and the export record. An
  invariant `Valid` ties the tables together: unique session ids, time order,
  a session row for every message, and a count fixed when a session ends.
  Every transition keeps it.
- **Embedding** (`embedding.dfy`) is the memo table of `RAG._get_embedding`
  over an encoder that may be missing or may fail, and its clearing.
- **Ranking** (`ranking.dfy`) holds Python's stable `sort(key=…,
  reverse=True)` and the slice `xs[:k]`. The sort is proved stable.
- **Rag** (`rag.dfy`) is the retrieval scorer of `src/core/rag.py`. It
  covers candidate collection, keyword (Jaccard) and embedding similarity,
  the recency blend, the threshold, top-k selection, the context block,
  similar past queries and the session summary.
- **Soul** (`soul.dfy`) is the prompt-injection guard of
  `src/core/soul.py`. It covers first-match detection, the canned refusal
  and the hash-based integrity check.
- **Intent** (`intent.dfy`) is the keyword intent parser of
  `src/core/intent.py`.
- **Router** (`router.dfy`) is the decision half of
  `execute_system_command` in `src/modules/system.py`: which action runs,
  and with what argument or URL.
- **Speech** (`speech.dfy`) covers `split_text` and the skips of
  `speak_neural` in `src/core/tts.py`.
- **Text** (`text.dfy`) and **Wrappers** (`wrappers.dfy`) hold the string
  operations the core relies on (`lower`, `strip`, `split`, `replace`, `in`,
  `join`, `str(n)`) and `Option`/`Result`.

Some inputs come from outside and are parameters rather than computations:

- The clock is passed as a `tick: nat` since the last reading, so time
  never goes back.
- Session ids are passed in. The age cutoff is passed in as an integer
  time.
- The sentence encoder, the cosine of two vectors and `exp` time decay are
  passed in (`Rag.Oracles`).
- SHA-256, the seeded pick of `random.choice` and the `%Y-%m-%d` date
  rendering are passed in.
- Whether a voice synthesised a chunk, and whether the application
  launcher found an app, are passed in as booleans.

Where one might expect otherwise, the model follows the code:

- Retrieval ties keep candidate order (a stable sort). They are not broken
  by recency.
- `get_recent_context` returns the earliest messages of the session (see
  Findings).
- The store raises no error kinds other than SQLite's primary-key violation
  on a duplicate session id.

## Model

| member | source | states |
|---|---|---|
| `Memory.StartSession` | src/core/memory.py:67-93 | a duplicate session id is an error (primary key); otherwise exactly one row is appended, earlier rows and all messages are untouched, the new row starts at the clock with no end time and count 0, and it becomes current |
| `Memory.StartValid` | src/core/memory.py:77-93 | starting a session keeps the store invariant: unique ids, rows and messages in time order, every message's session has a row, the current session is open, counts fixed only at the end |
| `Memory.EndSession` | src/core/memory.py:95-128 | without a current session nothing changes; otherwise only the current session's row changes, getting the clock's time as end time and the number of its messages as count, and no session is current afterwards |
| `Memory.EndValid` | src/core/memory.py:101-128 | ending a session keeps the store invariant, including that every ended session's count equals its number of messages |
| `Memory.ExportAfterEnd` | src/core/memory.py:107-122 | after ending the current session its export exists, carries the end time, and its stored count equals the length of its exported conversation list |
| `Memory.LogMessage` | src/core/memory.py:130-156 | logging appends exactly one message tagged with the current session and stamped with the advanced clock, leaving earlier messages unchanged; without a current session one is started first with the supplied id, exactly as `start_session` would, and becomes current; this fails only when the id is taken |
| `Memory.LogValid` | src/core/memory.py:141-154 | logging keeps the store invariant, so every message names an existing session |
| `Memory.LogThenHistory` | src/core/memory.py:141-185 | after logging, the current session's history is the previous history plus the new message; after an auto-start it is that message alone |
| `Memory.HistorySession` | src/core/memory.py:171-175 | an absent session id means the current session; an empty id, or no current session, means no history |
| `Memory.OptionalLimit` | src/core/memory.py:187-188 | an absent or zero limit returns every row; any other limit is applied as SQLite's `LIMIT`, a negative one returning every row |
| `Memory.GetSessionHistory` | src/core/memory.py:159-204 | an absent, zero or negative limit gives every message of the chosen session in table order; a positive limit gives the first `limit` of them (all when fewer); every entry belongs to that session, and it is empty when no session is chosen |
| `Memory.HistoryIsSessionMessages` | src/core/memory.py:171-185 | without a limit, a message is in a session's history exactly when it is stored with that session's id |
| `Memory.HistoryAscending` | src/core/memory.py:180-185 | in a valid store the history is in ascending timestamp order, as the query's `ORDER BY timestamp ASC` demands |
| `Memory.GetAllSessions` | src/core/memory.py:206-242 | the listed rows are the table's rows newest first; an absent, zero or negative limit lists all of them, a positive one exactly `min(limit, rows)` |
| `Memory.AllSessionsDescending` | src/core/memory.py:219-226 | in a valid store the listing is in descending start time, as `ORDER BY start_time DESC` demands |
| `Memory.HitOf` | src/core/memory.py:259-262 | a message joins the search result exactly when its text contains the query ignoring case and its session has a row; the hit carries the message's session id, time, speaker and text, and that session's start time |
| `Memory.SearchConversations` | src/core/memory.py:244-280 | the result lists the joined hits from the newest back: all of them for a negative limit, otherwise exactly `min(limit, hits)`; every hit matches the query and names an existing session |
| `Memory.HitsComplete` | src/core/memory.py:258-262 | every stored message whose text contains the query and whose session has a row is among the joined hits |
| `Memory.SearchFindsEveryMatch` | src/core/memory.py:258-265 | when the limit does not cut the list short, the search returns every matching message of a known session |
| `Memory.SearchKeepsNewest` | src/core/memory.py:263-264 | in a valid store, a hit cut off by the limit is no newer than any hit returned |
| `Memory.NewestFirst` | src/core/memory.py:263-264 | `ORDER BY … DESC LIMIT n` over rows held in ascending order lists them from the last one backwards: exactly `min(n, rows)` of them, or all for a negative `n` |
| `Memory.SearchNewestFirst` | src/core/memory.py:258-265 | in a valid store the search hits come newest first |
| `Memory.GetRecentContext` | src/core/memory.py:282-295 | without a current session the context is empty; otherwise it is the earliest `num_messages` messages of the current session, or all of them for a zero or negative limit |
| `Memory.GetStatistics` | src/core/memory.py:297-340 | the totals are the table sizes; the user and assistant counts are the numbers of messages whose speaker is exactly "USER" and "MAREEN"; the average is that of the counts of sessions with a positive count, 0.0 when there is none and at least 1 otherwise |
| `Memory.CountSpeaker` | src/core/memory.py:315-321 | a speaker's count is 0 exactly when no message has that speaker, and the number of all messages exactly when every message has it |
| `Memory.AverageLength` | src/core/memory.py:323-329 | with no session of positive count the average is 0; otherwise the average times the number of such sessions is the sum of their counts |
| `Memory.StatisticsAfterLog` | src/core/memory.py:130-340 | logging adds one to the total and one to the count of the message's speaker; when a session was open the session total and the average stay as they were |
| `Memory.SpeakersDisjoint` | src/core/memory.py:315-321 | "USER" and "MAREEN" messages are counted disjointly, so their counts sum to at most the number of messages |
| `Memory.AverageAtLeastOne` | src/core/memory.py:323-329 | the average is taken only over sessions with a positive count, so it is at least 1 whenever there is such a session |
| `Memory.ExportSession` | src/core/memory.py:342-389 | an unknown id exports nothing; a known one exports its row's fields and exactly that session's messages in table order |
| `Memory.GetLatestContext` | src/core/memory.py:282-291 | the latest `num_messages` messages of the current session, oldest first, as the method's description promises: a suffix of the session's messages of the requested length |
| `Memory.LatestContextEndsWithNewest` | src/core/memory.py:282-291 | the corrected context always ends with the newest message of the session |
| `Memory.RecentContextMissesNewest` | src/core/memory.py:292-295 | for two messages and a limit of one, the context as written returns the first message while the latest message is the second |
| `Memory.RecentContextsAgreeWhenShort` | src/core/memory.py:282-295 | the written and the corrected context agree when the session has at most `num_messages` messages |
| `Embedding.GetEmbedding` | src/core/rag.py:71-100 | no vector without a model, whatever the cache holds; a hit returns the stored vector without encoding; a miss returns the encoder's answer and stores it only on success; no entry is ever removed or changed |
| `Embedding.CacheTransparent` | src/core/rag.py:81-97 | with a faithful cache the answer is exactly the encoder's whenever a model is loaded |
| `Embedding.LookupKeepsFaithful` | src/core/rag.py:89-91 | a lookup keeps every cached vector equal to the encoder's vector for its text |
| `Embedding.LookupTwice` | src/core/rag.py:85-86 | asking twice gives the same answer, and the second lookup after a success changes nothing |
| `Embedding.ClearCache` | src/core/rag.py:359-361 | clearing empties the table and keeps the model |
| `Embedding.ClearMakesFaithful` | src/core/rag.py:359-361 | after clearing, the table is faithful to whatever encoder is loaded |
| `Rag.Window` | src/core/rag.py:207 | the searched sessions are the 50 newest rows, newest first |
| `Rag.SessionTurnsIsHistory` | src/core/rag.py:212-228 | a session that started before the cutoff contributes nothing; any other contributes exactly what `get_session_history(session_id)` returns without a limit |
| `Rag.CandidatesAreRecentMessages` | src/core/rag.py:196-230 | a candidate is exactly a stored message of one of the 50 newest sessions that did not start before the cutoff |
| `Rag.CandidatesInOrder` | src/core/rag.py:212-228 | candidates come session by session, newest session first, and within a session oldest first |
| `Rag.KeywordSimilarity` | src/core/rag.py:106-131 | keyword similarity lies in [0, 1]; it is 0 exactly when the lower-cased word sets share no word (including when either is empty), and 1 exactly when they are equal and non-empty |
| `Rag.KeywordSimilaritySymmetric` | src/core/rag.py:117-131 | keyword similarity does not depend on the order of its arguments |
| `Rag.Jaccard` | src/core/rag.py:124-131 | intersection over union lies in [0, 1], is 0 exactly for disjoint sets and 1 exactly for equal non-empty sets |
| `Rag.TimeScore` | src/core/rag.py:242-256 | the time score lies in [0, 1]: the decay clamped, or 0.5 when the timestamp does not parse |
| `Rag.ClampMonotone` | src/core/rag.py:254 | clamping keeps the order of scores |
| `Rag.FinalScore` | src/core/rag.py:176-180 | without decay the final score is the similarity; with decay it lies between the similarity and the time score |
| `Rag.MessageSimilarity` | src/core/rag.py:163-173 | cosine similarity is used exactly when both the query and the message have a vector, keyword similarity otherwise, decided per candidate; the message is embedded only when the query has a vector |
| `Rag.ScoreAllCache` | src/core/rag.py:155-173 | scoring keeps the model, only adds cache entries, adds none without a query vector, and keeps a faithful cache faithful |
| `Rag.RetrieveContext` | src/core/rag.py:133-194 | no candidates give no results; otherwise the result is the leading `top_k` of the kept candidates sorted by final score; with a faithful cache it is the leading `top_k` of the reference filter (each candidate scored afresh, kept at or above the threshold) so sorted; every result scores at least the threshold, in non-increasing final score, with final score equal to similarity when decay is off |
| `Rag.SimilarityIsFresh` | src/core/rag.py:163-173 | with a faithful cache the similarity of a message is the one the encoder gives directly: the cosine when both vectors exist, keyword overlap otherwise; the cache stays faithful |
| `Rag.PassingMembers` | src/core/rag.py:160-188 | a candidate passes the reference filter exactly when it is scored afresh and its final score reaches the threshold |
| `Rag.ScoreAllIsPassing` | src/core/rag.py:158-188 | with a faithful cache the scoring loop keeps exactly what the reference filter keeps, in candidate order |
| `Rag.RetrieveReturnsEveryPass` | src/core/rag.py:160-194 | with a faithful cache (every cached vector is the encoder's vector for its text), when `top_k` leaves room for every candidate that passes, each candidate whose fresh final score reaches the threshold is returned |
| `Rag.RetrieveIsTopK` | src/core/rag.py:183-194 | the results are the best kept candidates: drawn from them, no candidate left out scores above a returned one, and equal scores keep candidate order |
| `Rag.TakeOfSortIsTop` | src/core/rag.py:191-194 | the leading `k` of the stable descending sort are drawn from the list, and nothing left out scores above them |
| `Rag.RetrieveSorted` | src/core/rag.py:191-194 | the results are a prefix of the kept candidates sorted by final score, of length `min(top_k, kept)` for a non-negative `top_k` and `max(0, kept + top_k)` for a negative one |
| `Rag.NoModelMeansKeywords` | src/core/rag.py:164-173 | without a loaded model every result was scored by keyword overlap, so its similarity and final score lie in [0, 1] |
| `Ranking.SortDesc` | src/core/rag.py:191 | the sort is a permutation, non-increasing by key, and stable: entries with equal keys keep their order |
| `Ranking.PyTake` | src/core/rag.py:194 | `xs[:k]` is a prefix of length `min(k, len(xs))`, and a negative `k` drops that many entries from the end |
| `Ranking.TopOfSort` | src/core/rag.py:191-194 | the first `n` entries of a stable descending sort are the `n` best: nothing left out scores higher, and ties keep their order |
| `Rag.Excerpt` | src/core/rag.py:280 | messages of at most 150 characters are shown verbatim; longer ones as their first 150 characters followed by "..." |
| `Rag.ExcerptIdempotent` | src/core/rag.py:280 | cutting an excerpt again changes nothing |
| `Rag.ContextLineNumber` | src/core/rag.py:277-282 | each line starts with its number, which reads back from the digits before the first `.` |
| `Rag.ContextLineShowsExcerpt` | src/core/rag.py:279-282 | each line ends with the excerpt of its memory's message |
| `Rag.ContextLines` | src/core/rag.py:277-282 | there is one line per memory, numbered consecutively from the first number |
| `Rag.RenderContext` | src/core/rag.py:271-286 | no memories give the empty string; otherwise the block is the header, the numbered lines and the footer joined by newlines, so it starts with the header and ends with the footer |
| `Rag.BuildContextPrompt` | src/core/rag.py:258-286 | the prompt is empty exactly when retrieval with the defaults (decay on, threshold 0.3) finds nothing; otherwise it is the header, one numbered line per memory found and the footer, joined by newlines |
| `Rag.UserQueriesMembers` | src/core/rag.py:329 | the user queries are exactly the candidates spoken by "USER" |
| `Rag.FindSimilarPastQueries` | src/core/rag.py:316-357 | no user candidates give no results; otherwise the result is the leading `top_k` of the scored user queries sorted by similarity, exactly `min(top_k, scored)` of them for a non-negative `top_k`; with a faithful cache it is that of the reference filter (similarity above 0.4); every result is a user candidate, most similar first |
| `Rag.PassingQueriesMembers` | src/core/rag.py:337-354 | a user query passes the reference filter exactly when it is scored afresh and its similarity is above 0.4 |
| `Rag.ScoreQueriesIsPassing` | src/core/rag.py:335-354 | with a faithful cache the scoring loop keeps exactly what the reference filter keeps, in order |
| `Rag.FindSimilarReturnsEveryMatch` | src/core/rag.py:327-357 | with a faithful cache, when `top_k` leaves room for every query that passes, each past user query whose fresh similarity is above 0.4 is returned |
| `Rag.Exchanges` | src/core/rag.py:303-307 | the exchange count is the number of user messages or the number of assistant messages, whichever is smaller, so each exchange takes two messages |
| `Rag.ConversationSummary` | src/core/rag.py:298-301 | the fixed "No conversation history." answer is given exactly when the history is empty |
| `Rag.SummaryReportsExchanges` | src/core/rag.py:306-308 | a non-empty history's summary starts with the header, and the digits between header and tail read back as the exchange count |
| `Soul.DetectInjection` | src/core/soul.py:85-101 | detection reports a pattern exactly when one occurs in the lower-cased input, and that pattern is the first such in list order |
| `Soul.FirstPatternWins` | src/core/soul.py:21-41 | input containing "ignore all previous instructions" is reported with that pattern, although the later "ignore all" also occurs in it |
| `Soul.GetInjectionResponse` | src/core/soul.py:103-126 | the refusal is one of the four fixed strings, chosen by the seeded pick for the pattern, so the same pattern always gets the same refusal |
| `Soul.ResponsesKeepIdentity` | src/core/soul.py:113-118 | whichever refusal is picked, it names the assistant "Mareen" |
| `Soul.LoadSoul` | src/core/soul.py:59-72 | a missing file is an error; otherwise the text is returned verbatim |
| `Soul.NewProtector` | src/core/soul.py:15-17 | construction fails exactly when the file is missing, and otherwise stores the text with its own hash |
| `Soul.FreshProtectorVerifies` | src/core/soul.py:59-83 | a freshly loaded guard serves the file's text verbatim as the system prompt and passes its first check of the same file |
| `Soul.GetSystemPrompt` | src/core/soul.py:78-83 | the prompt served is the stored text itself, unprocessed |
| `Soul.VerifySoulIntegrity` | src/core/soul.py:128-151 | the check succeeds exactly when the file is readable and hashes to the stored hash; on a mismatch the new text and hash are adopted; an unreadable file changes nothing |
| `Soul.VerifyKeepsConsistent` | src/core/soul.py:139-146 | after a check the stored hash is still the hash of the stored prompt |
| `Soul.RecheckSucceeds` | src/core/soul.py:139-148 | after a check of a readable file, checking the unchanged file again succeeds |
| `Soul.GetSoulStats` | src/core/soul.py:153-162 | the length and hash reported are those before the integrity check, 34 patterns are reported, and the integrity entry and new state are those of the check |
| `Intent.Classify` | src/core/intent.py:1-41 | "explorer" exactly when an explorer phrase occurs in the lower-cased text; otherwise "pick_file" exactly when a file-picker phrase occurs; otherwise the find and open rules decide; a find command only for text starting with a find prefix; every command's argument is non-empty and lower-case |
| `Intent.ParseIntentOutput` | src/core/intent.py:2-41 | every reply is lower-case and is "explorer", "pick_file", "find_file:" with a non-empty keyword, or "open:" with a non-empty app name |
| `Intent.FindKeyword` | src/core/intent.py:12-19 | a keyword exists exactly when the text starts with "find file ", "search for " or "where is " |
| `Intent.ClassifyRequest` | src/core/intent.py:12-41 | a find command with the keyword is produced exactly when the keyword is non-empty; otherwise an open command with the open rule's app exactly when that rule names one; nothing exactly when neither rule applies |
| `Intent.FindFileRoundTrip` | src/core/intent.py:12-22 | "find file " followed by a trimmed keyword that does not repeat the prefix parses back to that keyword. The text must be lower-case and contain no explorer or file-picker phrase, which are matched first. |
| `Intent.RepeatedFindPrefix` | src/core/intent.py:15 | every occurrence of the prefix is removed, so a repeated prefix does not change the keyword |
| `Intent.DropCourtesyIsReplaceFirst` | src/core/intent.py:28-29 | dropping a leading courtesy prefix equals `replace(prefix, "", 1).strip()` |
| `Intent.CourtesyRemovedOnce` | src/core/intent.py:27-29 | each courtesy prefix is removed at most once: after "please please " no open verb is recognised |
| `Intent.CourtesyOrderMatters` | src/core/intent.py:27-29 | the prefixes are tried in their fixed order, so "please can you open …" keeps "can you " and finds no open verb |
| `Intent.CourtesyInOrder` | src/core/intent.py:26-35 | "can you please open X" strips both prefixes and opens X. The text must be lower-case and contain no explorer or file-picker phrase, which are matched first. |
| `Intent.OpenTarget` | src/core/intent.py:31-33 | an app name exists exactly when the text starts with "open ", "launch " or "start " |
| `Intent.OpenApp` | src/core/intent.py:26-40 | the target of an open verb after the courtesy strip wins when non-empty; failing that "open calculator" anywhere gives the calculator, then "open notepad" the notepad, and nothing otherwise; any app named is non-empty and lower-case |
| `Intent.OpenRoundTrip` | src/core/intent.py:31-35 | "open " followed by a trimmed lower-case app name parses back to that name. The text must be lower-case and contain no explorer or file-picker phrase, which are matched first. |
| `Intent.VerbRoundTrip` | src/core/intent.py:31-35 | "open ", "launch " or "start " followed by a trimmed lower-case app name parses back to that name. The text must be lower-case and contain no explorer or file-picker phrase, which are matched first. |
| `Intent.CalculatorFallback` | src/core/intent.py:37-38 | the request rules open the calculator for a lower-case text that gives no non-empty find keyword and no non-empty open-verb target and contains "open calculator". The text must also contain no explorer or file-picker phrase, which are matched first. |
| `Intent.NotepadFallback` | src/core/intent.py:37-40 | under the same two conditions, the request rules open the notepad for a text that contains "open notepad" but not "open calculator". The text must also contain no explorer or file-picker phrase, which are matched first. |
| `Intent.NoRuleFires` | src/core/intent.py:37-41 | under the same two conditions, the request rules give no request for a text that names neither fixed app. The text must also contain no explorer or file-picker phrase, which are matched first. |
| `Intent.CalculatorAfterPlainStart` | src/core/intent.py:12-38 | the request rules open the calculator for a lower-case text whose first letter is none of c, p, j, o, l, s, f, w (so no find, courtesy or verb prefix starts it) and which ends with "open calculator". The text must also contain no explorer or file-picker phrase, which are matched first. |
| `Intent.NotepadAfterPlainStart` | src/core/intent.py:12-40 | the same for a text ending with "open notepad" that does not contain "open calculator": the request rules open the notepad. The text must also contain no explorer or file-picker phrase, which are matched first. |
| `Router.Route` | src/modules/system.py:12-72 | "explorer" and "pick_file" select their actions and nothing else does; "find_file:k" searches for everything after the first colon; "open:" commands open a URL or launch an app; exact "calc" or "notepad" run their process; anything else is unknown |
| `Router.RouteRender` | src/modules/system.py:13-38 | routing undoes the parser's rendering: each parsed command reaches the action it names, with its argument |
| `Router.ParsedCommandIsRouted` | src/modules/system.py:67-72 | no reply of the parser is ever unknown to the router, and none reaches the bare "calc"/"notepad" branches |
| `Router.AppName` | src/modules/system.py:34-38 | the app name is the stripped argument, with one leading "my " in any case dropped and the rest stripped again; it is stripped at both ends and never longer than the argument |
| `Router.AppNameDropsMy` | src/modules/system.py:36-38 | a leading "my ", in any letter case, is dropped from the app name |
| `Router.AppNameDropsMyOnce` | src/modules/system.py:36-38 | only one "my " is dropped: a second one stays in the name |
| `Router.WebOverride` | src/modules/system.py:44-49 | names mentioning "gmail" or "google mail" go to the Gmail address, else names mentioning "youtube" to the YouTube address |
| `Router.OpenAction` | src/modules/system.py:43-65 | web overrides come first; the app is launched exactly when there is no override and the launcher finds it; otherwise the fallback address is opened |
| `Router.WebOverrideIgnoresLauncher` | src/modules/system.py:43-57 | a name with a web override opens the same page whatever the launcher would do |
| `Router.FallbackUrl` | src/modules/system.py:62-63 | the fallback address is "https://www.", then the name with every space removed and nothing else changed, then ".com" |
| `Router.FallbackUrlHasNoSpace` | src/modules/system.py:62 | the fallback address contains no space, whatever the name |
| `Text.ReplaceAllIsWithout` | src/modules/system.py:62 | `replace(" ", "")` keeps exactly the other characters, in their order |
| `Text.WithoutMembers` | src/modules/system.py:62 | removing a character keeps exactly the characters that differ from it |
| `Speech.Sentences` | src/core/tts.py:77 | there is at least one piece; no piece contains a split point; every piece but the last ends with `.`, `!` or `?`; no later piece starts with whitespace |
| `Speech.SentencesRoundTrip` | src/core/tts.py:77 | the pieces interleaved with the removed whitespace runs give back the text |
| `Speech.SplitText` | src/core/tts.py:75-88 | the chunks are the greedy packing of the sentences: sentences in order; a sentence joins the chunk only while buffer and sentence stay strictly below the budget; each chunk is the stripped buffer of its sentences; a chunk of two or more sentences is shorter than the budget |
| `Speech.Pack` | src/core/tts.py:78-88 | the packing loop produces the greedy packing of a non-empty list of sentences |
| `Speech.PackStep` | src/core/tts.py:80-85 | one turn of the loop keeps the packing greedy, either extending the open chunk or closing it |
| `Speech.Close` | src/core/tts.py:86-87 | the final buffer is never empty and is emitted as the last chunk |
| `Speech.GreedyUnique` | src/core/tts.py:80-85 | there is only one greedy packing, so the contract of `SplitText` determines its chunks completely |
| `Speech.ShrinkExtend` | src/core/tts.py:80-85 | the packing of n sentences is the packing of the first n-1 extended by the last, as one more loop turn does |
| `Speech.FirstChunkEmpty` | src/core/tts.py:81-85 | the first chunk is empty exactly when the first sentence alone reaches the budget |
| `Speech.TruncateFits` | src/core/tts.py:81-82 | dropping an appended sentence keeps every chunk within the budget |
| `Speech.FirstVoice` | src/core/tts.py:105-119 | the voice chosen is the first in list order that synthesises the chunk; none is chosen exactly when all fail |
| `Speech.Voice` | src/core/tts.py:105-124 | a chunk is voiced by a listed neural voice that synthesised it, or offline exactly when all three fail |
| `Speech.Perform` | src/core/tts.py:98-124 | a chunk is voiced only when it is not blank and comes from the chunk list; none is skipped when none is blank |
| `Speech.PerformVoicesNonBlank` | src/core/tts.py:98-124 | exactly the non-blank chunks are voiced, one playback each, in their order, each by the voice the fallback chain picks |
| `Speech.NonBlankMembers` | src/core/tts.py:98-100 | the chunks kept are exactly the non-blank ones |
| `Speech.SpeakNeural` | src/core/tts.py:90-100 | blank text voices nothing; otherwise the greedy chunks of the text with the default budget of 500 are voiced in order, and nothing blank is voiced |
| `Text.Lower` | src/core/intent.py:2 | lower-casing keeps the length, maps each letter A-Z to its lower case, leaves every other character alone and leaves no upper-case letter |
| `Text.NatToStringRoundTrip` | src/core/rag.py:307 | the decimal rendering of a count reads back as that count |
| `Text.ReplaceAllDeletes` | src/modules/system.py:62 | deleting every occurrence of a character leaves none of it |

## Left out

- SQLite, pickle and JSON persistence are not modelled. This covers `_init_database`, `_load_cache`/`_save_cache` with the save-every-10 rule, the JSON file `export_session` writes, and deleting the cache file. The tables and the cache are in-memory values, and the export is a returned record.
- The clock is not modelled. `datetime.now`, `isoformat` and `strftime` are left out. Timestamps are integers that never go back, and the date rendering is a parameter.
- Session ids are not generated from the clock. They are supplied by the caller, and a duplicate gives the primary-key error.
- Memory.HitOf: SQLite `LIKE` treats `%` and `_` in the query as wildcards, but here they are matched literally. Case is ignored for ASCII letters only, as SQLite does.
- Memory.GetStatistics: the average is exact. It is not rounded to two places, and the database path is not reported.
- Memory.StartSession: metadata is kept as a string map. Its JSON encoding is left out, as is `json.loads` on read.
- SQL `ORDER BY timestamp` and `ORDER BY start_time` are modelled as table order. `Memory.HistoryAscending`, `Memory.AllSessionsDescending` and `Memory.SearchNewestFirst` prove that this is the required order in a valid store. Rows with equal times stay in insertion order, where SQLite leaves their order unspecified.
- Rag.RetrieveReturnsEveryPass and Rag.FindSimilarReturnsEveryMatch: completeness is promised only for a faithful cache. A vector loaded from the pickle file, or cached before the encoder model changed, can differ from a fresh encoding, and then a candidate that passes when scored afresh can be dropped.
- Rag.MessageSimilarity: cosine similarity is a parameter (floating point). Nothing is assumed about its range.
- Rag.TimeScore: `np.exp(-hours / 24)` is a parameter (floating point). Only the clamp and the 0.5 fallback are modelled.
- The sentence encoder is a parameter, as are SHA-256 and the seeded `random.choice` keyed by Python's salted `hash`. Each is a deterministic function, so "the same pattern gets the same refusal" holds within one process.
- `RAG.get_stats`, `get_rag`, `enable_rag_context` and `is_rag_enabled` are not modelled. They are reporting and global flags with no logic of their own.
- `get_conversation_summary` builds a joined text for topic extraction and then never uses it. The model omits that unused value.
- Text.Lower: maps ASCII letters only. Python's Unicode `lower()` and the non-ASCII whitespace of `split()`, `strip()` and the regular-expression `\s` are not modelled.
- The test inputs of the guard (`test_soul.py`: eight attacks, five benign phrases) are not evaluated. Evaluating 34 substring searches over concrete literals is beyond the solver budget. `Soul.FirstPatternWins` states the first-match rule for every input.
- Speech.Perform: audio playback is not modelled. This covers pygame, the typewriter printing, the per-chunk temporary file and the offline fallback after a playback error. Only the choice of neural voice, or of the offline engine, is modelled. Microphone barge-in (`check_interruption`) is left out too.
- Speech.Pack: requires a non-empty list of sentences. `Speech.Sentences` never returns an empty list, which matches `re.split`.
- Router.Route: the side effects of each branch are not modelled. These are the spoken messages, the file search and its results dialog, the browser, and process spawning. The launcher's success is a parameter.
- Singletons (`get_memory_manager`, `get_soul_protector`) are not modelled. Each component is an explicit value.

## Findings

| source | as written | input that shows it | evidently intended | confidence | as-written member | corrected member |
|---|---|---|---|---|---|---|
| src/core/memory.py:282-295 | `get_recent_context` calls `get_session_history(limit=n)`. That query sorts ascending before applying `LIMIT`, so it returns the earliest `n` messages of the session. | A session with messages "a" then "b", and `num_messages = 1`: the result is ["a"], and the newest message "b" is missing. | The latest `n` messages of the current session, oldest first, as the method's description ("recent conversation context") says. | not executed | `Memory.RecentContextMissesNewest` | `Memory.GetLatestContext` |

=== FILE: embedding.dfy ===
/** The embedding side of the retriever (`RAG._get_embedding` and
    `RAG.clear_embeddings_cache`): a memo table from texts to vectors in front
    of a sentence encoder that may not have loaded and may fail on a text. */
module Embedding {
  import opened Wrappers

  /** An embedding vector. */
  type Vector = seq<real>

  /** The sentence encoder: a text's vector, or `None` when encoding raises. */
  type Encoder = string -> Option<Vector>

  /** Whether the sentence model loaded, and the memo table. */
  datatype Embedder = Embedder(modelLoaded: bool, cache: map<string, Vector>)

  /** Every cached vector is the one the encoder gives for its text. A cache
      read back from disk after the model changed need not be. */
  ghost predicate Faithful(e: Embedder, encode: Encoder) {
    forall t :: t in e.cache ==> encode(t) == Some(e.cache[t])
  }

  /** A later table keeps every entry of an earlier one. */
  ghost predicate Extends(before: map<string, Vector>, after: map<string, Vector>) {
    forall t :: t in before ==> t in after && after[t] == before[t]
  }

  lemma ExtendsTrans(a: map<string, Vector>, b: map<string, Vector>, c: map<string, Vector>)
    requires Extends(a, b) && Extends(b, c)
    ensures Extends(a, c)
  {
  }

  /** `_get_embedding(text)`: nothing without a model; the cached vector on a
      hit, without encoding; otherwise the encoder's answer, remembered only
      when there is one. */
  function GetEmbedding(e: Embedder, text: string, encode: Encoder): (r: (Option<Vector>, Embedder))
    ensures !e.modelLoaded ==> r == (None, e)
    ensures e.modelLoaded && text in e.cache ==> r == (Some(e.cache[text]), e)
    ensures e.modelLoaded && text !in e.cache ==> r.0 == encode(text)
    ensures r.0.Some? <==> e.modelLoaded && (text in e.cache || encode(text).Some?)
    ensures r.1.modelLoaded == e.modelLoaded
    ensures Extends(e.cache, r.1.cache)
    ensures r.1.cache.Keys == if r.0.Some? then e.cache.Keys + {text} else e.cache.Keys
    ensures r.0.Some? ==> text in r.1.cache && r.1.cache[text] == r.0.value
  {
    if !e.modelLoaded then (None, e)
    else if text in e.cache then (Some(e.cache[text]), e)
    else match encode(text)
      case None => (None, e)
      case Some(v) => (Some(v), e.(cache := e.cache[text := v]))
  }

  /** `clear_embeddings_cache()`: the table is emptied, the model kept. */
  function ClearCache(e: Embedder): (r: Embedder)
    ensures r.cache == map[]
    ensures r.modelLoaded == e.modelLoaded
  {
    e.(cache := map[])
  }

  /** Looking a text up keeps a faithful table faithful. */
  lemma LookupKeepsFaithful(e: Embedder, text: string, encode: Encoder)
    ensures Faithful(e, encode) ==> Faithful(GetEmbedding(e, text, encode).1, encode)
  {
  }

  /** With a faithful table the memo is invisible: the answer is the
      encoder's, exactly when a model is loaded. */
  lemma CacheTransparent(e: Embedder, text: string, encode: Encoder)
    requires Faithful(e, encode)
    ensures GetEmbedding(e, text, encode).0 == if e.modelLoaded then encode(text) else None
  {
  }

  /** Asking twice gives the same answer, and the second time is a hit that
      changes nothing. */
  lemma LookupTwice(e: Embedder, text: string, encode: Encoder)
    ensures var (v1, e1) := GetEmbedding(e, text, encode);
      GetEmbedding(e1, text, encode).0 == v1
    ensures var (v1, e1) := GetEmbedding(e, text, encode);
      v1.Some? ==> GetEmbedding(e1, text, encode).1 == e1
  {
  }

  /** Clearing makes the table faithful to whatever encoder is loaded, which
      is what it is for when the model changes. */
  lemma ClearMakesFaithful(e: Embedder, encode: Encoder)
    ensures Faithful(ClearCache(e), encode)
  {
  }
}

=== FILE: intent.dfy ===
/** The keyword intent parser (`basic_intent_parser`): a lower-cased utterance
    is mapped to at most one command string for the system router. Rules are
    tried in a fixed order and the first that fires decides. */
module Intent {
  import opened Wrappers
  import opened Text

  /** The polite openings stripped, in this order and at most once each. */
  const CourtesyPrefixes: seq<string> := ["can you ", "please ", "jarvis ", "could you "]

  predicate MentionsExplorer(t: string) {
    Contains(t, "open explorer") || Contains(t, "open file manager") || Contains(t, "open my pc")
  }

  predicate MentionsFilePicker(t: string) {
    Contains(t, "pick a file") || Contains(t, "select a file") || Contains(t, "open a file")
  }

  predicate StartsWithFindPrefix(t: string) {
    StartsWith(t, "find file ") || StartsWith(t, "search for ") || StartsWith(t, "where is ")
  }

  predicate StartsWithOpenVerb(t: string) {
    StartsWith(t, "open ") || StartsWith(t, "launch ") || StartsWith(t, "start ")
  }

  /** The commands the parser can produce, before they are rendered as the
      strings `explorer`, `pick_file`, `find_file:<keyword>` and `open:<app>`. */
  datatype Command = Explorer | PickFile | FindFile(keyword: string) | Open(app: string)

  /** A command whose argument is non-empty and lower-case. */
  predicate WellFormed(c: Command) {
    match c
    case Explorer => true
    case PickFile => true
    case FindFile(k) => k != "" && NoUpper(k)
    case Open(a) => a != "" && NoUpper(a)
  }

  function Render(c: Command): string {
    match c
    case Explorer => "explorer"
    case PickFile => "pick_file"
    case FindFile(k) => "find_file:" + k
    case Open(a) => "open:" + a
  }

  /** The search keyword of a find request: the text with every occurrence of
      the matched prefix removed, then stripped. Absent without such a prefix. */
  function FindKeyword(t: string): (r: Option<string>)
    ensures r.Some? <==> StartsWithFindPrefix(t)
    ensures r.Some? && NoUpper(t) ==> NoUpper(r.value)
  {
    if StartsWith(t, "find file ") then Some(Strip(ReplaceAll(t, "find file ", "")))
    else if StartsWith(t, "search for ") then Some(Strip(ReplaceAll(t, "search for ", "")))
    else if StartsWith(t, "where is ") then Some(Strip(ReplaceAll(t, "where is ", "")))
    else None
  }

  /** One courtesy step: `replace(prefix, "", 1).strip()` when the text starts
      with the prefix; the replaced occurrence is then the leading one. */
  function DropCourtesy(t: string, prefix: string): (r: string)
    ensures NoUpper(t) ==> NoUpper(r)
  {
    if StartsWith(t, prefix) then Strip(t[|prefix|..]) else t
  }

  /** The slice `DropCourtesy` takes is what `replace(prefix, "", 1)` leaves. */
  lemma DropCourtesyIsReplaceFirst(t: string, prefix: string)
    requires |prefix| > 0 && StartsWith(t, prefix)
    ensures DropCourtesy(t, prefix) == Strip(ReplaceFirst(t, prefix, ""))
  {
    var rest := ReplaceFirst(t, prefix, "");
    assert rest == "" + t[|prefix|..];
    assert "" + t[|prefix|..] == t[|prefix|..];
  }

  /** The courtesy prefixes are tried once each, in list order. */
  function StripCourtesy(t: string, prefixes: seq<string>): (r: string)
    ensures NoUpper(t) ==> NoUpper(r)
    decreases |prefixes|
  {
    if |prefixes| == 0 then t
    else StripCourtesy(DropCourtesy(t, prefixes[0]), prefixes[1..])
  }

  /** The app name after an open verb: `clean.split(" ", 1)[1].strip()`. */
  function OpenTarget(c: string): (r: Option<string>)
    ensures r.Some? <==> StartsWithOpenVerb(c)
    ensures r.Some? && NoUpper(c) ==> NoUpper(r.value)
  {
    if StartsWithOpenVerb(c) then
      assert c[if StartsWith(c, "open ") then 4 else if StartsWith(c, "launch ") then 6 else 5] == ' ';
      match AfterFirst(c, ' ')
      case Some(rest) => Some(Strip(rest))
    else None
  }

  /** The app the open rule names: the target of an open verb after the
      courtesy strip, else one of the two fixed apps mentioned anywhere. */
  function OpenApp(t: string): (r: Option<string>)
    requires NoUpper(t)
    ensures r.Some? ==> NoUpper(r.value) && r.value != ""
    ensures var target := OpenTarget(StripCourtesy(t, CourtesyPrefixes));
      && (target.Some? && target.value != "" ==> r == target)
      && (target.None? || target.value == "" ==>
            && (Contains(t, "open calculator") ==> r == Some("calculator"))
            && (!Contains(t, "open calculator") && Contains(t, "open notepad") ==> r == Some("notepad"))
            && (!Contains(t, "open calculator") && !Contains(t, "open notepad") ==> r.None?))
  {
    PhrasesLower();
    var target := OpenTarget(StripCourtesy(t, CourtesyPrefixes));
    if target.Some? && target.value != "" then target
    else if Contains(t, "open calculator") then Some("calculator")
    else if Contains(t, "open notepad") then Some("notepad")
    else None
  }

  /** The rules after the explorer and file-picker checks: a find request with
      a non-empty keyword, else the open rule. */
  function ClassifyRequest(t: string): (r: Option<Command>)
    requires NoUpper(t)
    ensures r.Some? ==> WellFormed(r.value) && (r.value.FindFile? || r.value.Open?)
    ensures r.Some? && r.value.FindFile? <==> FindKeyword(t).Some? && FindKeyword(t).value != ""
    ensures r.Some? && r.value.FindFile? ==> r.value.keyword == FindKeyword(t).value
    ensures r.Some? && r.value.Open? <==> (FindKeyword(t).None? || FindKeyword(t).value == "") && OpenApp(t).Some?
    ensures r.Some? && r.value.Open? ==> r.value.app == OpenApp(t).value
    ensures r.None? <==> (FindKeyword(t).None? || FindKeyword(t).value == "") && OpenApp(t).None?
  {
    var keyword := FindKeyword(t);
    if keyword.Some? && keyword.value != "" then Some(FindFile(keyword.value))
    else match OpenApp(t)
      case Some(app) => Some(Open(app))
      case None => None
  }

  /** The decision `basic_intent_parser` makes, as a command. */
  function Classify(text: string): (r: Option<Command>)
    ensures r.Some? ==> WellFormed(r.value)
    ensures r == Some(Explorer) <==> MentionsExplorer(Lower(text))
    ensures r == Some(PickFile) <==> !MentionsExplorer(Lower(text)) && MentionsFilePicker(Lower(text))
    ensures r.Some? && r.value.FindFile? ==> StartsWithFindPrefix(Lower(text))
    ensures !MentionsExplorer(Lower(text)) && !MentionsFilePicker(Lower(text)) ==> r == ClassifyRequest(Lower(text))
  {
    var t := Lower(text);
    if MentionsExplorer(t) then Some(Explorer)
    else if MentionsFilePicker(t) then Some(PickFile)
    else ClassifyRequest(t)
  }

  /** `basic_intent_parser(text)`: the rendered command, or `None`. */
  function ParseIntent(text: string): Option<string> {
    match Classify(text)
    case Some(c) => Some(Render(c))
    case None => None
  }

  /** A well-formed command renders to a lower-case reply with a non-empty
      payload after its tag. */
  lemma RenderShape(c: Command)
    requires WellFormed(c)
    ensures NoUpper(Render(c))
    ensures c.FindFile? ==> StartsWith(Render(c), "find_file:") && |Render(c)| > |"find_file:"|
    ensures c.Open? ==> StartsWith(Render(c), "open:") && |Render(c)| > |"open:"|
  {
    match c
    case Explorer => assert NoUpper("explorer");
    case PickFile => assert NoUpper("pick_file");
    case FindFile(k) =>
      assert NoUpper("find_file:");
      assert Render(c)[..|"find_file:"|] == "find_file:";
    case Open(a) =>
      assert NoUpper("open:");
      assert Render(c)[..|"open:"|] == "open:";
  }

  /** Every reply of the parser is lower-case and is one of the four command
      shapes the router understands. */
  lemma ParseIntentOutput(text: string)
    ensures ParseIntent(text).Some? ==> NoUpper(ParseIntent(text).value)
    ensures ParseIntent(text).Some? ==>
      var v := ParseIntent(text).value;
      || v == "explorer"
      || v == "pick_file"
      || (StartsWith(v, "find_file:") && |v| > |"find_file:"|)
      || (StartsWith(v, "open:") && |v| > |"open:"|)
  {
    var c := Classify(text);
    if c.Some? {
      RenderShape(c.value);
    }
  }

  /** A find request whose keyword does not repeat the prefix is parsed back
      to exactly that keyword. */
  lemma FindFileRoundTrip(k: string)
    requires k != "" && NoUpper(k) && Strip(k) == k && !Contains(k, "find file ")
    requires !MentionsExplorer("find file " + k) && !MentionsFilePicker("find file " + k)
    ensures Classify("find file " + k) == Some(FindFile(k))
  {
    var t := "find file " + k;
    PhrasesLower();
    NoUpperConcat("find file ", k);
    FindKeywordOf(k);
    ClassifyLowered(t);
  }

  /** A lower-case text that names neither the explorer nor the file picker
      goes to the request rules. */
  lemma ClassifyLowered(t: string)
    requires NoUpper(t) && !MentionsExplorer(t) && !MentionsFilePicker(t)
    ensures Classify(t) == ClassifyRequest(t)
  {
    assert Lower(t) == t;
  }

  /** The keyword of a find request is what follows its prefix. */
  lemma FindKeywordOf(k: string)
    requires Strip(k) == k && !Contains(k, "find file ")
    ensures FindKeyword("find file " + k) == Some(k)
  {
    var t := "find file " + k;
    assert t[..|"find file "|] == "find file ";
    ReplaceAllLeading("find file ", k, "");
    assert "" + k == k;
  }

  /** `replace` removes every occurrence of the prefix, so repeating the
      prefix does not change the keyword. */
  lemma RepeatedFindPrefix(k: string)
    ensures FindKeyword("find file find file " + k) == FindKeyword("find file " + k)
  {
    var t := "find file " + k;
    assert "find file find file " + k == "find file " + t;
    assert t[..|"find file "|] == "find file ";
    assert ("find file " + t)[..|"find file "|] == "find file ";
    assert ReplaceAll("find file " + t, "find file ", "") == ReplaceAll(t, "find file ", "") by {
      ReplaceAllLeading("find file ", t, "");
      assert "" + ReplaceAll(t, "find file ", "") == ReplaceAll(t, "find file ", "");
    }
  }

  /** No courtesy prefix applies to a text whose first letter starts none
      of them, such as one starting with an open verb. */
  lemma NoCourtesyBeforeOpen(t: string)
    requires |t| > 0 && t[0] != 'c' && t[0] != 'p' && t[0] != 'j'
    ensures StripCourtesy(t, CourtesyPrefixes) == t
  {
    NotPrefixAt(t, "can you ", 0);
    NotPrefixAt(t, "please ", 0);
    NotPrefixAt(t, "jarvis ", 0);
    NotPrefixAt(t, "could you ", 0);
  }

  /** "open " followed by a trimmed name targets that name. */
  lemma OpenTargetOf(app: string)
    requires app != "" && Strip(app) == app
    ensures OpenTarget("open " + app) == Some(app)
  {
    var t := "open " + app;
    assert t[..|"open "|] == "open ";
    AfterFirstOfPrefix("open ", ' ', app);
  }

  /** Each of the three open verbs followed by a trimmed name targets that name. */
  lemma VerbTargetOf(verb: string, app: string)
    requires verb == "open " || verb == "launch " || verb == "start "
    requires app != "" && Strip(app) == app
    ensures OpenTarget(verb + app) == Some(app)
  {
    var t := verb + app;
    assert t[..|verb|] == verb;
    AfterFirstOfPrefix(verb, ' ', app);
  }

  /** "open", "launch" or "start" followed by an app name is parsed back to
      that name. */
  lemma VerbRoundTrip(verb: string, app: string)
    requires verb == "open " || verb == "launch " || verb == "start "
    requires app != "" && NoUpper(app) && Strip(app) == app
    requires !MentionsExplorer(verb + app) && !MentionsFilePicker(verb + app)
    ensures Classify(verb + app) == Some(Open(app))
  {
    var t := verb + app;
    PhrasesLower();
    NoUpperConcat(verb, app);
    assert t[0] == verb[0] && t[1] == verb[1];
    NotPrefixAt(t, "find file ", 0);
    NotPrefixAt(t, "search for ", 1);
    NotPrefixAt(t, "where is ", 0);
    assert FindKeyword(t) == None;
    NoCourtesyBeforeOpen(t);
    VerbTargetOf(verb, app);
    assert OpenApp(t) == Some(app);
    ClassifyLowered(t);
  }

  /** A text that starts with none of the rule prefixes and ends with a
      fixed app phrase reaches the fallbacks, and contains that phrase. */
  lemma FallbackReached(pre: string, phrase: string)
    requires |pre| > 0 && NoUpper(pre) && NoUpper(phrase)
    requires pre[0] !in {'c', 'p', 'j', 'o', 'l', 's', 'f', 'w'}
    ensures NoUpper(pre + phrase)
    ensures FindKeyword(pre + phrase).None?
    ensures OpenTarget(StripCourtesy(pre + phrase, CourtesyPrefixes)).None?
    ensures Contains(pre + phrase, phrase)
  {
    var t := pre + phrase;
    NoUpperConcat(pre, phrase);
    assert t[0] == pre[0];
    NotFindRequest(t);
    NoCourtesyBeforeOpen(t);
    NotPrefixAt(t, "open ", 0);
    NotPrefixAt(t, "launch ", 0);
    NotPrefixAt(t, "start ", 0);
    ContainsSuffix(pre, phrase);
  }

  /** The find rule does not fire: no find prefix, or an empty keyword. */
  predicate NoFindRequest(t: string) {
    FindKeyword(t).None? || FindKeyword(t).value == ""
  }

  /** The open-verb rule does not fire: after the courtesy strip there is no
      open verb, or nothing follows it. */
  predicate NoVerbTarget(t: string) {
    var target := OpenTarget(StripCourtesy(t, CourtesyPrefixes));
    target.None? || target.value == ""
  }

  /** When neither the find rule nor the open-verb rule fires, "open
      calculator" anywhere in the text opens the calculator. */
  lemma CalculatorFallback(t: string)
    requires NoUpper(t) && NoFindRequest(t) && NoVerbTarget(t)
    requires Contains(t, "open calculator")
    ensures ClassifyRequest(t) == Some(Open("calculator"))
  {
  }

  /** The notepad is the second fallback: it is opened when named, the
      calculator is not, and neither earlier rule fires. */
  lemma NotepadFallback(t: string)
    requires NoUpper(t) && NoFindRequest(t) && NoVerbTarget(t)
    requires !Contains(t, "open calculator") && Contains(t, "open notepad")
    ensures ClassifyRequest(t) == Some(Open("notepad"))
  {
  }

  /** When no rule fires and neither fixed app is named, nothing is opened. */
  lemma NoRuleFires(t: string)
    requires NoUpper(t) && NoFindRequest(t) && NoVerbTarget(t)
    requires !Contains(t, "open calculator") && !Contains(t, "open notepad")
    ensures ClassifyRequest(t) == None
  {
  }

  /** A text whose first letter starts no rule prefix and which ends with
      "open calculator" reaches the calculator fallback. */
  lemma CalculatorAfterPlainStart(pre: string)
    requires |pre| > 0 && NoUpper(pre)
    requires pre[0] !in {'c', 'p', 'j', 'o', 'l', 's', 'f', 'w'}
    ensures NoUpper(pre + "open calculator")
    ensures ClassifyRequest(pre + "open calculator") == Some(Open("calculator"))
  {
    PhrasesLower();
    FallbackReached(pre, "open calculator");
  }

  /** The same for "open notepad", when the calculator is not named. */
  lemma NotepadAfterPlainStart(pre: string)
    requires |pre| > 0 && NoUpper(pre)
    requires pre[0] !in {'c', 'p', 'j', 'o', 'l', 's', 'f', 'w'}
    requires !Contains(pre + "open notepad", "open calculator")
    ensures NoUpper(pre + "open notepad")
    ensures ClassifyRequest(pre + "open notepad") == Some(Open("notepad"))
  {
    PhrasesLower();
    FallbackReached(pre, "open notepad");
  }

  /** The fixed phrases the rules match are already lower-case. */
  lemma PhrasesLower()
    ensures NoUpper("find file ") && NoUpper("open ") && NoUpper("launch ") && NoUpper("start ")
    ensures NoUpper("open calculator") && NoUpper("open notepad") && NoUpper("can you please open ")
    ensures NoUpper("calculator") && NoUpper("notepad")
  {
  }

  /** An open verb followed by an app name is parsed back to that name. */
  lemma OpenRoundTrip(app: string)
    requires app != "" && NoUpper(app) && Strip(app) == app
    requires !MentionsExplorer("open " + app) && !MentionsFilePicker("open " + app)
    ensures Classify("open " + app) == Some(Open(app))
  {
    var t := "open " + app;
    PhrasesLower();
    NoUpperConcat("open ", app);
    assert t[0] == 'o';
    NotPrefixAt(t, "find file ", 0);
    NotPrefixAt(t, "search for ", 0);
    NotPrefixAt(t, "where is ", 0);
    assert FindKeyword(t) == None;
    NoCourtesyBeforeOpen(t);
    OpenTargetOf(app);
    assert OpenApp(t) == Some(app);
  }

  /** Each courtesy prefix is removed at most once: after one "please " the
      second one stays and no open verb is recognised. */
  lemma CourtesyRemovedOnce(r: string)
    ensures OpenTarget(StripCourtesy("please please " + r, CourtesyPrefixes)).None?
  {
    var t := "please please " + r;
    NotPrefixAt(t, "can you ", 0);
    assert t[..|"please "|] == "please ";
    var s := "please " + r;
    assert t[|"please "|..] == s;
    var u := Strip(s);
    StripKeepsHead(s, 6);
    assert u[0] == 'p';
    NotPrefixAt(u, "jarvis ", 0);
    NotPrefixAt(u, "could you ", 0);
    assert StripCourtesy(t, CourtesyPrefixes) == u;
    NotPrefixAt(u, "open ", 0);
    NotPrefixAt(u, "launch ", 0);
    NotPrefixAt(u, "start ", 0);
  }

  /** The prefixes are tried in the fixed order can-you, please, jarvis,
      could-you: "please can you open X" keeps "can you" and opens nothing. */
  lemma CourtesyOrderMatters(r: string)
    ensures OpenTarget(StripCourtesy("please can you " + r, CourtesyPrefixes)).None?
  {
    var t := "please can you " + r;
    NotPrefixAt(t, "can you ", 0);
    assert t[..|"please "|] == "please ";
    var s := "can you " + r;
    assert t[|"please "|..] == s;
    var u := Strip(s);
    StripKeepsHead(s, 3);
    assert u[0] == 'c' && u[1] == 'a';
    NotPrefixAt(u, "jarvis ", 0);
    NotPrefixAt(u, "could you ", 1);
    assert StripCourtesy(t, CourtesyPrefixes) == u;
    NotPrefixAt(u, "open ", 0);
    NotPrefixAt(u, "launch ", 0);
    NotPrefixAt(u, "start ", 0);
  }

  /** A leading prefix is dropped together with nothing else when the rest
      is already trimmed. */
  lemma DropLeading(p: string, rest: string)
    requires |rest| > 0 && !IsSpace(rest[0]) && !IsSpace(rest[|rest| - 1])
    ensures DropCourtesy(p + rest, p) == rest
  {
    assert (p + rest)[..|p|] == p;
    assert (p + rest)[|p|..] == rest;
    StripTrimmed(rest);
  }

  /** A text whose first character differs from the prefix's keeps it. */
  lemma DropAbsent(t: string, p: string)
    requires |p| > 0 && |t| > 0 && t[0] != p[0]
    ensures DropCourtesy(t, p) == t
  {
    NotPrefixAt(t, p, 0);
  }

  /** "can you " and then "please " are both stripped, in that order. */
  lemma CourtesyStripsBoth(s2: string)
    requires |s2| > 0 && s2[0] == 'o' && !IsSpace(s2[|s2| - 1])
    ensures StripCourtesy("can you please " + s2, CourtesyPrefixes) == s2
  {
    var s1 := "please " + s2;
    assert s1[0] == 'p' && s1[|s1| - 1] == s2[|s2| - 1];
    calc {
      StripCourtesy("can you please " + s2, CourtesyPrefixes);
      { CanYouPlease(); ConcatAssoc("can you ", "please ", s2); }
      StripCourtesy(DropCourtesy("can you " + s1, "can you "), CourtesyPrefixes[1..]);
      { DropLeading("can you ", s1); }
      StripCourtesy(s1, CourtesyPrefixes[1..]);
      { PleaseStripped(s2); }
      s2;
    }
  }

  /** The two prefixes written together are the one phrase. */
  lemma CanYouPlease()
    ensures "can you please " == "can you " + "please "
  {
  }

  /** After "can you ", a leading "please " is stripped too. */
  lemma PleaseStripped(s2: string)
    requires |s2| > 0 && s2[0] == 'o' && !IsSpace(s2[|s2| - 1])
    ensures StripCourtesy("please " + s2, CourtesyPrefixes[1..]) == s2
  {
    var later := ["jarvis ", "could you "];
    calc {
      StripCourtesy("please " + s2, CourtesyPrefixes[1..]);
      { assert CourtesyPrefixes[1..] == ["please "] + later; }
      StripCourtesy(DropCourtesy("please " + s2, "please "), later);
      { DropLeading("please ", s2); }
      StripCourtesy(s2, later);
      { LaterPrefixesKeep(s2); }
      s2;
    }
  }

  /** A text opening with 'o' keeps the last two courtesy prefixes. */
  lemma LaterPrefixesKeep(t: string)
    requires |t| > 0 && t[0] == 'o'
    ensures StripCourtesy(t, ["jarvis ", "could you "]) == t
  {
    DropAbsent(t, "jarvis ");
    DropAbsent(t, "could you ");
    assert StripCourtesy(t, ["could you "]) == t;
  }

  /** In the other order both prefixes are stripped and the app is opened. */
  lemma CourtesyInOrder(app: string)
    requires app != "" && NoUpper(app) && Strip(app) == app
    requires !MentionsExplorer("can you please open " + app)
    requires !MentionsFilePicker("can you please open " + app)
    ensures Classify("can you please open " + app) == Some(Open(app))
  {
    CourtesyOpens(app);
  }

  /** A text that cannot start with a find prefix carries no keyword. */
  lemma NotFindRequest(t: string)
    requires |t| > 0 && t[0] != 'f' && t[0] != 's' && t[0] != 'w'
    ensures FindKeyword(t) == None
  {
    NotPrefixAt(t, "find file ", 0);
    NotPrefixAt(t, "search for ", 0);
    NotPrefixAt(t, "where is ", 0);
  }

  /** The request rules open the app named after both courtesy prefixes. */
  lemma CourtesyOpens(app: string)
    requires app != "" && NoUpper(app) && Strip(app) == app
    ensures NoUpper("can you please open " + app)
    ensures ClassifyRequest("can you please open " + app) == Some(Open(app))
  {
    var s2 := "open " + app;
    var t := "can you please " + s2;
    assert t == "can you please open " + app;
    PhrasesLower();
    assert NoUpper(t);
    assert t[0] == 'c';
    NotFindRequest(t);
    assert !IsSpace(app[|app| - 1]);
    CourtesyStripsBoth(s2);
    OpenTargetOf(app);
    assert OpenApp(t) == Some(app);
  }
}

=== FILE: memory.dfy ===
/** The conversation store (`MemoryManager`): a sessions table, a
    conversations table and the id of the current session. The two SQLite
    tables are modelled as sequences in insertion order. Times are integers
    read from a clock that never goes back: every operation that reads the
    clock is given the time elapsed since the last reading. */
module Memory {
  import opened Wrappers
  import opened Text

  /** Session ids are generated from the clock and are never empty. */
  type SessionId = s: string | |s| > 0 witness "s"

  /** Session metadata: a JSON object, stored only when non-empty. */
  type Metadata = map<string, string>

  /** A row of the sessions table. `totalMessages` is the schema default 0
      until the session is ended. */
  datatype Session = Session(
    id: SessionId,
    startTime: int,
    endTime: Option<int>,
    totalMessages: nat,
    metadata: Option<Metadata>)

  /** A row of the conversations table. */
  datatype Message = Message(
    sessionId: SessionId,
    timestamp: int,
    speaker: string,
    text: string,
    intent: Option<string>,
    responseTime: Option<real>)

  datatype Store = Store(
    sessions: seq<Session>,
    messages: seq<Message>,
    current: Option<SessionId>,
    clock: int)

  /** A fresh manager over empty tables, with no current session. */
  function Init(clock: int): Store {
    Store([], [], None, clock)
  }

  /** The row of the session with this id, if there is one. */
  function Find(sessions: seq<Session>, id: string): (r: Option<nat>)
    ensures r.Some? ==> r.value < |sessions| && sessions[r.value].id == id
    ensures r.None? <==> forall i :: 0 <= i < |sessions| ==> sessions[i].id != id
  {
    if |sessions| == 0 then None
    else if sessions[0].id == id then Some(0)
    else match Find(sessions[1..], id)
      case None => None
      case Some(i) => Some(i + 1)
  }

  predicate Known(st: Store, id: string) {
    Find(st.sessions, id).Some?
  }

  /** The messages of one session, in table order. */
  function Of(messages: seq<Message>, id: string): (r: seq<Message>)
    ensures |r| <= |messages|
    ensures forall k :: 0 <= k < |r| ==> r[k].sessionId == id && r[k] in messages
  {
    if |messages| == 0 then []
    else
      var last := messages[|messages| - 1];
      Of(messages[..|messages| - 1], id) + (if last.sessionId == id then [last] else [])
  }

  /** `json.dumps(metadata) if metadata else None`: absent and empty metadata
      are both stored as NULL. */
  function StoredMetadata(metadata: Option<Metadata>): (r: Option<Metadata>)
    ensures r.Some? ==> r == metadata && |r.value| > 0
    ensures metadata.Some? && |metadata.value| > 0 ==> r == metadata
  {
    if metadata.Some? && |metadata.value| > 0 then metadata else None
  }

  /** `start_session(metadata)` with the id the clock produced. The insert
      fails on a duplicate primary key. */
  function StartSession(st: Store, id: SessionId, tick: nat, metadata: Option<Metadata>): (r: Result<Store, string>)
    ensures r.Err? <==> Known(st, id)
    ensures r.Ok? ==> |r.value.sessions| == |st.sessions| + 1 && r.value.sessions[..|st.sessions|] == st.sessions
    ensures r.Ok? ==> var s := r.value.sessions[|st.sessions|];
      s.id == id && s.startTime == st.clock + tick && s.endTime.None? && s.totalMessages == 0
    ensures r.Ok? ==> r.value.messages == st.messages && r.value.current == Some(id)
  {
    if Known(st, id) then Err("UNIQUE constraint failed: sessions.session_id")
    else
      var now := st.clock + tick;
      var s := Session(id, now, None, 0, StoredMetadata(metadata));
      assert (st.sessions + [s])[..|st.sessions|] == st.sessions;
      Ok(Store(st.sessions + [s], st.messages, Some(id), now))
  }

  /** The session rows with the row of `id` ended at `now` and its message
      count filled in. */
  function CloseRow(sessions: seq<Session>, id: string, now: int, count: nat): (r: seq<Session>)
    ensures |r| == |sessions|
    ensures forall i :: 0 <= i < |r| && sessions[i].id != id ==> r[i] == sessions[i]
    ensures forall i :: 0 <= i < |r| && sessions[i].id == id ==>
      r[i] == sessions[i].(endTime := Some(now), totalMessages := count)
  {
    seq(|sessions|, i requires 0 <= i < |sessions| =>
      if sessions[i].id == id then sessions[i].(endTime := Some(now), totalMessages := count)
      else sessions[i])
  }

  /** `end_session()`: nothing without a current session; otherwise the
      session gets its end time and message count, and is no longer current. */
  function EndSession(st: Store, tick: nat): (r: Store)
    ensures st.current.None? ==> r == st
    ensures st.current.Some? ==> r.current.None? && r.messages == st.messages && |r.sessions| == |st.sessions|
    ensures st.current.Some? ==> forall i :: 0 <= i < |r.sessions| ==>
      r.sessions[i].id == st.sessions[i].id && r.sessions[i].startTime == st.sessions[i].startTime
      && r.sessions[i].metadata == st.sessions[i].metadata
    ensures st.current.Some? ==> forall i :: 0 <= i < |r.sessions| && st.sessions[i].id != st.current.value ==>
      r.sessions[i] == st.sessions[i]
    ensures st.current.Some? ==> forall i :: 0 <= i < |r.sessions| && st.sessions[i].id == st.current.value ==>
      r.sessions[i].endTime == Some(st.clock + tick) && r.sessions[i].totalMessages == |Of(st.messages, st.current.value)|
  {
    match st.current
    case None => st
    case Some(id) =>
      var now := st.clock + tick;
      Store(CloseRow(st.sessions, id, now, |Of(st.messages, id)|), st.messages, None, now)
  }

  /** `log_message(speaker, message, intent, response_time)`. Without a
      current session one is started first, with the id `freshId`. */
  function LogMessage(st: Store, speaker: string, text: string, intent: Option<string>,
                      responseTime: Option<real>, freshId: SessionId, tick: nat): (r: Result<Store, string>)
    ensures st.current.Some? ==> r.Ok?
    ensures r.Ok? ==> r.value.current.Some?
    ensures r.Ok? ==> st.current.Some? ==> r.value.current == st.current && r.value.sessions == st.sessions
    ensures r.Ok? ==> |r.value.messages| == |st.messages| + 1 && r.value.messages[..|st.messages|] == st.messages
    ensures r.Ok? ==> var m := r.value.messages[|st.messages|];
      m.sessionId == r.value.current.value && m.speaker == speaker && m.text == text
      && m.intent == intent && m.responseTime == responseTime
    ensures st.current.None? ==> (r.Err? <==> Known(st, freshId))
    ensures r.Ok? && st.current.None? ==>
      r.value.current == Some(freshId) && r.value.sessions == StartSession(st, freshId, tick, None).value.sessions
    ensures r.Ok? ==> r.value.clock == st.clock + tick && r.value.messages[|st.messages|].timestamp == st.clock + tick
  {
    var started := if st.current.None? then StartSession(st, freshId, tick, None) else Ok(st.(clock := st.clock + tick));
    match started
    case Err(e) => Err(e)
    case Ok(s1) =>
      var m := Message(s1.current.value, s1.clock, speaker, text, intent, responseTime);
      assert (s1.messages + [m])[..|st.messages|] == st.messages;
      Ok(s1.(messages := s1.messages + [m]))
  }

  /** SQLite `LIMIT n`: a negative limit means no limit. */
  function SqlLimit<T>(xs: seq<T>, n: int): (r: seq<T>)
    ensures n < 0 ==> r == xs
    ensures n >= 0 ==> |r| == if n < |xs| then n else |xs|
    ensures |r| <= |xs| && r == xs[..|r|]
  {
    if n < 0 || n >= |xs| then xs else xs[..n]
  }

  /** `if limit: query += f' LIMIT {limit}'`: an absent or zero limit adds no
      clause at all. */
  function OptionalLimit<T>(xs: seq<T>, limit: Option<int>): (r: seq<T>)
    ensures limit.None? || limit == Some(0) ==> r == xs
    ensures limit.Some? && limit.value != 0 ==> r == SqlLimit(xs, limit.value)
  {
    match limit
    case None => xs
    case Some(n) => if n == 0 then xs else SqlLimit(xs, n)
  }

  function Reverse<T>(xs: seq<T>): (r: seq<T>)
    ensures |r| == |xs|
    ensures forall i :: 0 <= i < |xs| ==> r[i] == xs[|xs| - 1 - i]
  {
    if |xs| == 0 then [] else [xs[|xs| - 1]] + Reverse(xs[..|xs| - 1])
  }

  /** The session a history query reads: the given id, else the current one;
      absent when that is missing or empty. */
  function HistorySession(st: Store, sessionId: Option<string>): (r: Option<SessionId>)
    ensures sessionId.None? ==> r == st.current
    ensures sessionId.Some? && sessionId.value != "" ==> r == Some(sessionId.value)
    ensures sessionId == Some("") ==> r.None?
  {
    match sessionId
    case None => st.current
    case Some(id) => if id == "" then None else Some(id)
  }

  /** `get_session_history(session_id, limit)`: the session's messages in
      ascending time order, the first `limit` of them when a limit is given. */
  function GetSessionHistory(st: Store, sessionId: Option<string>, limit: Option<int>): (r: seq<Message>)
    ensures HistorySession(st, sessionId).None? ==> r == []
    ensures HistorySession(st, sessionId).Some? ==>
      var all := Of(st.messages, HistorySession(st, sessionId).value);
      |r| <= |all| && r == all[..|r|]
    ensures HistorySession(st, sessionId).Some? && (limit.None? || limit == Some(0) || limit.value < 0) ==>
      r == Of(st.messages, HistorySession(st, sessionId).value)
    ensures HistorySession(st, sessionId).Some? && limit.Some? && limit.value > 0 ==>
      var all := Of(st.messages, HistorySession(st, sessionId).value);
      r == all[..if limit.value < |all| then limit.value else |all|]
    ensures forall k :: 0 <= k < |r| ==> Some(r[k].sessionId) == HistorySession(st, sessionId)
  {
    match HistorySession(st, sessionId)
    case None => []
    case Some(id) => OptionalLimit(Of(st.messages, id), limit)
  }

  /** `get_all_sessions(limit)`: the session rows, latest start first. */
  function GetAllSessions(st: Store, limit: Option<int>): (r: seq<Session>)
    ensures |r| <= |st.sessions|
    ensures limit.None? || limit == Some(0) || limit.value < 0 ==> |r| == |st.sessions|
    ensures limit.Some? && limit.value > 0 ==> |r| == if limit.value < |st.sessions| then limit.value else |st.sessions|
    ensures forall i :: 0 <= i < |r| ==> r[i] == st.sessions[|st.sessions| - 1 - i]
  {
    OptionalLimit(Reverse(st.sessions), limit)
  }

  /** A row of the search join: the message with its session's start time. */
  datatype SearchHit = SearchHit(sessionId: SessionId, timestamp: int, speaker: string, text: string, sessionStart: int)

  /** `message LIKE '%query%'`: a case-insensitive substring test. */
  predicate Matches(text: string, query: string) {
    Contains(Lower(text), Lower(query))
  }

  /** The join row of one message: present when its text matches and its
      session has a row. */
  function HitOf(sessions: seq<Session>, m: Message, query: string): (r: seq<SearchHit>)
    ensures |r| <= 1
    ensures |r| == 1 <==> Matches(m.text, query) && Find(sessions, m.sessionId).Some?
    ensures forall k :: 0 <= k < |r| ==>
      r[k].sessionId == m.sessionId && r[k].timestamp == m.timestamp
      && r[k].speaker == m.speaker && r[k].text == m.text
      && r[k].sessionStart == sessions[Find(sessions, m.sessionId).value].startTime
  {
    match Find(sessions, m.sessionId)
    case Some(i) =>
      if Matches(m.text, query) then [SearchHit(m.sessionId, m.timestamp, m.speaker, m.text, sessions[i].startTime)]
      else []
    case None => []
  }

  /** The join of matching messages with their sessions, in table order. */
  function Hits(sessions: seq<Session>, messages: seq<Message>, query: string): (r: seq<SearchHit>)
    ensures |r| <= |messages|
    ensures forall k :: 0 <= k < |r| ==> Matches(r[k].text, query)
    ensures forall k :: 0 <= k < |r| ==> Find(sessions, r[k].sessionId).Some?
  {
    if |messages| == 0 then []
    else Hits(sessions, messages[..|messages| - 1], query) + HitOf(sessions, messages[|messages| - 1], query)
  }

  /** `search_conversations(query, limit)`: matching messages of existing
      sessions, newest first, at most `limit` of them. */
  function SearchConversations(st: Store, query: string, limit: int): (r: seq<SearchHit>)
    ensures limit < 0 ==> |r| == |Hits(st.sessions, st.messages, query)|
    ensures limit >= 0 ==> |r| == if limit < |Hits(st.sessions, st.messages, query)| then limit
                                  else |Hits(st.sessions, st.messages, query)|
    ensures ReversedPrefix(r, Hits(st.sessions, st.messages, query))
    ensures forall k :: 0 <= k < |r| ==> Matches(r[k].text, query) && Known(st, r[k].sessionId)
  {
    var hits := Hits(st.sessions, st.messages, query);
    var r := NewestFirst(hits, limit);
    ReversedHits(r, hits, st.sessions, query);
    r
  }

  /** Reordering hits keeps them hits. */
  lemma ReversedHits(r: seq<SearchHit>, hits: seq<SearchHit>, sessions: seq<Session>, query: string)
    requires ReversedPrefix(r, hits)
    requires forall k :: 0 <= k < |hits| ==> Matches(hits[k].text, query) && Find(sessions, hits[k].sessionId).Some?
    ensures forall k :: 0 <= k < |r| ==> Matches(r[k].text, query) && Find(sessions, r[k].sessionId).Some?
  {
    forall k | 0 <= k < |r|
      ensures Matches(r[k].text, query) && Find(sessions, r[k].sessionId).Some?
    {
      assert r[k] == hits[|hits| - 1 - k];
    }
  }

  /** `r` lists the last entries of `xs`, from the end backwards. */
  predicate ReversedPrefix<T(==)>(r: seq<T>, xs: seq<T>) {
    |r| <= |xs| && forall k :: 0 <= k < |r| ==> r[k] == xs[|xs| - 1 - k]
  }

  lemma ReversedPrefixAt<T>(r: seq<T>, xs: seq<T>, k: nat)
    requires ReversedPrefix(r, xs) && k < |r|
    ensures k < |xs| && r[k] == xs[|xs| - 1 - k]
  {
  }

  /** When nothing is cut off, entry `p` of `xs` is listed at `|xs| - 1 - p`. */
  lemma ReversedEntry<T>(r: seq<T>, xs: seq<T>, p: nat)
    requires ReversedPrefix(r, xs) && |r| == |xs| && p < |xs|
    ensures r[|xs| - 1 - p] == xs[p]
  {
    var k := |xs| - 1 - p;
    assert r[k] == xs[|xs| - 1 - k];
    assert |xs| - 1 - k == p;
  }

  /** `ORDER BY … DESC LIMIT limit` over rows held in ascending order. */
  function NewestFirst<T(==)>(xs: seq<T>, limit: int): (r: seq<T>)
    ensures limit < 0 ==> |r| == |xs|
    ensures limit >= 0 ==> |r| == if limit < |xs| then limit else |xs|
    ensures ReversedPrefix(r, xs)
  {
    SqlLimit(Reverse(xs), limit)
  }

  /** `get_recent_context(num_messages)`: the history of the current session
      under the limit. The query sorts ascending before limiting, so this is
      the earliest `num_messages` messages of the session, not the latest. */
  function GetRecentContext(st: Store, numMessages: int): (r: seq<Message>)
    ensures st.current.None? ==> r == []
    ensures st.current.Some? && numMessages <= 0 ==> r == Of(st.messages, st.current.value)
    ensures st.current.Some? && numMessages > 0 ==>
      var all := Of(st.messages, st.current.value);
      r == all[..if numMessages < |all| then numMessages else |all|]
  {
    if st.current.None? then [] else GetSessionHistory(st, None, Some(numMessages))
  }

  /** The number of messages by one speaker. */
  function CountSpeaker(messages: seq<Message>, speaker: string): (n: nat)
    ensures n <= |messages|
    ensures n == 0 <==> forall k :: 0 <= k < |messages| ==> messages[k].speaker != speaker
    ensures n == |messages| <==> forall k :: 0 <= k < |messages| ==> messages[k].speaker == speaker
  {
    if |messages| == 0 then 0
    else
      var here := if messages[|messages| - 1].speaker == speaker then 1 else 0;
      CountSpeaker(messages[..|messages| - 1], speaker) + here
  }

  /** The sessions whose stored message count is positive. */
  function Counted(sessions: seq<Session>): (r: seq<Session>)
    ensures |r| <= |sessions|
    ensures forall k :: 0 <= k < |r| ==> r[k].totalMessages > 0 && r[k] in sessions
  {
    if |sessions| == 0 then []
    else
      var s := sessions[|sessions| - 1];
      Counted(sessions[..|sessions| - 1]) + (if s.totalMessages > 0 then [s] else [])
  }

  function SumTotals(sessions: seq<Session>): nat {
    if |sessions| == 0 then 0
    else SumTotals(sessions[..|sessions| - 1]) + sessions[|sessions| - 1].totalMessages
  }

  /** `AVG(total_messages) ... WHERE total_messages > 0`, with SQL's NULL for
      no rows turned into 0 by `or 0`. */
  function AverageLength(sessions: seq<Session>): (r: real)
    ensures |Counted(sessions)| == 0 ==> r == 0.0
    ensures |Counted(sessions)| > 0 ==> Mean(r, SumTotals(Counted(sessions)), |Counted(sessions)|)
  {
    var counted := Counted(sessions);
    if |counted| == 0 then 0.0
    else
      var total, n := SumTotals(counted), |counted|;
      MeanOfQuotient(total, n);
      total as real / n as real
  }

  /** `r` is the mean of `count` values adding up to `total`. */
  predicate Mean(r: real, total: nat, count: nat) {
    r * count as real == total as real
  }

  lemma MeanOfQuotient(total: nat, count: nat)
    requires count > 0
    ensures Mean(total as real / count as real, total, count)
  {
  }

  datatype Statistics = Statistics(
    totalSessions: nat,
    totalMessages: nat,
    userMessages: nat,
    assistantMessages: nat,
    averageSessionLength: real)

  /** `get_statistics()`, without the rounding of the average and the path. */
  function GetStatistics(st: Store): (r: Statistics)
    ensures r.totalSessions == |st.sessions| && r.totalMessages == |st.messages|
    ensures r.userMessages == CountSpeaker(st.messages, "USER")
    ensures r.assistantMessages == CountSpeaker(st.messages, "MAREEN")
    ensures r.userMessages + r.assistantMessages <= r.totalMessages
    ensures r.averageSessionLength == AverageLength(st.sessions)
    ensures |Counted(st.sessions)| == 0 ==> r.averageSessionLength == 0.0
    ensures |Counted(st.sessions)| > 0 ==> r.averageSessionLength >= 1.0
  {
    SpeakersDisjoint(st.messages);
    AverageAtLeastOne(st.sessions);
    Statistics(|st.sessions|, |st.messages|, CountSpeaker(st.messages, "USER"),
               CountSpeaker(st.messages, "MAREEN"), AverageLength(st.sessions))
  }

  lemma CountSpeakerSnoc(messages: seq<Message>, m: Message, speaker: string)
    ensures CountSpeaker(messages + [m], speaker) == CountSpeaker(messages, speaker) + (if m.speaker == speaker then 1 else 0)
  {
    assert (messages + [m])[..|messages|] == messages;
  }

  /** Logging a message adds one to the total and one to its speaker's count,
      and leaves the sessions' figures as they are when a session was open. */
  lemma StatisticsAfterLog(st: Store, speaker: string, text: string, intent: Option<string>,
                           responseTime: Option<real>, freshId: SessionId, tick: nat)
    requires LogMessage(st, speaker, text, intent, responseTime, freshId, tick).Ok?
    ensures var before, after := GetStatistics(st), GetStatistics(LogMessage(st, speaker, text, intent, responseTime, freshId, tick).value);
      && after.totalMessages == before.totalMessages + 1
      && after.userMessages == before.userMessages + (if speaker == "USER" then 1 else 0)
      && after.assistantMessages == before.assistantMessages + (if speaker == "MAREEN" then 1 else 0)
      && (st.current.Some? ==> after.totalSessions == before.totalSessions
                               && after.averageSessionLength == before.averageSessionLength)
  {
    var r := LogMessage(st, speaker, text, intent, responseTime, freshId, tick).value;
    var m := r.messages[|st.messages|];
    assert r.messages == st.messages + [m];
    CountSpeakerSnoc(st.messages, m, "USER");
    CountSpeakerSnoc(st.messages, m, "MAREEN");
  }

  /** A message has one speaker, so user and assistant messages never
      outnumber all messages. */
  lemma {:induction false} SpeakersDisjoint(messages: seq<Message>)
    ensures CountSpeaker(messages, "USER") + CountSpeaker(messages, "MAREEN") <= |messages|
  {
    if |messages| > 0 {
      SpeakersDisjoint(messages[..|messages| - 1]);
      assert "USER" != "MAREEN" by { assert |"USER"| != |"MAREEN"|; }
    }
  }

  /** The exported session: its row and its messages in ascending time order. */
  datatype ExportRecord = ExportRecord(
    sessionId: SessionId,
    startTime: int,
    endTime: Option<int>,
    totalMessages: nat,
    metadata: Option<Metadata>,
    conversations: seq<Message>)

  /** `export_session(session_id, output_file)` as the record it writes;
      nothing for an unknown id. */
  function ExportSession(st: Store, id: string): (r: Option<ExportRecord>)
    ensures r.None? <==> !Known(st, id)
    ensures r.Some? ==> r.value.sessionId == id && r.value.conversations == Of(st.messages, id)
    ensures r.Some? ==> var s := st.sessions[Find(st.sessions, id).value];
      r.value.startTime == s.startTime && r.value.endTime == s.endTime
      && r.value.totalMessages == s.totalMessages && r.value.metadata == s.metadata
  {
    match Find(st.sessions, id)
    case None => None
    case Some(i) =>
      var s := st.sessions[i];
      Some(ExportRecord(s.id, s.startTime, s.endTime, s.totalMessages, s.metadata, Of(st.messages, id)))
  }

  predicate UniqueIds(sessions: seq<Session>) {
    forall i, j :: 0 <= i < j < |sessions| ==> sessions[i].id != sessions[j].id
  }

  /** Rows are inserted at the clock's time, so table order is time order. */
  predicate SessionsInTimeOrder(sessions: seq<Session>, clock: int) {
    && (forall i, j :: 0 <= i < j < |sessions| ==> sessions[i].startTime <= sessions[j].startTime)
    && (forall i :: 0 <= i < |sessions| ==> sessions[i].startTime <= clock)
  }

  predicate MessagesInTimeOrder(messages: seq<Message>, clock: int) {
    && (forall i, j :: 0 <= i < j < |messages| ==> messages[i].timestamp <= messages[j].timestamp)
    && (forall i :: 0 <= i < |messages| ==> messages[i].timestamp <= clock)
  }

  /** Every message belongs to a session row (the foreign key). */
  predicate MessagesKnown(sessions: seq<Session>, messages: seq<Message>) {
    forall k :: 0 <= k < |messages| ==> Find(sessions, messages[k].sessionId).Some?
  }

  /** The current session has a row and has not been ended. */
  predicate CurrentOpen(st: Store) {
    st.current.Some? ==>
      Find(st.sessions, st.current.value).Some? && st.sessions[Find(st.sessions, st.current.value).value].endTime.None?
  }

  /** A session's stored count is 0 until it ends and then equals its number
      of messages. */
  predicate CountsAccurate(sessions: seq<Session>, messages: seq<Message>) {
    forall i :: 0 <= i < |sessions| ==>
      if sessions[i].endTime.None? then sessions[i].totalMessages == 0
      else sessions[i].totalMessages == |Of(messages, sessions[i].id)|
  }

  /** What the operations keep true of the store. */
  predicate Valid(st: Store) {
    && UniqueIds(st.sessions)
    && SessionsInTimeOrder(st.sessions, st.clock)
    && MessagesInTimeOrder(st.messages, st.clock)
    && MessagesKnown(st.sessions, st.messages)
    && CurrentOpen(st)
    && CountsAccurate(st.sessions, st.messages)
  }

  lemma InitValid(clock: int)
    ensures Valid(Init(clock))
  {
  }

  /** Adding a row keeps every earlier lookup and finds the new id at the end. */
  lemma {:induction false} FindSnoc(sessions: seq<Session>, s: Session, id: string)
    ensures Find(sessions, id).Some? ==> Find(sessions + [s], id) == Find(sessions, id)
    ensures Find(sessions, id).None? && s.id == id ==> Find(sessions + [s], id) == Some(|sessions|)
    ensures Find(sessions, id).None? && s.id != id ==> Find(sessions + [s], id).None?
  {
    if |sessions| > 0 {
      assert (sessions + [s])[1..] == sessions[1..] + [s];
      FindSnoc(sessions[1..], s, id);
    }
  }

  /** Lookups depend only on the ids of the rows. */
  lemma {:induction false} FindSameIds(a: seq<Session>, b: seq<Session>, id: string)
    requires |a| == |b| && forall i :: 0 <= i < |a| ==> a[i].id == b[i].id
    ensures Find(a, id) == Find(b, id)
  {
    if |a| > 0 {
      FindSameIds(a[1..], b[1..], id);
    }
  }

  /** In a table with unique ids, the row found is the only one with that id. */
  lemma FindUnique(sessions: seq<Session>, id: string, i: nat)
    requires UniqueIds(sessions) && i < |sessions| && sessions[i].id == id
    ensures Find(sessions, id) == Some(i)
  {
  }

  lemma OfSnoc(messages: seq<Message>, m: Message, id: string)
    ensures Of(messages + [m], id) == Of(messages, id) + (if m.sessionId == id then [m] else [])
  {
    assert (messages + [m])[..|messages|] == messages;
  }

  /** A session's messages are exactly the table's messages with its id. */
  lemma {:induction false} OfMembers(messages: seq<Message>, id: string, m: Message)
    ensures m in Of(messages, id) <==> m in messages && m.sessionId == id
    decreases |messages|
  {
    if |messages| > 0 {
      var init := messages[..|messages| - 1];
      OfMembers(init, id, m);
      assert messages == init + [messages[|messages| - 1]];
    }
  }

  /** A session that was not known has no messages in a valid store. */
  lemma {:induction false} OfUnknown(sessions: seq<Session>, messages: seq<Message>, id: string)
    requires MessagesKnown(sessions, messages) && Find(sessions, id).None?
    ensures Of(messages, id) == []
    decreases |messages|
  {
    if |messages| > 0 {
      var init := messages[..|messages| - 1];
      assert MessagesKnown(sessions, init) by {
        forall k | 0 <= k < |init|
          ensures Find(sessions, init[k].sessionId).Some?
        {
          assert init[k] == messages[k];
        }
      }
      OfUnknown(sessions, init, id);
      assert Find(sessions, messages[|messages| - 1].sessionId).Some?;
    }
  }

  lemma StartValid(st: Store, id: SessionId, tick: nat, metadata: Option<Metadata>)
    requires Valid(st) && StartSession(st, id, tick, metadata).Ok?
    ensures Valid(StartSession(st, id, tick, metadata).value)
  {
    var r := StartSession(st, id, tick, metadata).value;
    var s := r.sessions[|st.sessions|];
    assert r.sessions == st.sessions + [s];
    RowAddedUnique(st.sessions, s);
    RowAddedInOrder(st.sessions, st.clock, s, r.clock);
    MessagesLater(st.messages, st.clock, r.clock);
    RowAddedKnown(st.sessions, st.messages, s);
    FindSnoc(st.sessions, s, id);
    RowAddedCounts(st.sessions, st.messages, s);
  }

  /** A row whose id was not in the table keeps the ids unique. */
  lemma RowAddedUnique(sessions: seq<Session>, s: Session)
    requires UniqueIds(sessions) && Find(sessions, s.id).None?
    ensures UniqueIds(sessions + [s])
  {
  }

  /** A row started at or after the clock keeps the table in time order. */
  lemma RowAddedInOrder(sessions: seq<Session>, clock: int, s: Session, now: int)
    requires SessionsInTimeOrder(sessions, clock) && clock <= s.startTime == now
    ensures SessionsInTimeOrder(sessions + [s], now)
  {
  }

  /** Moving the clock forward keeps the messages in time order. */
  lemma MessagesLater(messages: seq<Message>, clock: int, now: int)
    requires MessagesInTimeOrder(messages, clock) && clock <= now
    ensures MessagesInTimeOrder(messages, now)
  {
  }

  /** Adding a row keeps every message's session known. */
  lemma RowAddedKnown(sessions: seq<Session>, messages: seq<Message>, s: Session)
    requires MessagesKnown(sessions, messages)
    ensures MessagesKnown(sessions + [s], messages)
  {
    forall k | 0 <= k < |messages|
      ensures Find(sessions + [s], messages[k].sessionId).Some?
    {
      FindSnoc(sessions, s, messages[k].sessionId);
    }
  }

  /** An open row with a zero count keeps the counts accurate. */
  lemma RowAddedCounts(sessions: seq<Session>, messages: seq<Message>, s: Session)
    requires CountsAccurate(sessions, messages) && s.endTime.None? && s.totalMessages == 0
    ensures CountsAccurate(sessions + [s], messages)
  {
    forall i | 0 <= i < |sessions| + 1
      ensures var t := (sessions + [s])[i];
        if t.endTime.None? then t.totalMessages == 0 else t.totalMessages == |Of(messages, t.id)|
    {
      if i < |sessions| {
        assert (sessions + [s])[i] == sessions[i];
      }
    }
  }

  /** Appending a message of the current session at the clock's time. */
  lemma AppendValid(st: Store, m: Message)
    requires Valid(st) && st.current == Some(m.sessionId) && m.timestamp == st.clock
    ensures Valid(st.(messages := st.messages + [m]))
  {
    var cur := Find(st.sessions, m.sessionId).value;
    forall i | 0 <= i < |st.sessions| && st.sessions[i].endTime.Some?
      ensures st.sessions[i].id != m.sessionId
    {
      if i != cur {
        assert st.sessions[i].id != st.sessions[cur].id;
      }
    }
    SnocOrdered(st.sessions, st.messages, st.clock, m);
    SnocCounts(st.sessions, st.messages, m);
  }

  /** A message stamped with the clock, for a session that has a row, keeps
      the message table ordered and its foreign key satisfied. */
  lemma SnocOrdered(sessions: seq<Session>, messages: seq<Message>, clock: int, m: Message)
    requires MessagesInTimeOrder(messages, clock) && MessagesKnown(sessions, messages)
    requires Find(sessions, m.sessionId).Some? && m.timestamp == clock
    ensures MessagesInTimeOrder(messages + [m], clock) && MessagesKnown(sessions, messages + [m])
  {
    var r := messages + [m];
    forall k | 0 <= k < |r|
      ensures Find(sessions, r[k].sessionId).Some? && r[k].timestamp <= clock
    {
      if k < |messages| {
        assert r[k] == messages[k];
      }
    }
  }

  /** A message for a session that has not ended leaves every ended
      session's count accurate. */
  lemma SnocCounts(sessions: seq<Session>, messages: seq<Message>, m: Message)
    requires CountsAccurate(sessions, messages)
    requires forall i :: 0 <= i < |sessions| && sessions[i].endTime.Some? ==> sessions[i].id != m.sessionId
    ensures CountsAccurate(sessions, messages + [m])
  {
    forall i | 0 <= i < |sessions| && sessions[i].endTime.Some?
      ensures |Of(messages + [m], sessions[i].id)| == |Of(messages, sessions[i].id)|
    {
      OfSnoc(messages, m, sessions[i].id);
    }
  }

  lemma LogValid(st: Store, speaker: string, text: string, intent: Option<string>,
                 responseTime: Option<real>, freshId: SessionId, tick: nat)
    requires Valid(st) && LogMessage(st, speaker, text, intent, responseTime, freshId, tick).Ok?
    ensures Valid(LogMessage(st, speaker, text, intent, responseTime, freshId, tick).value)
  {
    var s1 := if st.current.None? then StartSession(st, freshId, tick, None).value else st.(clock := st.clock + tick);
    if st.current.None? {
      StartValid(st, freshId, tick, None);
    }
    var m := Message(s1.current.value, s1.clock, speaker, text, intent, responseTime);
    assert LogMessage(st, speaker, text, intent, responseTime, freshId, tick).value == s1.(messages := s1.messages + [m]);
    AppendValid(s1, m);
  }

  lemma EndValid(st: Store, tick: nat)
    requires Valid(st)
    ensures Valid(EndSession(st, tick))
  {
    if st.current.Some? {
      var r := EndSession(st, tick);
      SameRowsUnique(r.sessions, st.sessions);
      SameRowsInOrder(r.sessions, st.sessions, st.clock, r.clock);
      MessagesLater(st.messages, st.clock, r.clock);
      SameRowsKnown(r.sessions, st.sessions, st.messages);
      EndCounts(st, tick);
    }
  }

  /** Two tables whose rows agree on id and start time. */
  predicate SameRows(a: seq<Session>, b: seq<Session>) {
    |a| == |b| && forall i :: 0 <= i < |a| ==> a[i].id == b[i].id && a[i].startTime == b[i].startTime
  }

  lemma SameRowsUnique(a: seq<Session>, b: seq<Session>)
    requires SameRows(a, b) && UniqueIds(b)
    ensures UniqueIds(a)
  {
  }

  lemma SameRowsInOrder(a: seq<Session>, b: seq<Session>, clock: int, now: int)
    requires SameRows(a, b) && SessionsInTimeOrder(b, clock) && clock <= now
    ensures SessionsInTimeOrder(a, now)
  {
  }

  lemma SameRowsKnown(a: seq<Session>, b: seq<Session>, messages: seq<Message>)
    requires SameRows(a, b) && MessagesKnown(b, messages)
    ensures MessagesKnown(a, messages)
  {
    forall k | 0 <= k < |messages|
      ensures Find(a, messages[k].sessionId).Some?
    {
      FindSameIds(a, b, messages[k].sessionId);
    }
  }

  /** Ending fills in the count of the ended row and leaves the others. */
  lemma EndCounts(st: Store, tick: nat)
    requires st.current.Some? && CountsAccurate(st.sessions, st.messages)
    ensures CountsAccurate(EndSession(st, tick).sessions, st.messages)
  {
  }

  /** Logging appends the message to the current session's history; when no
      session was current, the history of the started one is that message alone. */
  lemma LogThenHistory(st: Store, speaker: string, text: string, intent: Option<string>,
                       responseTime: Option<real>, freshId: SessionId, tick: nat)
    requires Valid(st) && LogMessage(st, speaker, text, intent, responseTime, freshId, tick).Ok?
    ensures var r := LogMessage(st, speaker, text, intent, responseTime, freshId, tick).value;
      var m := r.messages[|st.messages|];
      GetSessionHistory(r, None, None) == GetSessionHistory(st, None, None) + [m]
  {
    var r := LogMessage(st, speaker, text, intent, responseTime, freshId, tick).value;
    var m := r.messages[|st.messages|];
    assert r.messages == st.messages + [m];
    OfSnoc(st.messages, m, r.current.value);
    if st.current.None? {
      OfUnknown(st.sessions, st.messages, freshId);
    }
  }

  /** A subsequence of time-ordered messages is time-ordered. */
  lemma {:induction false} OfInTimeOrder(messages: seq<Message>, clock: int, id: string)
    requires MessagesInTimeOrder(messages, clock)
    ensures MessagesInTimeOrder(Of(messages, id), clock)
    decreases |messages|
  {
    if |messages| > 0 {
      var init := messages[..|messages| - 1];
      var last := messages[|messages| - 1];
      OfInTimeOrder(init, clock, id);
      var r0 := Of(init, id);
      forall k | 0 <= k < |r0|
        ensures r0[k].timestamp <= last.timestamp
      {
        var j :| 0 <= j < |init| && init[j] == r0[k];
        assert messages[j] == init[j];
      }
    }
  }

  /** The history of a session is in ascending time order, as the query's
      ORDER BY demands, because the table is filled in time order. */
  lemma HistoryAscending(st: Store, sessionId: Option<string>, limit: Option<int>)
    requires Valid(st)
    ensures var h := GetSessionHistory(st, sessionId, limit);
      forall i, j :: 0 <= i < j < |h| ==> h[i].timestamp <= h[j].timestamp
  {
    var id := HistorySession(st, sessionId);
    if id.Some? {
      OfInTimeOrder(st.messages, st.clock, id.value);
    }
  }

  /** Without a limit, the history of a session holds exactly the stored
      messages that carry its id. */
  lemma HistoryIsSessionMessages(st: Store, id: string, m: Message)
    requires id != ""
    ensures m in GetSessionHistory(st, Some(id), None) <==> m in st.messages && m.sessionId == id
  {
    OfMembers(st.messages, id, m);
  }

  /** Sessions are listed latest start first, as the query's ORDER BY demands. */
  lemma AllSessionsDescending(st: Store, limit: Option<int>)
    requires Valid(st)
    ensures var r := GetAllSessions(st, limit);
      forall i, j :: 0 <= i < j < |r| ==> r[i].startTime >= r[j].startTime
  {
  }

  /** Hits carry the timestamps of messages, so a bound on those bounds them. */
  lemma {:induction false} HitsBounded(sessions: seq<Session>, messages: seq<Message>, query: string, b: int)
    requires forall j :: 0 <= j < |messages| ==> messages[j].timestamp <= b
    ensures forall k :: 0 <= k < |Hits(sessions, messages, query)| ==> Hits(sessions, messages, query)[k].timestamp <= b
    decreases |messages|
  {
    if |messages| > 0 {
      HitsBounded(sessions, messages[..|messages| - 1], query, b);
    }
  }

  predicate HitsAscending(h: seq<SearchHit>) {
    forall i, j :: 0 <= i < j < |h| ==> h[i].timestamp <= h[j].timestamp
  }

  lemma {:induction false} HitsInTimeOrder(sessions: seq<Session>, messages: seq<Message>, query: string, clock: int)
    requires MessagesInTimeOrder(messages, clock)
    ensures HitsAscending(Hits(sessions, messages, query))
    decreases |messages|
  {
    if |messages| > 0 {
      var init := messages[..|messages| - 1];
      var last := messages[|messages| - 1];
      assert forall i :: 0 <= i < |init| ==> init[i] == messages[i];
      assert MessagesInTimeOrder(init, clock);
      HitsInTimeOrder(sessions, init, query, clock);
      HitsBounded(sessions, init, query, last.timestamp);
      var rest := Hits(sessions, init, query);
      var one := HitOf(sessions, last, query);
      var h := Hits(sessions, messages, query);
      assert h == rest + one;
      forall i, j | 0 <= i < j < |h|
        ensures h[i].timestamp <= h[j].timestamp
      {
        assert |one| <= 1 && |h| == |rest| + |one|;
        if j < |rest| {
          assert h[i] == rest[i] && h[j] == rest[j];
          assert rest[i].timestamp <= rest[j].timestamp;
        } else if i < |rest| {
          assert h[i] == rest[i] && h[j] == one[j - |rest|];
          assert rest[i].timestamp <= last.timestamp;
          assert one[j - |rest|].timestamp == last.timestamp;
        }
      }
    }
  }

  predicate HitsDescending(h: seq<SearchHit>) {
    forall i, j :: 0 <= i < j < |h| ==> h[i].timestamp >= h[j].timestamp
  }

  lemma ReverseDescending(h: seq<SearchHit>)
    requires HitsAscending(h)
    ensures HitsDescending(Reverse(h))
  {
    var r := Reverse(h);
    forall i, j | 0 <= i < j < |r|
      ensures r[i].timestamp >= r[j].timestamp
    {
      assert r[i] == h[|h| - 1 - i] && r[j] == h[|h| - 1 - j];
    }
  }

  lemma LimitDescending(h: seq<SearchHit>, n: int)
    requires HitsDescending(h)
    ensures HitsDescending(SqlLimit(h, n))
  {
    var r := SqlLimit(h, n);
    forall i, j | 0 <= i < j < |r|
      ensures r[i].timestamp >= r[j].timestamp
    {
      assert r[i] == h[i] && r[j] == h[j];
    }
  }

  /** Search results come newest first, as the query's ORDER BY demands. */
  lemma SearchNewestFirst(st: Store, query: string, limit: int)
    requires Valid(st)
    ensures HitsDescending(SearchConversations(st, query, limit))
  {
    var hits := Hits(st.sessions, st.messages, query);
    HitsInTimeOrder(st.sessions, st.messages, query, st.clock);
    ReverseDescending(hits);
    LimitDescending(Reverse(hits), limit);
  }

  /** Every matching message of a known session is in the join: the search
      misses nothing the LIKE and the JOIN accept. */
  lemma {:induction false} HitsComplete(sessions: seq<Session>, messages: seq<Message>, query: string, j: nat)
    requires j < |messages| && Matches(messages[j].text, query) && Find(sessions, messages[j].sessionId).Some?
    ensures |HitOf(sessions, messages[j], query)| == 1
    ensures HitOf(sessions, messages[j], query)[0] in Hits(sessions, messages, query)
    decreases |messages|
  {
    var init := messages[..|messages| - 1];
    assert Hits(sessions, messages, query) == Hits(sessions, init, query) + HitOf(sessions, messages[|messages| - 1], query);
    if j < |messages| - 1 {
      assert init[j] == messages[j];
      HitsComplete(sessions, init, query, j);
    }
  }

  /** Without a limit that cuts it short, the search returns the hit of every
      matching message of a known session. */
  lemma SearchFindsEveryMatch(st: Store, query: string, limit: int, j: nat)
    requires limit < 0 || limit >= |Hits(st.sessions, st.messages, query)|
    requires j < |st.messages| && Matches(st.messages[j].text, query) && Known(st, st.messages[j].sessionId)
    ensures HitOf(st.sessions, st.messages[j], query)[0] in SearchConversations(st, query, limit)
  {
    var hits := Hits(st.sessions, st.messages, query);
    var r := SearchConversations(st, query, limit);
    assert |r| == |hits|;
    HitsComplete(st.sessions, st.messages, query, j);
    var h := HitOf(st.sessions, st.messages[j], query)[0];
    var p :| 0 <= p < |hits| && hits[p] == h;
    ReversedEntry(r, hits, p);
    assert r[|hits| - 1 - p] == h;
  }

  /** With a limit, the hits left out are no newer than any hit returned. */
  lemma SearchKeepsNewest(st: Store, query: string, limit: int, j: nat, k: nat)
    requires Valid(st)
    requires j + |SearchConversations(st, query, limit)| < |Hits(st.sessions, st.messages, query)|
    requires k < |SearchConversations(st, query, limit)|
    ensures Hits(st.sessions, st.messages, query)[j].timestamp <= SearchConversations(st, query, limit)[k].timestamp
  {
    var hits := Hits(st.sessions, st.messages, query);
    var r := SearchConversations(st, query, limit);
    ReversedPrefixAt(r, hits, k);
    HitsInTimeOrder(st.sessions, st.messages, query, st.clock);
    assert hits[j].timestamp <= hits[|hits| - 1 - k].timestamp;
  }

  /** Ending the current session records its end and exactly as many messages
      as the export lists for it. */
  lemma ExportAfterEnd(st: Store, tick: nat)
    requires Valid(st) && st.current.Some?
    ensures var e := ExportSession(EndSession(st, tick), st.current.value);
      e.Some? && e.value.endTime == Some(st.clock + tick) && e.value.totalMessages == |e.value.conversations|
  {
    EndedRow(st, tick);
  }

  /** The current session's row, ended: found where it was, with the clock's
      time as its end and its number of messages as its count. */
  lemma EndedRow(st: Store, tick: nat)
    requires st.current.Some? && Find(st.sessions, st.current.value).Some?
    ensures var id, i, r := st.current.value, Find(st.sessions, st.current.value).value, EndSession(st, tick);
      Find(r.sessions, id) == Some(i) && r.sessions[i].endTime == Some(st.clock + tick)
      && r.sessions[i].totalMessages == |Of(r.messages, id)|
  {
    var id := st.current.value;
    var i := Find(st.sessions, id).value;
    var r := EndSession(st, tick);
    assert r.sessions == CloseRow(st.sessions, id, st.clock + tick, |Of(st.messages, id)|);
    assert r.messages == st.messages;
    ClosedRowFound(st.sessions, id, st.clock + tick, |Of(st.messages, id)|);
  }

  /** Closing a row leaves it where `Find` found it, now ended. */
  lemma ClosedRowFound(sessions: seq<Session>, id: string, now: int, count: nat)
    requires Find(sessions, id).Some?
    ensures var r, i := CloseRow(sessions, id, now, count), Find(sessions, id).value;
      Find(r, id) == Some(i) && r[i].endTime == Some(now) && r[i].totalMessages == count
  {
    FindSameIds(CloseRow(sessions, id, now, count), sessions, id);
  }

  lemma {:induction false} CountedSum(sessions: seq<Session>)
    ensures SumTotals(Counted(sessions)) >= |Counted(sessions)|
  {
    if |sessions| > 0 {
      CountedSum(sessions[..|sessions| - 1]);
      var s := sessions[|sessions| - 1];
      var c := Counted(sessions[..|sessions| - 1]);
      if s.totalMessages > 0 {
        assert Counted(sessions) == c + [s];
        assert (c + [s])[..|c|] == c;
        assert SumTotals(c + [s]) == SumTotals(c) + s.totalMessages;
      } else {
        assert Counted(sessions) == c;
      }
    }
  }

  /** The average counts only sessions with messages, so it is at least one
      whenever any session is counted. */
  lemma AverageAtLeastOne(sessions: seq<Session>)
    ensures |Counted(sessions)| > 0 ==> AverageLength(sessions) >= 1.0
  {
    if |Counted(sessions)| > 0 {
      CountedSum(sessions);
      RatioAtLeastOne(SumTotals(Counted(sessions)) as real, |Counted(sessions)| as real);
    }
  }

  lemma RatioAtLeastOne(s: real, n: real)
    requires n > 0.0 && s >= n
    ensures s / n >= 1.0
  {
    var q := s / n;
    assert q * n == s;
    assert (q - 1.0) * n >= 0.0;
  }

  /** The latest `num_messages` messages of the current session, oldest first:
      what `get_recent_context` describes itself as returning. Limits that the
      query would ignore (zero, negative) still return the whole history. */
  function GetLatestContext(st: Store, numMessages: int): (r: seq<Message>)
    ensures st.current.None? ==> r == []
    ensures st.current.Some? ==>
      var all := Of(st.messages, st.current.value);
      |r| <= |all| && r == all[|all| - |r|..]
      && (numMessages <= 0 ==> r == all)
      && (numMessages > 0 ==> |r| == if numMessages < |all| then numMessages else |all|)
  {
    match st.current
    case None => []
    case Some(id) =>
      var all := Of(st.messages, id);
      if numMessages <= 0 || numMessages >= |all| then all
      else all[|all| - numMessages..]
  }

  /** Both readings agree when the session is no longer than the limit. */
  lemma RecentContextsAgreeWhenShort(st: Store, numMessages: int)
    requires st.current.Some? && |Of(st.messages, st.current.value)| <= numMessages
    ensures GetRecentContext(st, numMessages) == GetLatestContext(st, numMessages)
  {
  }

  /** The corrected context always ends with the newest message of the session. */
  lemma LatestContextEndsWithNewest(st: Store, numMessages: int)
    requires st.current.Some? && numMessages != 0
    requires |Of(st.messages, st.current.value)| > 0
    ensures var all := Of(st.messages, st.current.value);
      var r := GetLatestContext(st, numMessages);
      |r| > 0 && r[|r| - 1] == all[|all| - 1]
  {
  }

  /** A session of two messages with a limit of one: the context as written
      holds only the first message and misses the newest. */
  lemma RecentContextMissesNewest()
    ensures var m1 := Message("s", 0, "USER", "a", None, None);
      var m2 := Message("s", 1, "USER", "b", None, None);
      var st := Store([Session("s", 0, None, 0, None)], [m1, m2], Some("s"), 1);
      GetRecentContext(st, 1) == [m1] && GetLatestContext(st, 1) == [m2]
  {
    var m1 := Message("s", 0, "USER", "a", None, None);
    var m2 := Message("s", 1, "USER", "b", None, None);
    var msgs := [m1, m2];
    assert msgs[..1] == [m1];
    assert [m1][..0] == [];
    assert Of(msgs, "s") == [m1, m2];
  }
}

=== FILE: rag.dfy ===
/** The retrieval scorer (`RAG`): it gathers recent conversation turns from the
    store, scores each against the query by embedding cosine or by keyword
    overlap, optionally blends in recency, keeps those above a threshold and
    returns the best few; it also renders them as a context block, finds
    similar past user queries and summarises a session.

    The encoder, the cosine of two vectors, the exponential time decay and
    the date formatting are floating-point or library computations and are
    parameters; the wall clock enters as the age cutoff. */
module Rag {
  import opened Wrappers
  import opened Text
  import opened Memory
  import opened Embedding
  import opened Ranking

  /** `get_all_sessions(limit=50)`: only the newest sessions are searched. */
  const SessionWindow := 50

  /** The default `min_similarity` of `retrieve_context`. */
  const DefaultMinSimilarity := 0.3

  /** `find_similar_past_queries` keeps only similarities above this. */
  const QueryThreshold := 0.4

  const UserSpeaker := "USER"
  const AssistantSpeaker := "MAREEN"

  /** The library computations the scorer consults: the sentence encoder, the
      cosine of two vectors, and `exp(-hours / 24)` for a timestamp, `None`
      when the timestamp does not parse. */
  datatype Oracles = Oracles(
    encode: Encoder,
    cosine: (Vector, Vector) -> real,
    decay: int -> Option<real>)

  /** A candidate turn as `_get_all_conversations` builds it. */
  datatype Conversation = Conversation(
    sessionId: SessionId,
    timestamp: int,
    speaker: string,
    message: string,
    intent: Option<string>)

  function ConvOf(m: Message): Conversation {
    Conversation(m.sessionId, m.timestamp, m.speaker, m.text, m.intent)
  }

  function Convs(ms: seq<Message>): (r: seq<Conversation>)
    ensures |r| == |ms|
    ensures forall k :: 0 <= k < |ms| ==> r[k] == ConvOf(ms[k])
  {
    if |ms| == 0 then [] else [ConvOf(ms[0])] + Convs(ms[1..])
  }

  // ----- Candidate collection -----

  /** The sessions searched: the 50 most recently started, newest first. */
  function Window(st: Store): (r: seq<Session>)
    ensures |r| == if |st.sessions| < SessionWindow then |st.sessions| else SessionWindow
    ensures forall i :: 0 <= i < |r| ==> r[i] == st.sessions[|st.sessions| - 1 - i]
  {
    GetAllSessions(st, Some(SessionWindow))
  }

  /** The turns of one session, oldest first, unless it started before the
      cutoff. They are read from the session's rows in table order, which
      `SessionTurnsIsHistory` shows is `get_session_history(id)`. */
  function SessionTurns(st: Store, s: Session, cutoff: int): seq<Conversation> {
    if s.startTime < cutoff then [] else Convs(Of(st.messages, s.id))
  }

  /** A session that is searched contributes exactly what
      `get_session_history(session_id)` returns, with no limit. */
  lemma SessionTurnsIsHistory(st: Store, s: Session, cutoff: int)
    ensures s.startTime < cutoff ==> SessionTurns(st, s, cutoff) == []
    ensures s.startTime >= cutoff ==> SessionTurns(st, s, cutoff) == Convs(GetSessionHistory(st, Some(s.id), None))
  {
  }

  function Gather(st: Store, sessions: seq<Session>, cutoff: int): seq<Conversation>
    decreases |sessions|
  {
    if |sessions| == 0 then []
    else SessionTurns(st, sessions[0], cutoff) + Gather(st, sessions[1..], cutoff)
  }

  /** `_get_all_conversations()`: session by session, newest session first,
      each session's turns oldest first; `cutoff` is now minus 30 days. */
  function AllConversations(st: Store, cutoff: int): seq<Conversation> {
    Gather(st, Window(st), cutoff)
  }

  /** The turns of a session that is searched are its messages. */
  lemma SessionTurnsMembers(st: Store, s: Session, cutoff: int, c: Conversation)
    ensures c in SessionTurns(st, s, cutoff) <==>
      s.startTime >= cutoff && exists m :: m in st.messages && m.sessionId == s.id && c == ConvOf(m)
  {
    if s.startTime >= cutoff {
      var h := Of(st.messages, s.id);
      if c in Convs(h) {
        var k :| 0 <= k < |h| && Convs(h)[k] == c;
        OfMembers(st.messages, s.id, h[k]);
      }
      if m :| m in st.messages && m.sessionId == s.id && c == ConvOf(m) {
        OfMembers(st.messages, s.id, m);
        var k :| 0 <= k < |h| && h[k] == m;
        assert Convs(h)[k] == c;
      }
    }
  }

  lemma {:induction false} GatherMembers(st: Store, sessions: seq<Session>, cutoff: int, c: Conversation)
    ensures c in Gather(st, sessions, cutoff) <==>
      exists i, m :: 0 <= i < |sessions| && sessions[i].startTime >= cutoff
        && m in st.messages && m.sessionId == sessions[i].id && c == ConvOf(m)
    decreases |sessions|
  {
    if |sessions| > 0 {
      var rest := sessions[1..];
      GatherMembers(st, rest, cutoff, c);
      SessionTurnsMembers(st, sessions[0], cutoff, c);
      if c in Gather(st, sessions, cutoff) {
        if c in SessionTurns(st, sessions[0], cutoff) {
          var m :| m in st.messages && m.sessionId == sessions[0].id && c == ConvOf(m);
          assert 0 < |sessions| && sessions[0].startTime >= cutoff;
        } else {
          var i, m :| 0 <= i < |rest| && rest[i].startTime >= cutoff
            && m in st.messages && m.sessionId == rest[i].id && c == ConvOf(m);
          assert sessions[i + 1] == rest[i];
        }
      }
      if i, m :| (0 <= i < |sessions| && sessions[i].startTime >= cutoff
                  && m in st.messages && m.sessionId == sessions[i].id && c == ConvOf(m)) {
        if i > 0 {
          assert rest[i - 1] == sessions[i];
        }
      }
    }
  }

  /** A candidate is exactly a stored message of one of the 50 newest
      sessions that started no earlier than the cutoff. */
  lemma CandidatesAreRecentMessages(st: Store, cutoff: int, c: Conversation)
    ensures c in AllConversations(st, cutoff) <==>
      exists i, m :: 0 <= i < |Window(st)| && Window(st)[i].startTime >= cutoff
        && m in st.messages && m.sessionId == Window(st)[i].id && c == ConvOf(m)
  {
    GatherMembers(st, Window(st), cutoff, c);
  }

  /** The turns of a searched session belong to it and are in time order
      when the table is. */
  lemma SessionTurnsOrdered(st: Store, s: Session, cutoff: int, k1: nat, k2: nat)
    requires MessagesInTimeOrder(st.messages, st.clock)
    requires k1 <= k2 < |SessionTurns(st, s, cutoff)|
    ensures SessionTurns(st, s, cutoff)[k1].sessionId == s.id
    ensures SessionTurns(st, s, cutoff)[k1].timestamp <= SessionTurns(st, s, cutoff)[k2].timestamp
  {
    var h := Of(st.messages, s.id);
    OfInTimeOrder(st.messages, st.clock, s.id);
    if k1 < k2 {
      assert h[k1].timestamp <= h[k2].timestamp;
    }
  }

  /** `a` may precede `b` when both are listed session by session in the
      order of `sessions` (first listing of each id), and oldest first
      within one session. */
  ghost predicate InOrder(sessions: seq<Session>, a: Conversation, b: Conversation) {
    && Find(sessions, a.sessionId).Some?
    && Find(sessions, b.sessionId).Some?
    && Find(sessions, a.sessionId).value <= Find(sessions, b.sessionId).value
    && (a.sessionId == b.sessionId ==> a.timestamp <= b.timestamp)
  }

  /** The turn lists of the sessions, one per session, in listed order. */
  function TurnLists(st: Store, sessions: seq<Session>, cutoff: int): (r: seq<seq<Conversation>>)
    ensures |r| == |sessions|
    ensures forall i :: 0 <= i < |sessions| ==> r[i] == SessionTurns(st, sessions[i], cutoff)
  {
    seq(|sessions|, i requires 0 <= i < |sessions| => SessionTurns(st, sessions[i], cutoff))
  }

  /** Collecting the turns session by session is flattening their lists. */
  lemma {:induction false} GatherIsFlatten(st: Store, sessions: seq<Session>, cutoff: int)
    ensures Gather(st, sessions, cutoff) == Flatten(TurnLists(st, sessions, cutoff))
    decreases |sessions|
  {
    if |sessions| > 0 {
      var ls: seq<seq<Conversation>> := TurnLists(st, sessions, cutoff);
      FlattenCons(ls);
      GatherIsFlatten(st, sessions[1..], cutoff);
      assert ls[1..] == TurnLists(st, sessions[1..], cutoff);
    }
  }

  /** The `i`-th list holds turns of the `i`-th session only, oldest first. */
  ghost predicate Grouped(sessions: seq<Session>, ls: seq<seq<Conversation>>) {
    && |ls| == |sessions|
    && (forall i, j :: 0 <= i < |ls| && 0 <= j < |ls[i]| ==> ls[i][j].sessionId == sessions[i].id)
    && (forall i, j1, j2 :: 0 <= i < |ls| && 0 <= j1 <= j2 < |ls[i]| ==> ls[i][j1].timestamp <= ls[i][j2].timestamp)
  }

  /** Dropping the first session and its list keeps the grouping. */
  lemma GroupedTail(sessions: seq<Session>, ls: seq<seq<Conversation>>)
    requires |sessions| > 0 && Grouped(sessions, ls)
    ensures Grouped(sessions[1..], ls[1..])
  {
    forall i: int, j: int | 0 <= i < |ls| - 1 && 0 <= j < |ls[1..][i]|
      ensures ls[1..][i][j].sessionId == sessions[1..][i].id
    {
      assert ls[1..][i] == ls[i + 1];
    }
    forall i: int, j1: int, j2: int | 0 <= i < |ls| - 1 && 0 <= j1 <= j2 < |ls[1..][i]|
      ensures ls[1..][i][j1].timestamp <= ls[1..][i][j2].timestamp
    {
      assert ls[1..][i] == ls[i + 1];
    }
  }

  /** A turn listed after the first session's belongs to a later session. */
  lemma LaterId(sessions: seq<Session>, ls: seq<seq<Conversation>>, k: nat)
    requires |sessions| > 0 && UniqueIds(sessions) && Grouped(sessions, ls)
    requires k < |Flatten(ls[1..])|
    ensures Flatten(ls[1..])[k].sessionId != sessions[0].id
    ensures Find(sessions[1..], Flatten(ls[1..])[k].sessionId).Some?
  {
    FlattenAt(ls[1..], k);
    var i, j :| 0 <= i < |ls[1..]| && 0 <= j < |ls[1..][i]| && Flatten(ls[1..])[k] == ls[1..][i][j];
    assert ls[1..][i] == ls[i + 1];
    assert sessions[1..][i] == sessions[i + 1];
  }

  /** Past a first row with another id, the lookup continues in the rest. */
  lemma FindTail(sessions: seq<Session>, id: string)
    requires |sessions| > 0 && sessions[0].id != id && Find(sessions[1..], id).Some?
    ensures Find(sessions, id) == Some(Find(sessions[1..], id).value + 1)
  {
  }

  /** Turns listed session by session, each session's oldest first, are in
      order: by session position, and by time within one session. */
  lemma {:induction false} FlattenInOrder(sessions: seq<Session>, ls: seq<seq<Conversation>>, k1: nat, k2: nat)
    requires UniqueIds(sessions) && Grouped(sessions, ls)
    requires k1 < k2 < |Flatten(ls)|
    ensures InOrder(sessions, Flatten(ls)[k1], Flatten(ls)[k2])
    decreases |ls|
  {
    var a := ls[0];
    FlattenAtSplit(ls, k1);
    FlattenAtSplit(ls, k2);
    if k2 < |a| {
      FirstGroupInOrder(sessions, ls, k1, k2);
    } else if k1 < |a| {
      FirstGroupFirst(sessions, ls, k1, k2 - |a|);
    } else {
      assert UniqueIds(sessions[1..]);
      GroupedTail(sessions, ls);
      FlattenInOrder(sessions[1..], ls[1..], k1 - |a|, k2 - |a|);
      LaterGroupsInOrder(sessions, ls, k1 - |a|, k2 - |a|);
    }
  }

  /** Two turns of the first session are in order. */
  lemma FirstGroupInOrder(sessions: seq<Session>, ls: seq<seq<Conversation>>, j1: nat, j2: nat)
    requires Grouped(sessions, ls) && |ls| > 0 && j1 < j2 < |ls[0]|
    ensures InOrder(sessions, ls[0][j1], ls[0][j2])
  {
    assert ls[0][j1].sessionId == sessions[0].id && ls[0][j2].sessionId == sessions[0].id;
  }

  /** A turn of the first session comes before any turn of a later one. */
  lemma FirstGroupFirst(sessions: seq<Session>, ls: seq<seq<Conversation>>, j: nat, k: nat)
    requires UniqueIds(sessions) && Grouped(sessions, ls) && |ls| > 0
    requires j < |ls[0]| && k < |Flatten(ls[1..])|
    ensures InOrder(sessions, ls[0][j], Flatten(ls[1..])[k])
  {
    var y := Flatten(ls[1..])[k];
    LaterId(sessions, ls, k);
    FindTail(sessions, y.sessionId);
    assert ls[0][j].sessionId == sessions[0].id;
  }

  /** Order among the later sessions' turns is order in the whole table. */
  lemma LaterGroupsInOrder(sessions: seq<Session>, ls: seq<seq<Conversation>>, k1: nat, k2: nat)
    requires UniqueIds(sessions) && Grouped(sessions, ls) && |ls| > 0
    requires k1 < |Flatten(ls[1..])| && k2 < |Flatten(ls[1..])|
    requires InOrder(sessions[1..], Flatten(ls[1..])[k1], Flatten(ls[1..])[k2])
    ensures InOrder(sessions, Flatten(ls[1..])[k1], Flatten(ls[1..])[k2])
  {
    var x, y := Flatten(ls[1..])[k1], Flatten(ls[1..])[k2];
    LaterId(sessions, ls, k1);
    LaterId(sessions, ls, k2);
    FindTail(sessions, x.sessionId);
    FindTail(sessions, y.sessionId);
  }

  /** A store in time order groups each session's turns oldest first. */
  lemma TurnListsGrouped(st: Store, sessions: seq<Session>, cutoff: int)
    requires MessagesInTimeOrder(st.messages, st.clock)
    ensures Grouped(sessions, TurnLists(st, sessions, cutoff))
  {
    var ls: seq<seq<Conversation>> := TurnLists(st, sessions, cutoff);
    forall i: int, j: int | 0 <= i < |ls| && 0 <= j < |ls[i]|
      ensures ls[i][j].sessionId == sessions[i].id
    {
      SessionTurnsOrdered(st, sessions[i], cutoff, j, j);
    }
    forall i: int, j1: int, j2: int | 0 <= i < |ls| && 0 <= j1 <= j2 < |ls[i]|
      ensures ls[i][j1].timestamp <= ls[i][j2].timestamp
    {
      SessionTurnsOrdered(st, sessions[i], cutoff, j1, j2);
    }
  }

  /** Turns come session by session in the order the sessions are listed,
      and within one session oldest first. */
  lemma GatherOrder(st: Store, sessions: seq<Session>, cutoff: int, k1: nat, k2: nat)
    requires MessagesInTimeOrder(st.messages, st.clock) && UniqueIds(sessions)
    requires k1 < k2 < |Gather(st, sessions, cutoff)|
    ensures InOrder(sessions, Gather(st, sessions, cutoff)[k1], Gather(st, sessions, cutoff)[k2])
  {
    var ls: seq<seq<Conversation>> := TurnLists(st, sessions, cutoff);
    GatherIsFlatten(st, sessions, cutoff);
    TurnListsGrouped(st, sessions, cutoff);
    FlattenInOrder(sessions, ls, k1, k2);
  }

  /** The window lists sessions latest start first, each id once. */
  lemma WindowOrdered(st: Store)
    requires SessionsInTimeOrder(st.sessions, st.clock) && UniqueIds(st.sessions)
    ensures UniqueIds(Window(st))
    ensures forall i1, i2 :: 0 <= i1 <= i2 < |Window(st)| ==> Window(st)[i1].startTime >= Window(st)[i2].startTime
  {
    var w, n := Window(st), |st.sessions|;
    forall i1, i2 | 0 <= i1 <= i2 < |w|
      ensures w[i1].startTime >= w[i2].startTime && (i1 < i2 ==> w[i1].id != w[i2].id)
    {
      assert w[i1] == st.sessions[n - 1 - i1] && w[i2] == st.sessions[n - 1 - i2];
    }
  }

  /** Candidates come newest session first, and a session's turns oldest
      first: of two candidates, the earlier one's session started no later,
      and within one session the earlier one is no newer. */
  lemma CandidatesInOrder(st: Store, cutoff: int, k1: nat, k2: nat)
    requires MessagesInTimeOrder(st.messages, st.clock) && SessionsInTimeOrder(st.sessions, st.clock)
    requires UniqueIds(st.sessions)
    requires k1 < k2 < |AllConversations(st, cutoff)|
    ensures var g, w := AllConversations(st, cutoff), Window(st);
      && Find(w, g[k1].sessionId).Some? && Find(w, g[k2].sessionId).Some?
      && w[Find(w, g[k1].sessionId).value].startTime >= w[Find(w, g[k2].sessionId).value].startTime
      && (g[k1].sessionId == g[k2].sessionId ==> g[k1].timestamp <= g[k2].timestamp)
  {
    WindowOrdered(st);
    GatherOrder(st, Window(st), cutoff, k1, k2);
  }

  // ----- Similarity -----

  /** Jaccard similarity of two word sets, 0 when either is empty. */
  function Jaccard(a: set<string>, b: set<string>): (r: real)
    ensures 0.0 <= r <= 1.0
    ensures r == 0.0 <==> a * b == {}
    ensures r == 1.0 <==> a == b && a != {}
  {
    if a == {} || b == {} then 0.0
    else
      JaccardBounds(a, b);
      |a * b| as real / |a + b| as real
  }

  /** The overlap of two non-empty sets is at most their union, equal to it
      exactly when the sets are equal. */
  lemma JaccardBounds(a: set<string>, b: set<string>)
    requires a != {} && b != {}
    ensures 0 < |a + b|
    ensures |a * b| <= |a + b|
    ensures |a * b| == |a + b| <==> a == b
    ensures |a * b| as real / |a + b| as real <= 1.0
    ensures |a * b| as real / |a + b| as real == 0.0 <==> a * b == {}
    ensures |a * b| as real / |a + b| as real == 1.0 <==> a == b
  {
    assert a <= a + b;
    assert a * b <= a + b;
    if |a * b| == |a + b| {
      assert a * b == a + b by {
        var d := (a + b) - (a * b);
        assert |a + b| == |a * b| + |d|;
        assert d == {};
      }
      assert a == b by {
        forall x | x in a ensures x in b { assert x in a + b; }
        forall x | x in b ensures x in a { assert x in a + b; }
      }
    }
    assert |a * b| == 0 <==> a * b == {};
    UnitQuotient(|a * b| as real, |a + b| as real);
  }

  /** A share of a positive whole lies in [0, 1], is 0 only for nothing and
      1 only for everything. */
  lemma UnitQuotient(x: real, y: real)
    requires 0.0 < y && 0.0 <= x <= y
    ensures 0.0 <= x / y <= 1.0
    ensures x / y == 0.0 <==> x == 0.0
    ensures x / y == 1.0 <==> x == y
  {
    var q := x / y;
    assert q * y == x;
    assert (1.0 - q) * y == y - x;
    if q != 0.0 {
      assert q * y != 0.0;
    }
    if q != 1.0 {
      assert (1.0 - q) * y != 0.0;
    }
  }

  /** `_keyword_similarity(query, text)`: Jaccard similarity of the lower-cased
      whitespace word sets. */
  function KeywordSimilarity(query: string, text: string): (r: real)
    ensures 0.0 <= r <= 1.0
    ensures r == 0.0 <==> WordSet(Lower(query)) * WordSet(Lower(text)) == {}
    ensures r == 1.0 <==> WordSet(Lower(query)) == WordSet(Lower(text)) != {}
  {
    Jaccard(WordSet(Lower(query)), WordSet(Lower(text)))
  }

  /** Keyword similarity does not depend on the order of its arguments. */
  lemma KeywordSimilaritySymmetric(query: string, text: string)
    ensures KeywordSimilarity(query, text) == KeywordSimilarity(text, query)
  {
    var a, b := WordSet(Lower(query)), WordSet(Lower(text));
    assert a * b == b * a;
    assert a + b == b + a;
  }

  /** `max(0.0, min(1.0, x))`. */
  function Clamp(x: real): (r: real)
    ensures 0.0 <= r <= 1.0
    ensures 0.0 <= x <= 1.0 ==> r == x
    ensures x < 0.0 ==> r == 0.0
    ensures x > 1.0 ==> r == 1.0
  {
    if x < 0.0 then 0.0 else if x > 1.0 then 1.0 else x
  }

  /** Clamping keeps the order, so a decay that favours recent messages still
      does after clamping. */
  lemma ClampMonotone(x: real, y: real)
    requires x <= y
    ensures Clamp(x) <= Clamp(y)
  {
  }

  /** `_calculate_time_decay(timestamp)`: the clamped decay, or 0.5 when the
      computation raises. */
  function TimeScore(raw: Option<real>): (r: real)
    ensures 0.0 <= r <= 1.0
    ensures raw.None? ==> r == 0.5
    ensures raw.Some? ==> r == Clamp(raw.value)
  {
    match raw
    case None => 0.5
    case Some(x) => Clamp(x)
  }

  /** `similarity * 0.7 + time_score * 0.3` with time decay, else the
      similarity itself. The blend lies between its two inputs. */
  function FinalScore(similarity: real, timeScore: real, timeDecay: bool): (r: real)
    ensures !timeDecay ==> r == similarity
    ensures timeDecay ==> (similarity <= r <= timeScore) || (timeScore <= r <= similarity)
  {
    if timeDecay then similarity * 0.7 + timeScore * 0.3 else similarity
  }

  /** The similarity of one candidate message: the cosine of the two vectors
      when both exist, else keyword similarity. The message is embedded (and
      cached) only when the query has a vector. */
  function MessageSimilarity(e: Embedder, queryVector: Option<Vector>, query: string,
                             message: string, o: Oracles): (r: (real, Embedder))
    ensures queryVector.None? ==> r == (KeywordSimilarity(query, message), e)
    ensures queryVector.Some? ==> r.1 == GetEmbedding(e, message, o.encode).1
    ensures queryVector.Some? && GetEmbedding(e, message, o.encode).0.Some? ==>
      r.0 == o.cosine(queryVector.value, GetEmbedding(e, message, o.encode).0.value)
    ensures queryVector.Some? && GetEmbedding(e, message, o.encode).0.None? ==>
      r.0 == KeywordSimilarity(query, message)
  {
    if queryVector.None? then (KeywordSimilarity(query, message), e)
    else
      var (v, e1) := GetEmbedding(e, message, o.encode);
      match v
      case Some(mv) => (o.cosine(queryVector.value, mv), e1)
      case None => (KeywordSimilarity(query, message), e1)
  }

  // ----- retrieve_context -----

  /** A kept candidate with its similarity and blended score. */
  datatype Scored = Scored(conv: Conversation, similarity: real, finalScore: real)

  function FinalKey(s: Scored): real { s.finalScore }

  /** One candidate scored: its similarity and its final score with or
      without the recency blend, and the cache after embedding it. */
  function ScoreOne(e: Embedder, queryVector: Option<Vector>, query: string, c: Conversation,
                    o: Oracles, timeDecay: bool): (r: (Scored, Embedder))
    ensures r.0.conv == c
    ensures !timeDecay ==> r.0.finalScore == r.0.similarity
    ensures r.1.modelLoaded == e.modelLoaded && Extends(e.cache, r.1.cache)
    ensures queryVector.None? ==> r.1 == e
  {
    var (similarity, e1) := MessageSimilarity(e, queryVector, query, c.message, o);
    var score := FinalScore(similarity, TimeScore(o.decay(c.timestamp)), timeDecay);
    (Scored(c, similarity, score), e1)
  }

  /** Every entry scores at least the threshold. */
  predicate Clears(xs: seq<Scored>, minSimilarity: real) {
    forall k :: 0 <= k < |xs| ==> xs[k].finalScore >= minSimilarity
  }

  /** Every entry is one of the candidates. */
  predicate DrawnFrom(xs: seq<Scored>, convs: seq<Conversation>) {
    forall k :: 0 <= k < |xs| ==> xs[k].conv in convs
  }

  /** Every entry's final score is its similarity. */
  predicate Unblended(xs: seq<Scored>) {
    forall k :: 0 <= k < |xs| ==> xs[k].finalScore == xs[k].similarity
  }

  lemma UnblendedCons(x: Scored, rest: seq<Scored>)
    requires x.finalScore == x.similarity && Unblended(rest)
    ensures Unblended([x] + rest)
  {
    forall k | 0 < k < |[x] + rest|
      ensures ([x] + rest)[k].finalScore == ([x] + rest)[k].similarity
    {
      assert ([x] + rest)[k] == rest[k - 1];
    }
  }

  /** The candidates whose score reaches the threshold, in candidate order,
      and the cache after embedding them. */
  function ScoreAll(e: Embedder, queryVector: Option<Vector>, query: string, convs: seq<Conversation>,
                    o: Oracles, timeDecay: bool, minSimilarity: real): (r: (seq<Scored>, Embedder))
    ensures |r.0| <= |convs|
    ensures Clears(r.0, minSimilarity)
    decreases |convs|
  {
    if |convs| == 0 then ([], e)
    else
      var one := ScoreOne(e, queryVector, query, convs[0], o, timeDecay);
      var rest := ScoreAll(one.1, queryVector, query, convs[1..], o, timeDecay, minSimilarity);
      if one.0.finalScore >= minSimilarity then ([one.0] + rest.0, rest.1) else rest
  }

  /** One step of the scoring recursion: the first candidate, kept when it
      clears the threshold, before the rest. */
  lemma ScoreAllStep(e: Embedder, queryVector: Option<Vector>, query: string, convs: seq<Conversation>,
                     o: Oracles, timeDecay: bool, minSimilarity: real)
    requires |convs| > 0
    ensures var one := ScoreOne(e, queryVector, query, convs[0], o, timeDecay);
      var rest := ScoreAll(one.1, queryVector, query, convs[1..], o, timeDecay, minSimilarity);
      var r := ScoreAll(e, queryVector, query, convs, o, timeDecay, minSimilarity);
      r.0 == (if one.0.finalScore >= minSimilarity then [one.0] + rest.0 else rest.0) && r.1 == rest.1
  {
  }

  /** Every kept entry is one of the candidates. */
  lemma {:induction false} ScoreAllDrawn(e: Embedder, queryVector: Option<Vector>, query: string,
                                         convs: seq<Conversation>, o: Oracles, timeDecay: bool, minSimilarity: real)
    ensures DrawnFrom(ScoreAll(e, queryVector, query, convs, o, timeDecay, minSimilarity).0, convs)
    decreases |convs|
  {
    if |convs| > 0 {
      var one := ScoreOne(e, queryVector, query, convs[0], o, timeDecay);
      ScoreAllStep(e, queryVector, query, convs, o, timeDecay, minSimilarity);
      ScoreAllDrawn(one.1, queryVector, query, convs[1..], o, timeDecay, minSimilarity);
      var rest := ScoreAll(one.1, queryVector, query, convs[1..], o, timeDecay, minSimilarity).0;
      DrawnCons(one.0, rest, convs);
    }
  }

  /** A candidate scored before entries drawn from the later candidates. */
  lemma DrawnCons(x: Scored, rest: seq<Scored>, convs: seq<Conversation>)
    requires |convs| > 0 && x.conv == convs[0] && DrawnFrom(rest, convs[1..])
    ensures DrawnFrom([x] + rest, convs) && DrawnFrom(rest, convs)
  {
    forall k | 0 <= k < |rest| ensures rest[k].conv in convs {
      assert rest[k].conv in convs[1..];
    }
  }

  /** Without the recency blend, every kept entry's final score is its
      similarity. */
  lemma {:induction false} ScoreAllUnblended(e: Embedder, queryVector: Option<Vector>, query: string,
                                             convs: seq<Conversation>, o: Oracles, timeDecay: bool, minSimilarity: real)
    ensures !timeDecay ==> Unblended(ScoreAll(e, queryVector, query, convs, o, timeDecay, minSimilarity).0)
    decreases |convs|
  {
    if |convs| > 0 && !timeDecay {
      var one := ScoreOne(e, queryVector, query, convs[0], o, timeDecay);
      var rest := ScoreAll(one.1, queryVector, query, convs[1..], o, timeDecay, minSimilarity).0;
      ScoreAllUnblended(one.1, queryVector, query, convs[1..], o, timeDecay, minSimilarity);
      UnblendedCons(one.0, rest);
    }
  }

  /** Scoring keeps the model, only adds cache entries, adds none when the
      query has no vector, and adds only true vectors to a faithful cache. */
  lemma {:induction false} ScoreAllCache(e: Embedder, queryVector: Option<Vector>, query: string,
                                         convs: seq<Conversation>, o: Oracles, timeDecay: bool, minSimilarity: real)
    ensures var e2 := ScoreAll(e, queryVector, query, convs, o, timeDecay, minSimilarity).1;
      && e2.modelLoaded == e.modelLoaded
      && Extends(e.cache, e2.cache)
      && (queryVector.None? ==> e2 == e)
      && (Faithful(e, o.encode) ==> Faithful(e2, o.encode))
    decreases |convs|
  {
    if |convs| > 0 {
      var e1 := ScoreOne(e, queryVector, query, convs[0], o, timeDecay).1;
      var e2 := ScoreAll(e1, queryVector, query, convs[1..], o, timeDecay, minSimilarity).1;
      assert ScoreAll(e, queryVector, query, convs, o, timeDecay, minSimilarity).1 == e2;
      if queryVector.Some? {
        LookupKeepsFaithful(e, convs[0].message, o.encode);
      }
      ScoreAllCache(e1, queryVector, query, convs[1..], o, timeDecay, minSimilarity);
      ExtendsTrans(e.cache, e1.cache, e2.cache);
    }
  }

  // ----- the same scores without the memo table -----

  /** The query's vector as the encoder gives it; a faithful table gives the same. */
  function FreshQueryVector(modelLoaded: bool, query: string, o: Oracles): Option<Vector> {
    if modelLoaded then o.encode(query) else None
  }

  /** The similarity of a message as the encoder itself gives it: the cosine
      when the query and the message both have vectors, else keyword overlap. */
  function FreshSimilarity(modelLoaded: bool, queryVector: Option<Vector>, query: string,
                           message: string, o: Oracles): real {
    if queryVector.Some? && modelLoaded && o.encode(message).Some? then
      o.cosine(queryVector.value, o.encode(message).value)
    else KeywordSimilarity(query, message)
  }

  /** A faithful table changes no similarity. */
  lemma SimilarityIsFresh(e: Embedder, queryVector: Option<Vector>, query: string, message: string, o: Oracles)
    requires Faithful(e, o.encode)
    ensures MessageSimilarity(e, queryVector, query, message, o).0
      == FreshSimilarity(e.modelLoaded, queryVector, query, message, o)
    ensures Faithful(MessageSimilarity(e, queryVector, query, message, o).1, o.encode)
    ensures MessageSimilarity(e, queryVector, query, message, o).1.modelLoaded == e.modelLoaded
  {
    CacheTransparent(e, message, o.encode);
    LookupKeepsFaithful(e, message, o.encode);
  }

  /** A faithful table gives the query the encoder's vector. */
  lemma QueryVectorIsFresh(e: Embedder, query: string, o: Oracles)
    requires Faithful(e, o.encode)
    ensures GetEmbedding(e, query, o.encode).0 == FreshQueryVector(e.modelLoaded, query, o)
    ensures Faithful(GetEmbedding(e, query, o.encode).1, o.encode)
  {
    CacheTransparent(e, query, o.encode);
    LookupKeepsFaithful(e, query, o.encode);
  }

  /** One candidate scored afresh. */
  function FreshScored(modelLoaded: bool, queryVector: Option<Vector>, query: string, c: Conversation,
                       o: Oracles, timeDecay: bool): Scored {
    var similarity := FreshSimilarity(modelLoaded, queryVector, query, c.message, o);
    Scored(c, similarity, FinalScore(similarity, TimeScore(o.decay(c.timestamp)), timeDecay))
  }

  /** The reference filter: every candidate scored afresh, kept in candidate
      order when its final score reaches the threshold. */
  function Passing(modelLoaded: bool, queryVector: Option<Vector>, query: string, convs: seq<Conversation>,
                   o: Oracles, timeDecay: bool, minSimilarity: real): seq<Scored>
    decreases |convs|
  {
    if |convs| == 0 then []
    else
      var x := FreshScored(modelLoaded, queryVector, query, convs[0], o, timeDecay);
      (if x.finalScore >= minSimilarity then [x] else [])
        + Passing(modelLoaded, queryVector, query, convs[1..], o, timeDecay, minSimilarity)
  }

  /** A value is in a non-empty list when it is the head or in the tail. */
  lemma InHeadOrTail<T>(s: seq<T>, v: T)
    requires |s| > 0
    ensures v in s <==> v == s[0] || v in s[1..]
  {
    assert s == [s[0]] + s[1..];
  }

  /** The filter keeps a candidate exactly when its score reaches the threshold. */
  lemma {:induction false} PassingMembers(modelLoaded: bool, queryVector: Option<Vector>, query: string,
                                          convs: seq<Conversation>, o: Oracles, timeDecay: bool,
                                          minSimilarity: real, x: Scored)
    ensures x in Passing(modelLoaded, queryVector, query, convs, o, timeDecay, minSimilarity) <==>
      x.conv in convs && x == FreshScored(modelLoaded, queryVector, query, x.conv, o, timeDecay)
      && x.finalScore >= minSimilarity
    decreases |convs|
  {
    if |convs| > 0 {
      var y := FreshScored(modelLoaded, queryVector, query, convs[0], o, timeDecay);
      var rest := Passing(modelLoaded, queryVector, query, convs[1..], o, timeDecay, minSimilarity);
      var head := if y.finalScore >= minSimilarity then [y] else [];
      assert Passing(modelLoaded, queryVector, query, convs, o, timeDecay, minSimilarity) == head + rest;
      PassingMembers(modelLoaded, queryVector, query, convs[1..], o, timeDecay, minSimilarity, x);
      InHeadOrTail(convs, x.conv);
      assert x in head <==> x == y && y.finalScore >= minSimilarity;
    }
  }

  /** With a faithful table the memo is invisible: scoring keeps exactly the
      candidates the reference filter keeps. */
  lemma {:induction false} ScoreAllIsPassing(e: Embedder, queryVector: Option<Vector>, query: string,
                                             convs: seq<Conversation>, o: Oracles, timeDecay: bool, minSimilarity: real)
    requires Faithful(e, o.encode)
    ensures ScoreAll(e, queryVector, query, convs, o, timeDecay, minSimilarity).0
      == Passing(e.modelLoaded, queryVector, query, convs, o, timeDecay, minSimilarity)
    decreases |convs|
  {
    if |convs| > 0 {
      var one := ScoreOne(e, queryVector, query, convs[0], o, timeDecay);
      ScoreAllStep(e, queryVector, query, convs, o, timeDecay, minSimilarity);
      SimilarityIsFresh(e, queryVector, query, convs[0].message, o);
      assert one.0 == FreshScored(e.modelLoaded, queryVector, query, convs[0], o, timeDecay);
      ScoreAllIsPassing(one.1, queryVector, query, convs[1..], o, timeDecay, minSimilarity);
    }
  }

  /** Embedding the query and then scoring through a faithful table keeps
      what the reference filter keeps. */
  lemma QueryThenScore(e: Embedder, query: string, convs: seq<Conversation>, o: Oracles,
                       timeDecay: bool, minSimilarity: real)
    ensures var (queryVector, e1) := GetEmbedding(e, query, o.encode);
      Faithful(e, o.encode) ==>
        ScoreAll(e1, queryVector, query, convs, o, timeDecay, minSimilarity).0
          == Passing(e.modelLoaded, FreshQueryVector(e.modelLoaded, query, o), query, convs, o, timeDecay, minSimilarity)
  {
    if Faithful(e, o.encode) {
      var (queryVector, e1) := GetEmbedding(e, query, o.encode);
      QueryVectorIsFresh(e, query, o);
      ScoreAllIsPassing(e1, queryVector, query, convs, o, timeDecay, minSimilarity);
    }
  }

  /** The scored and filtered candidates of a query, before sorting. */
  function Kept(st: Store, e: Embedder, o: Oracles, cutoff: int, query: string,
                timeDecay: bool, minSimilarity: real): (r: (seq<Scored>, Embedder))
    requires |AllConversations(st, cutoff)| > 0
    ensures Clears(r.0, minSimilarity) && DrawnFrom(r.0, AllConversations(st, cutoff))
    ensures !timeDecay ==> Unblended(r.0)
    ensures r.1.modelLoaded == e.modelLoaded && Extends(e.cache, r.1.cache)
    ensures Faithful(e, o.encode) ==> Faithful(r.1, o.encode)
    ensures Faithful(e, o.encode) ==> r.0 == Passing(e.modelLoaded, FreshQueryVector(e.modelLoaded, query, o), query,
                                                    AllConversations(st, cutoff), o, timeDecay, minSimilarity)
  {
    var (queryVector, e1) := GetEmbedding(e, query, o.encode);
    LookupKeepsFaithful(e, query, o.encode);
    QueryThenScore(e, query, AllConversations(st, cutoff), o, timeDecay, minSimilarity);
    ScoreAllDrawn(e1, queryVector, query, AllConversations(st, cutoff), o, timeDecay, minSimilarity);
    ScoreAllUnblended(e1, queryVector, query, AllConversations(st, cutoff), o, timeDecay, minSimilarity);
    ScoreAllCache(e1, queryVector, query, AllConversations(st, cutoff), o, timeDecay, minSimilarity);
    ScoreAll(e1, queryVector, query, AllConversations(st, cutoff), o, timeDecay, minSimilarity)
  }

  /** Entries taken from a list keep what holds of every entry of it. */
  lemma SubListKeeps(top: seq<Scored>, kept: seq<Scored>, minSimilarity: real, convs: seq<Conversation>)
    requires forall k :: 0 <= k < |top| ==> top[k] in kept
    ensures Clears(kept, minSimilarity) ==> Clears(top, minSimilarity)
    ensures DrawnFrom(kept, convs) ==> DrawnFrom(top, convs)
    ensures Unblended(kept) ==> Unblended(top)
  {
  }

  /** The leading entries of the sorted list are entries of the list. */
  lemma TopAreKept(kept: seq<Scored>, topK: int)
    ensures var top := PyTake(SortDesc(kept, FinalKey), topK);
      (forall k :: 0 <= k < |top| ==> top[k] in kept) && Descending(top, FinalKey)
  {
    var sorted := SortDesc(kept, FinalKey);
    var top := PyTake(sorted, topK);
    forall k | 0 <= k < |top| ensures top[k] in kept {
      assert top[k] == sorted[k];
      assert sorted[k] in multiset(kept);
    }
  }

  /** `retrieve_context(query, top_k, time_decay, min_similarity)`: the kept
      candidates by descending final score, the first `top_k` of them. */
  function RetrieveContext(st: Store, e: Embedder, o: Oracles, cutoff: int, query: string,
                           topK: int, timeDecay: bool, minSimilarity: real): (r: (seq<Scored>, Embedder))
    ensures |AllConversations(st, cutoff)| == 0 ==> r == ([], e)
    ensures Clears(r.0, minSimilarity) && DrawnFrom(r.0, AllConversations(st, cutoff))
    ensures !timeDecay ==> Unblended(r.0)
    ensures topK >= 0 ==> |r.0| <= topK
    ensures Descending(r.0, FinalKey)
    ensures r.1.modelLoaded == e.modelLoaded && Extends(e.cache, r.1.cache)
    ensures Faithful(e, o.encode) ==> Faithful(r.1, o.encode)
    ensures |AllConversations(st, cutoff)| > 0 ==>
      r.0 == PyTake(SortDesc(Kept(st, e, o, cutoff, query, timeDecay, minSimilarity).0, FinalKey), topK)
    ensures Faithful(e, o.encode) ==>
      r.0 == PyTake(SortDesc(Passing(e.modelLoaded, FreshQueryVector(e.modelLoaded, query, o), query,
                                     AllConversations(st, cutoff), o, timeDecay, minSimilarity), FinalKey), topK)
  {
    if |AllConversations(st, cutoff)| == 0 then ([], e)
    else
      var kept := Kept(st, e, o, cutoff, query, timeDecay, minSimilarity);
      var top := PyTake(SortDesc(kept.0, FinalKey), topK);
      TopAreKept(kept.0, topK);
      SubListKeeps(top, kept.0, minSimilarity, AllConversations(st, cutoff));
      (top, kept.1)
  }

  /** What is returned are the best of the kept candidates: no kept candidate
      left out scores above a returned one, and candidates with equal scores
      come back in candidate order. */
  lemma RetrieveIsTopK(st: Store, e: Embedder, o: Oracles, cutoff: int, query: string,
                       topK: int, timeDecay: bool, minSimilarity: real)
    requires |AllConversations(st, cutoff)| > 0
    ensures var kept := Kept(st, e, o, cutoff, query, timeDecay, minSimilarity).0;
      var r := RetrieveContext(st, e, o, cutoff, query, topK, timeDecay, minSimilarity).0;
      && multiset(r) <= multiset(kept)
      && (forall y, i :: y in multiset(kept) - multiset(r) && 0 <= i < |r| ==> FinalKey(y) <= FinalKey(r[i]))
      && (forall v :: Ties(r, FinalKey, v) <= Ties(kept, FinalKey, v))
  {
    var kept := Kept(st, e, o, cutoff, query, timeDecay, minSimilarity).0;
    TakeOfSortIsTop(kept, topK);
  }

  /** The leading `k` of the sort are the best of the list. */
  lemma TakeOfSortIsTop(kept: seq<Scored>, topK: int)
    ensures var r := PyTake(SortDesc(kept, FinalKey), topK);
      && multiset(r) <= multiset(kept)
      && (forall y, i :: y in multiset(kept) - multiset(r) && 0 <= i < |r| ==> FinalKey(y) <= FinalKey(r[i]))
      && (forall v :: Ties(r, FinalKey, v) <= Ties(kept, FinalKey, v))
  {
    var sorted := SortDesc(kept, FinalKey);
    TopOfSort(sorted, kept, FinalKey, |PyTake(sorted, topK)|);
  }

  /** The result is the leading `top_k` of the kept candidates sorted by
      final score: all of them when there are no more than `top_k`, and
      Python's slice semantics for a negative `top_k`. */
  lemma RetrieveSorted(st: Store, e: Embedder, o: Oracles, cutoff: int, query: string,
                       topK: int, timeDecay: bool, minSimilarity: real)
    requires |AllConversations(st, cutoff)| > 0
    ensures var kept := Kept(st, e, o, cutoff, query, timeDecay, minSimilarity).0;
      var sorted := SortDesc(kept, FinalKey);
      var r := RetrieveContext(st, e, o, cutoff, query, topK, timeDecay, minSimilarity).0;
      && r == sorted[..|r|]
      && (topK >= 0 ==> |r| == if topK < |kept| then topK else |kept|)
      && (topK < 0 ==> |r| == if |kept| + topK > 0 then |kept| + topK else 0)
  {
  }

  /** Filter completeness: when `top_k` leaves room for every candidate that
      passes, each candidate whose fresh score reaches the threshold is
      returned, scored as the encoder scores it. */
  lemma RetrieveReturnsEveryPass(st: Store, e: Embedder, o: Oracles, cutoff: int, query: string,
                                 topK: int, timeDecay: bool, minSimilarity: real, c: Conversation)
    requires Faithful(e, o.encode)
    requires topK >= |Passing(e.modelLoaded, FreshQueryVector(e.modelLoaded, query, o), query,
                              AllConversations(st, cutoff), o, timeDecay, minSimilarity)|
    requires c in AllConversations(st, cutoff)
    requires FreshScored(e.modelLoaded, FreshQueryVector(e.modelLoaded, query, o), query, c, o, timeDecay).finalScore
             >= minSimilarity
    ensures FreshScored(e.modelLoaded, FreshQueryVector(e.modelLoaded, query, o), query, c, o, timeDecay)
            in RetrieveContext(st, e, o, cutoff, query, topK, timeDecay, minSimilarity).0
  {
    var qv := FreshQueryVector(e.modelLoaded, query, o);
    var all := AllConversations(st, cutoff);
    var x := FreshScored(e.modelLoaded, qv, query, c, o, timeDecay);
    var passing := Passing(e.modelLoaded, qv, query, all, o, timeDecay, minSimilarity);
    PassingMembers(e.modelLoaded, qv, query, all, o, timeDecay, minSimilarity, x);
    var sorted := SortDesc(passing, FinalKey);
    assert x in multiset(sorted);
    assert PyTake(sorted, topK) == sorted;
  }

  /** Every entry was scored by keyword overlap, so its scores lie in [0, 1]. */
  predicate KeywordScored(xs: seq<Scored>, query: string) {
    forall k :: 0 <= k < |xs| ==>
      && xs[k].similarity == KeywordSimilarity(query, xs[k].conv.message)
      && 0.0 <= xs[k].finalScore <= 1.0
  }

  /** Without a query vector a candidate is scored by keyword overlap. */
  lemma ScoreOneKeyword(e: Embedder, query: string, c: Conversation, o: Oracles, timeDecay: bool)
    ensures var s := ScoreOne(e, None, query, c, o, timeDecay).0;
      s.similarity == KeywordSimilarity(query, c.message) && 0.0 <= s.finalScore <= 1.0
  {
  }

  lemma KeywordCons(x: Scored, rest: seq<Scored>, query: string)
    requires x.similarity == KeywordSimilarity(query, x.conv.message) && 0.0 <= x.finalScore <= 1.0
    requires KeywordScored(rest, query)
    ensures KeywordScored([x] + rest, query)
  {
    var xs := [x] + rest;
    forall k | 0 <= k < |xs|
      ensures xs[k].similarity == KeywordSimilarity(query, xs[k].conv.message) && 0.0 <= xs[k].finalScore <= 1.0
    {
      if k > 0 {
        assert xs[k] == rest[k - 1];
      }
    }
  }

  lemma {:induction false} ScoreAllKeyword(e: Embedder, query: string, convs: seq<Conversation>,
                                           o: Oracles, timeDecay: bool, minSimilarity: real)
    ensures KeywordScored(ScoreAll(e, None, query, convs, o, timeDecay, minSimilarity).0, query)
    decreases |convs|
  {
    if |convs| > 0 {
      var one := ScoreOne(e, None, query, convs[0], o, timeDecay);
      ScoreAllStep(e, None, query, convs, o, timeDecay, minSimilarity);
      ScoreAllKeyword(one.1, query, convs[1..], o, timeDecay, minSimilarity);
      ScoreOneKeyword(e, query, convs[0], o, timeDecay);
      KeywordCons(one.0, ScoreAll(one.1, None, query, convs[1..], o, timeDecay, minSimilarity).0, query);
    }
  }

  /** Without a loaded sentence model every candidate is scored by keyword
      overlap, so every returned similarity and score lies in [0, 1]. */
  lemma NoModelMeansKeywords(st: Store, e: Embedder, o: Oracles, cutoff: int, query: string,
                             topK: int, timeDecay: bool, minSimilarity: real)
    requires !e.modelLoaded
    ensures KeywordScored(RetrieveContext(st, e, o, cutoff, query, topK, timeDecay, minSimilarity).0, query)
  {
    if |AllConversations(st, cutoff)| > 0 {
      var kept := Kept(st, e, o, cutoff, query, timeDecay, minSimilarity).0;
      ScoreAllKeyword(e, query, AllConversations(st, cutoff), o, timeDecay, minSimilarity);
      assert KeywordScored(kept, query);
      TopAreKept(kept, topK);
    }
  }

  // ----- build_context_prompt -----

  const ContextHeader := "[Relevant past interactions for context:]"
  const ContextFooter := "[End of context. Respond to current query below:]"

  /** Messages longer than this are cut in the context block. */
  const ExcerptLength := 150

  /** A message as the context block shows it: cut to 150 characters and
      marked with "..." when longer. */
  function Excerpt(message: string): (r: string)
    ensures |message| <= ExcerptLength ==> r == message
    ensures |message| > ExcerptLength ==>
      |r| == ExcerptLength + 3 && r[..ExcerptLength] == message[..ExcerptLength] && r[ExcerptLength..] == "..."
  {
    if |message| > ExcerptLength then message[..ExcerptLength] + "..." else message
  }

  /** Cutting an excerpt again changes nothing. */
  lemma ExcerptIdempotent(message: string)
    ensures Excerpt(Excerpt(message)) == Excerpt(message)
  {
    if |message| > ExcerptLength {
      var r := Excerpt(message);
      assert r[..ExcerptLength] + "..." == r;
    }
  }

  /** What follows a line's number: `. [{date}] {speaker}: {message}`. */
  function LineTail(m: Scored, date: int -> string): (r: string)
    ensures |r| > 0 && r[0] == '.'
  {
    ". [" + date(m.conv.timestamp) + "] " + m.conv.speaker + ": " + Excerpt(m.conv.message)
  }

  /** One numbered line of the context block. */
  function ContextLine(n: nat, m: Scored, date: int -> string): string {
    NatToString(n) + LineTail(m, date)
  }

  /** The lines of a run of memories, numbered from `first`. */
  function ContextLines(ms: seq<Scored>, first: nat, date: int -> string): (r: seq<string>)
    ensures |r| == |ms|
    ensures forall k :: 0 <= k < |ms| ==> r[k] == ContextLine(first + k, ms[k], date)
  {
    seq(|ms|, k requires 0 <= k < |ms| => ContextLine(first + k, ms[k], date))
  }

  /** The context block: nothing for no memories, else the header, the lines
      numbered from 1 and the footer, one per line. */
  function RenderContext(memories: seq<Scored>, date: int -> string): (r: string)
    ensures memories == [] <==> r == ""
    ensures memories != [] ==>
      r == ContextHeader + "\n" + Join(ContextLines(memories, 1, date), "\n") + "\n" + ContextFooter
    ensures memories != [] ==> StartsWith(r, ContextHeader)
    ensures memories != [] ==> |ContextFooter| <= |r| && r[|r| - |ContextFooter|..] == ContextFooter
  {
    if |memories| == 0 then ""
    else
      var lines := ContextLines(memories, 1, date);
      FramedJoin(ContextHeader, lines, ContextFooter, "\n");
      FramedEnds(ContextHeader, "\n" + Join(lines, "\n") + "\n", ContextFooter);
      Join([ContextHeader] + lines + [ContextFooter], "\n")
  }

  /** Joining a header, some lines and a footer puts the joined lines between
      the two. */
  lemma FramedJoin(header: string, lines: seq<string>, footer: string, sep: string)
    requires |lines| > 0
    ensures Join([header] + lines + [footer], sep) == header + sep + Join(lines, sep) + sep + footer
  {
    var parts := [header] + lines;
    assert parts[1..] == lines;
    JoinCons(parts, sep);
    JoinSnoc(parts, footer, sep);
  }

  /** A text made of a head, a middle and a tail starts with the head and
      ends with the tail. */
  lemma FramedEnds(head: string, mid: string, tail: string)
    ensures StartsWith(head + mid + tail, head)
    ensures |tail| <= |head + mid + tail| && (head + mid + tail)[|head + mid + tail| - |tail|..] == tail
  {
    var r := head + mid + tail;
    assert r[..|head|] == head;
    assert r[|r| - |tail|..] == tail;
  }

  /** In digits followed by a `.`, the first `.` ends the digits. */
  lemma DotAfterDigits(d: string, tail: string)
    requires forall i :: 0 <= i < |d| ==> IsDigit(d[i])
    requires |tail| > 0 && tail[0] == '.'
    ensures IndexOf(d + tail, '.') == Some(|d|) && (d + tail)[..|d|] == d
  {
    var line := d + tail;
    assert line[|d|] == '.';
    assert forall i :: 0 <= i < |d| ==> line[i] == d[i] && line[i] != '.';
    assert line[..|d|] == d;
  }

  /** A line's number reads back from the text before its first `.`. */
  lemma ContextLineNumber(n: nat, m: Scored, date: int -> string)
    ensures var line := ContextLine(n, m, date);
      && IndexOf(line, '.').Some?
      && var d := line[..IndexOf(line, '.').value];
         (forall i :: 0 <= i < |d| ==> IsDigit(d[i])) && ParseNat(d) == n
  {
    DotAfterDigits(NatToString(n), LineTail(m, date));
    NatToStringRoundTrip(n);
  }

  /** A line ends with the excerpt of its memory's message. */
  lemma ContextLineShowsExcerpt(n: nat, m: Scored, date: int -> string)
    ensures var line, x := ContextLine(n, m, date), Excerpt(m.conv.message);
      |x| <= |line| && line[|line| - |x|..] == x
  {
    var x := Excerpt(m.conv.message);
    var head := NatToString(n) + ". [" + date(m.conv.timestamp) + "] " + m.conv.speaker + ": ";
    assert ContextLine(n, m, date) == head + x;
    assert (head + x)[|head + x| - |x|..] == x;
  }

  /** `build_context_prompt(query, top_k)`: the context block of what
      `retrieve_context` returns with its defaults (time decay on, threshold
      0.3); `date` is the `%Y-%m-%d` rendering of a timestamp. */
  function BuildContextPrompt(st: Store, e: Embedder, o: Oracles, cutoff: int, query: string,
                              topK: int, date: int -> string): (r: (string, Embedder))
    ensures var found := RetrieveContext(st, e, o, cutoff, query, topK, true, DefaultMinSimilarity).0;
      && (r.0 == "" <==> found == [])
      && (found != [] ==> StartsWith(r.0, ContextHeader))
      && (found != [] ==> r.0 == ContextHeader + "\n" + Join(ContextLines(found, 1, date), "\n") + "\n" + ContextFooter)
    ensures r.1 == RetrieveContext(st, e, o, cutoff, query, topK, true, DefaultMinSimilarity).1
  {
    var (found, e1) := RetrieveContext(st, e, o, cutoff, query, topK, true, DefaultMinSimilarity);
    (RenderContext(found, date), e1)
  }

  // ----- find_similar_past_queries -----

  /** A past user query with its similarity to the current one. */
  datatype Similar = Similar(conv: Conversation, similarity: real)

  function SimilarityKey(s: Similar): real { s.similarity }

  /** The candidates spoken by the user, in order. */
  function UserQueries(convs: seq<Conversation>): (r: seq<Conversation>)
    ensures |r| <= |convs|
    ensures forall k :: 0 <= k < |r| ==> r[k].speaker == UserSpeaker && r[k] in convs
    decreases |convs|
  {
    if |convs| == 0 then []
    else (if convs[0].speaker == UserSpeaker then [convs[0]] else []) + UserQueries(convs[1..])
  }

  /** The user queries are exactly the user's candidates. */
  lemma {:induction false} UserQueriesMembers(convs: seq<Conversation>, c: Conversation)
    ensures c in UserQueries(convs) <==> c in convs && c.speaker == UserSpeaker
    decreases |convs|
  {
    if |convs| > 0 {
      UserQueriesMembers(convs[1..], c);
      assert convs == [convs[0]] + convs[1..];
    }
  }

  /** Every entry is a similar-enough user query drawn from the candidates. */
  predicate SimilarFrom(xs: seq<Similar>, convs: seq<Conversation>) {
    forall k :: 0 <= k < |xs| ==> xs[k].similarity > QueryThreshold && xs[k].conv in convs
  }

  /** One user query with its similarity, and the cache after embedding it. */
  function QueryOne(e: Embedder, queryVector: Option<Vector>, query: string, c: Conversation,
                    o: Oracles): (r: (Similar, Embedder))
    ensures r.0.conv == c
  {
    var (similarity, e1) := MessageSimilarity(e, queryVector, query, c.message, o);
    (Similar(c, similarity), e1)
  }

  /** The queries whose similarity is above 0.4, in candidate order, and the
      cache after embedding them. */
  function ScoreQueries(e: Embedder, queryVector: Option<Vector>, query: string,
                        convs: seq<Conversation>, o: Oracles): (r: (seq<Similar>, Embedder))
    ensures |r.0| <= |convs|
    ensures forall k :: 0 <= k < |r.0| ==> r.0[k].similarity > QueryThreshold
    decreases |convs|
  {
    if |convs| == 0 then ([], e)
    else
      var one := QueryOne(e, queryVector, query, convs[0], o);
      var rest := ScoreQueries(one.1, queryVector, query, convs[1..], o);
      if one.0.similarity > QueryThreshold then ([one.0] + rest.0, rest.1) else rest
  }

  lemma {:induction false} ScoreQueriesDrawn(e: Embedder, queryVector: Option<Vector>, query: string,
                                             convs: seq<Conversation>, o: Oracles)
    ensures SimilarFrom(ScoreQueries(e, queryVector, query, convs, o).0, convs)
    decreases |convs|
  {
    if |convs| > 0 {
      var one := QueryOne(e, queryVector, query, convs[0], o);
      ScoreQueriesStep(e, queryVector, query, convs, o);
      ScoreQueriesDrawn(one.1, queryVector, query, convs[1..], o);
      SimilarCons(one.0, ScoreQueries(one.1, queryVector, query, convs[1..], o).0, convs);
    }
  }

  /** One step of the query scoring recursion. */
  lemma ScoreQueriesStep(e: Embedder, queryVector: Option<Vector>, query: string,
                         convs: seq<Conversation>, o: Oracles)
    requires |convs| > 0
    ensures var one := QueryOne(e, queryVector, query, convs[0], o);
      var rest := ScoreQueries(one.1, queryVector, query, convs[1..], o);
      ScoreQueries(e, queryVector, query, convs, o).0
        == if one.0.similarity > QueryThreshold then [one.0] + rest.0 else rest.0
  {
  }

  /** A similar-enough first candidate before entries drawn from the later ones. */
  lemma SimilarCons(x: Similar, rest: seq<Similar>, convs: seq<Conversation>)
    requires |convs| > 0 && x.conv == convs[0] && SimilarFrom(rest, convs[1..])
    ensures SimilarFrom(rest, convs)
    ensures x.similarity > QueryThreshold ==> SimilarFrom([x] + rest, convs)
  {
    forall k | 0 <= k < |rest| ensures rest[k].conv in convs {
      assert rest[k].conv in convs[1..];
    }
    var xs := [x] + rest;
    forall k | 1 <= k < |xs| ensures xs[k] == rest[k - 1] {
    }
  }

  /** A past query with its fresh similarity. */
  function FreshSimilar(modelLoaded: bool, queryVector: Option<Vector>, query: string, c: Conversation,
                        o: Oracles): Similar {
    Similar(c, FreshSimilarity(modelLoaded, queryVector, query, c.message, o))
  }

  /** The reference filter for past queries: every query scored afresh,
      kept in order when its similarity is above 0.4. */
  function PassingQueries(modelLoaded: bool, queryVector: Option<Vector>, query: string,
                          convs: seq<Conversation>, o: Oracles): seq<Similar>
    decreases |convs|
  {
    if |convs| == 0 then []
    else
      var x := FreshSimilar(modelLoaded, queryVector, query, convs[0], o);
      (if x.similarity > QueryThreshold then [x] else []) + PassingQueries(modelLoaded, queryVector, query, convs[1..], o)
  }

  /** The filter keeps a query exactly when its similarity is above 0.4. */
  lemma {:induction false} PassingQueriesMembers(modelLoaded: bool, queryVector: Option<Vector>, query: string,
                                                 convs: seq<Conversation>, o: Oracles, x: Similar)
    ensures x in PassingQueries(modelLoaded, queryVector, query, convs, o) <==>
      x.conv in convs && x == FreshSimilar(modelLoaded, queryVector, query, x.conv, o) && x.similarity > QueryThreshold
    decreases |convs|
  {
    if |convs| > 0 {
      var y := FreshSimilar(modelLoaded, queryVector, query, convs[0], o);
      var rest := PassingQueries(modelLoaded, queryVector, query, convs[1..], o);
      var head := if y.similarity > QueryThreshold then [y] else [];
      assert PassingQueries(modelLoaded, queryVector, query, convs, o) == head + rest;
      PassingQueriesMembers(modelLoaded, queryVector, query, convs[1..], o, x);
      InHeadOrTail(convs, x.conv);
      assert x in head <==> x == y && y.similarity > QueryThreshold;
    }
  }

  /** With a faithful table, query scoring keeps exactly what the reference
      filter keeps. */
  lemma {:induction false} ScoreQueriesIsPassing(e: Embedder, queryVector: Option<Vector>, query: string,
                                                 convs: seq<Conversation>, o: Oracles)
    requires Faithful(e, o.encode)
    ensures ScoreQueries(e, queryVector, query, convs, o).0 == PassingQueries(e.modelLoaded, queryVector, query, convs, o)
    decreases |convs|
  {
    if |convs| > 0 {
      var one := QueryOne(e, queryVector, query, convs[0], o);
      ScoreQueriesStep(e, queryVector, query, convs, o);
      SimilarityIsFresh(e, queryVector, query, convs[0].message, o);
      assert one.0 == FreshSimilar(e.modelLoaded, queryVector, query, convs[0], o);
      ScoreQueriesIsPassing(one.1, queryVector, query, convs[1..], o);
    }
  }

  /** Embedding the query and then scoring past queries through a faithful
      table keeps what the reference filter keeps. */
  lemma QueryThenScoreQueries(e: Embedder, query: string, convs: seq<Conversation>, o: Oracles)
    ensures var (queryVector, e1) := GetEmbedding(e, query, o.encode);
      Faithful(e, o.encode) ==>
        ScoreQueries(e1, queryVector, query, convs, o).0
          == PassingQueries(e.modelLoaded, FreshQueryVector(e.modelLoaded, query, o), query, convs, o)
  {
    if Faithful(e, o.encode) {
      var (queryVector, e1) := GetEmbedding(e, query, o.encode);
      QueryVectorIsFresh(e, query, o);
      ScoreQueriesIsPassing(e1, queryVector, query, convs, o);
    }
  }

  /** `find_similar_past_queries(query, top_k)`: the past user queries with
      similarity above 0.4, most similar first, the first `top_k` of them. */
  function FindSimilarPastQueries(st: Store, e: Embedder, o: Oracles, cutoff: int, query: string,
                                  topK: int): (r: (seq<Similar>, Embedder))
    ensures UserQueries(AllConversations(st, cutoff)) == [] ==> r == ([], e)
    ensures forall k :: 0 <= k < |r.0| ==>
      && r.0[k].similarity > QueryThreshold
      && r.0[k].conv.speaker == UserSpeaker
      && r.0[k].conv in AllConversations(st, cutoff)
    ensures topK >= 0 ==> |r.0| <= topK
    ensures Descending(r.0, SimilarityKey)
    ensures UserQueries(AllConversations(st, cutoff)) != [] ==>
      var (queryVector, e1) := GetEmbedding(e, query, o.encode);
      var scored := ScoreQueries(e1, queryVector, query, UserQueries(AllConversations(st, cutoff)), o).0;
      && r.0 == PyTake(SortDesc(scored, SimilarityKey), topK)
      && (topK >= 0 ==> |r.0| == if topK < |scored| then topK else |scored|)
    ensures Faithful(e, o.encode) ==>
      r.0 == PyTake(SortDesc(PassingQueries(e.modelLoaded, FreshQueryVector(e.modelLoaded, query, o), query,
                                            UserQueries(AllConversations(st, cutoff)), o), SimilarityKey), topK)
  {
    var users := UserQueries(AllConversations(st, cutoff));
    if |users| == 0 then ([], e)
    else
      var (queryVector, e1) := GetEmbedding(e, query, o.encode);
      var (scored, e2) := ScoreQueries(e1, queryVector, query, users, o);
      ScoreQueriesDrawn(e1, queryVector, query, users, o);
      QueryThenScoreQueries(e, query, users, o);
      var top := PyTake(SortDesc(scored, SimilarityKey), topK);
      TopAreSimilar(scored, users, topK);
      (top, e2)
  }

  /** The leading entries of the sorted queries are similar-enough user
      queries, in descending order. */
  lemma TopAreSimilar(scored: seq<Similar>, users: seq<Conversation>, topK: int)
    requires SimilarFrom(scored, users)
    ensures var top := PyTake(SortDesc(scored, SimilarityKey), topK);
      SimilarFrom(top, users) && Descending(top, SimilarityKey)
  {
    var sorted := SortDesc(scored, SimilarityKey);
    var top := PyTake(sorted, topK);
    forall k | 0 <= k < |top| ensures top[k].similarity > QueryThreshold && top[k].conv in users {
      assert top[k] == sorted[k];
      assert sorted[k] in multiset(scored);
    }
  }

  /** Completeness: when `top_k` leaves room for every query that passes,
      each past user query whose fresh similarity is above 0.4 is returned. */
  lemma FindSimilarReturnsEveryMatch(st: Store, e: Embedder, o: Oracles, cutoff: int, query: string,
                                     topK: int, c: Conversation)
    requires Faithful(e, o.encode)
    requires topK >= |PassingQueries(e.modelLoaded, FreshQueryVector(e.modelLoaded, query, o), query,
                                     UserQueries(AllConversations(st, cutoff)), o)|
    requires c in AllConversations(st, cutoff) && c.speaker == UserSpeaker
    requires FreshSimilarity(e.modelLoaded, FreshQueryVector(e.modelLoaded, query, o), query, c.message, o) > QueryThreshold
    ensures FreshSimilar(e.modelLoaded, FreshQueryVector(e.modelLoaded, query, o), query, c, o)
            in FindSimilarPastQueries(st, e, o, cutoff, query, topK).0
  {
    var qv := FreshQueryVector(e.modelLoaded, query, o);
    var users := UserQueries(AllConversations(st, cutoff));
    var x := FreshSimilar(e.modelLoaded, qv, query, c, o);
    UserQueriesMembers(AllConversations(st, cutoff), c);
    PassingQueriesMembers(e.modelLoaded, qv, query, users, o, x);
    var passing := PassingQueries(e.modelLoaded, qv, query, users, o);
    var sorted := SortDesc(passing, SimilarityKey);
    assert x in multiset(sorted);
    assert PyTake(sorted, topK) == sorted;
  }

  // ----- get_conversation_summary -----

  const NoHistory := "No conversation history."
  const SummaryHead := "Conversation summary:\n- Total exchanges: "
  const SummaryTail := "\n- Topics discussed: "

  /** The exchanges of a history: the smaller of its user and assistant
      message counts; each exchange takes two messages. */
  function Exchanges(history: seq<Message>): (n: nat)
    ensures 2 * n <= |history|
    ensures n <= CountSpeaker(history, UserSpeaker) && n <= CountSpeaker(history, AssistantSpeaker)
    ensures n == CountSpeaker(history, UserSpeaker) || n == CountSpeaker(history, AssistantSpeaker)
  {
    SpeakersDisjoint(history);
    var users, assistants := CountSpeaker(history, UserSpeaker), CountSpeaker(history, AssistantSpeaker);
    if users < assistants then users else assistants
  }

  /** `get_conversation_summary(session_id)`: a fixed line for a session
      without history, else the summary header with the exchange count. */
  function ConversationSummary(st: Store, sessionId: Option<string>): (r: string)
    ensures GetSessionHistory(st, sessionId, None) == [] <==> r == NoHistory
  {
    var history := GetSessionHistory(st, sessionId, None);
    if |history| == 0 then NoHistory
    else
      var r := SummaryHead + NatToString(Exchanges(history)) + SummaryTail;
      assert r[0] == 'C' && NoHistory[0] == 'N';
      r
  }

  /** The summary reports the number of exchanges: the digits after the
      header read back as that count. */
  lemma SummaryReportsExchanges(st: Store, sessionId: Option<string>)
    requires GetSessionHistory(st, sessionId, None) != []
    ensures var r := ConversationSummary(st, sessionId);
      && StartsWith(r, SummaryHead)
      && |SummaryHead| + |SummaryTail| <= |r|
      && var d := r[|SummaryHead|..|r| - |SummaryTail|];
         (forall i :: 0 <= i < |d| ==> IsDigit(d[i]))
         && ParseNat(d) == Exchanges(GetSessionHistory(st, sessionId, None))
  {
    var n := Exchanges(GetSessionHistory(st, sessionId, None));
    var r := ConversationSummary(st, sessionId);
    var d := NatToString(n);
    assert r == SummaryHead + d + SummaryTail;
    assert r[..|SummaryHead|] == SummaryHead;
    assert r[|SummaryHead|..|r| - |SummaryTail|] == d;
    NatToStringRoundTrip(n);
  }
}

=== FILE: ranking.dfy ===
/** Ranking primitives the retriever uses: Python's `list.sort(key=…,
    reverse=True)`, which is stable, and the slice `xs[:k]`. */
module Ranking {

  /** Non-increasing by key. */
  predicate Descending<T>(xs: seq<T>, key: T -> real) {
    forall i, j :: 0 <= i < j < |xs| ==> key(xs[i]) >= key(xs[j])
  }

  /** The entries whose key is `v`, in their order of appearance. */
  function Ties<T>(xs: seq<T>, key: T -> real, v: real): (r: seq<T>)
    ensures |r| <= |xs|
    ensures forall k :: 0 <= k < |r| ==> key(r[k]) == v
  {
    if |xs| == 0 then []
    else Ties(xs[..|xs| - 1], key, v) + (if key(xs[|xs| - 1]) == v then [xs[|xs| - 1]] else [])
  }

  /** `r` is `xs` sorted by descending key, entries with equal keys keeping
      their original relative order. */
  ghost predicate StableDescending<T>(r: seq<T>, xs: seq<T>, key: T -> real) {
    && multiset(r) == multiset(xs)
    && Descending(r, key)
    && forall v :: Ties(r, key, v) == Ties(xs, key, v)
  }

  /** Places `x` after every entry whose key is at least its own. */
  function Insert<T>(s: seq<T>, x: T, key: T -> real): (r: seq<T>)
    ensures multiset(r) == multiset(s) + multiset{x}
    ensures |r| == |s| + 1
    decreases |s|
  {
    if |s| == 0 || key(s[|s| - 1]) >= key(x) then s + [x]
    else
      var init, last := s[..|s| - 1], s[|s| - 1];
      assert s == init + [last];
      Insert(init, x, key) + [last]
  }

  /** Appending an entry no greater than any other keeps the order. */
  lemma DescendingSnoc<T>(r: seq<T>, y: T, key: T -> real)
    requires Descending(r, key)
    requires forall i :: 0 <= i < |r| ==> key(r[i]) >= key(y)
    ensures Descending(r + [y], key)
  {
  }

  /** Inserting into a descending sequence keeps it descending. */
  lemma {:induction false} InsertDescending<T>(s: seq<T>, x: T, key: T -> real)
    requires Descending(s, key)
    ensures Descending(Insert(s, x, key), key)
    decreases |s|
  {
    if |s| == 0 || key(s[|s| - 1]) >= key(x) {
      DescendingSnoc(s, x, key);
    } else {
      var init, last := s[..|s| - 1], s[|s| - 1];
      assert s == init + [last];
      InsertDescending(init, x, key);
      var r0 := Insert(init, x, key);
      forall i | 0 <= i < |r0|
        ensures key(r0[i]) >= key(last)
      {
        assert r0[i] in multiset(init) + multiset{x};
        if r0[i] != x {
          assert r0[i] in init;
        }
      }
      DescendingSnoc(r0, last, key);
    }
  }

  /** The ties of a sequence with one more entry. */
  lemma TiesSnoc<T>(xs: seq<T>, y: T, key: T -> real, v: real)
    ensures Ties(xs + [y], key, v) == Ties(xs, key, v) + (if key(y) == v then [y] else [])
  {
    assert (xs + [y])[..|xs|] == xs;
  }

  /** The inserted entry comes after every entry with its own key. */
  lemma {:induction false} InsertTies<T>(s: seq<T>, x: T, key: T -> real, v: real)
    ensures Ties(Insert(s, x, key), key, v) == Ties(s, key, v) + (if key(x) == v then [x] else [])
    decreases |s|
  {
    if |s| == 0 || key(s[|s| - 1]) >= key(x) {
      TiesSnoc(s, x, key, v);
    } else {
      var init, last := s[..|s| - 1], s[|s| - 1];
      assert s == init + [last];
      var r0 := Insert(init, x, key);
      assert Insert(s, x, key) == r0 + [last];
      InsertTies(init, x, key, v);
      TiesSnoc(r0, last, key, v);
      TiesSnoc(init, last, key, v);
      var tx: seq<T> := if key(x) == v then [x] else [];
      var tl: seq<T> := if key(last) == v then [last] else [];
      SwapEmpty(Ties(init, key, v), tx, tl);
    }
  }

  /** Next to an empty sequence, the order of appending does not matter. */
  lemma SwapEmpty<T>(a: seq<T>, b: seq<T>, c: seq<T>)
    requires b == [] || c == []
    ensures a + b + c == a + c + b
  {
    if b == [] {
      assert a + b == a;
      assert a + c + b == a + c;
    } else {
      assert a + c == a;
      assert a + b + c == a + b;
    }
  }

  /** `xs.sort(key=key, reverse=True)`, an insertion sort. */
  function SortDesc<T>(xs: seq<T>, key: T -> real): (r: seq<T>)
    ensures StableDescending(r, xs, key)
    ensures |r| == |xs|
  {
    if |xs| == 0 then []
    else
      var init, last := xs[..|xs| - 1], xs[|xs| - 1];
      assert xs == init + [last];
      var s0 := SortDesc(init, key);
      InsertDescending(s0, last, key);
      assert forall v :: Ties(Insert(s0, last, key), key, v) == Ties(xs, key, v) by {
        forall v
          ensures Ties(Insert(s0, last, key), key, v) == Ties(xs, key, v)
        {
          InsertTies(s0, last, key, v);
        }
      }
      Insert(s0, last, key)
  }

  /** Python's `xs[:k]`: a negative `k` drops that many entries from the end. */
  function PyTake<T>(xs: seq<T>, k: int): (r: seq<T>)
    ensures |r| <= |xs| && r == xs[..|r|]
    ensures k >= 0 ==> |r| == if k < |xs| then k else |xs|
    ensures k < 0 ==> |r| == if |xs| + k > 0 then |xs| + k else 0
  {
    if k >= 0 then (if k < |xs| then xs[..k] else xs)
    else if |xs| + k > 0 then xs[..|xs| + k] else []
  }

  /** The ties of a prefix are a prefix of the ties. */
  lemma {:induction false} TiesPrefix<T>(s: seq<T>, n: nat, key: T -> real, v: real)
    requires n <= |s|
    ensures Ties(s[..n], key, v) <= Ties(s, key, v)
    decreases |s|
  {
    if n < |s| {
      var init := s[..|s| - 1];
      assert s[..n] == init[..n];
      TiesPrefix(init, n, key, v);
    } else {
      assert s[..n] == s;
    }
  }

  lemma PrefixSplit<T>(s: seq<T>, n: nat)
    requires n <= |s|
    ensures multiset(s) == multiset(s[..n]) + multiset(s[n..])
  {
    assert s == s[..n] + s[n..];
  }

  /** In a descending sequence, nothing after the first `n` entries has a
      larger key than any of them. */
  lemma LeftOutBelow<T>(s: seq<T>, key: T -> real, n: nat)
    requires Descending(s, key) && n <= |s|
    ensures forall y, i :: y in multiset(s) - multiset(s[..n]) && 0 <= i < n ==> key(y) <= key(s[i])
  {
    PrefixSplit(s, n);
    forall y, i | y in multiset(s) - multiset(s[..n]) && 0 <= i < n
      ensures key(y) <= key(s[i])
    {
      assert y in multiset(s[n..]);
      var j :| 0 <= j < |s[n..]| && s[n..][j] == y;
      assert s[n + j] == y;
    }
  }

  /** The leading `n` entries of a stable descending sort are the `n` best of
      `xs`: drawn from `xs`, in descending order, no left-out entry scores
      above a kept one, and equal scores keep their original order. */
  lemma TopOfSort<T>(s: seq<T>, xs: seq<T>, key: T -> real, n: nat)
    requires StableDescending(s, xs, key) && n <= |s|
    ensures multiset(s[..n]) <= multiset(xs)
    ensures Descending(s[..n], key)
    ensures forall y, i :: y in multiset(xs) - multiset(s[..n]) && 0 <= i < n ==> key(y) <= key(s[i])
    ensures forall v :: Ties(s[..n], key, v) <= Ties(xs, key, v)
  {
    PrefixSplit(s, n);
    LeftOutBelow(s, key, n);
    forall v
      ensures Ties(s[..n], key, v) <= Ties(xs, key, v)
    {
      TiesPrefix(s, n, key, v);
    }
  }
}

=== FILE: router.dfy ===
/** The system router (`execute_system_command`): a command string from the
    intent parser is mapped to the one action the assistant takes. Opening the
    explorer, the file dialog, the file search, the browser, the application
    launcher and the process spawner are effects outside the model; the router
    is modelled as the choice of which one runs and with what argument. */
module Router {
  import opened Wrappers
  import opened Text
  import Intent

  datatype Action =
    | OpenExplorer
    | PickAndOpenFile
    | SearchFiles(keyword: string)
    | OpenUrl(url: string)
    | LaunchApp(name: string)
    | RunProcess(executable: string)
    | Unknown(command: string)

  const GmailUrl: string := "https://mail.google.com"
  const YoutubeUrl: string := "https://www.youtube.com"

  /** The application name of an open command: stripped, and with one leading
      "my " (in any case) dropped and the rest stripped again. */
  function AppName(arg: string): (r: string)
    ensures |r| <= |arg|
    ensures |r| == 0 || (!IsSpace(r[0]) && !IsSpace(r[|r| - 1]))
    ensures StartsWith(Lower(Strip(arg)), "my ") ==> r == Strip(Strip(arg)[3..])
    ensures !StartsWith(Lower(Strip(arg)), "my ") ==> r == Strip(arg)
  {
    var name := Strip(arg);
    if StartsWith(Lower(name), "my ") then Strip(name[3..]) else name
  }

  predicate MentionsGmail(name: string) {
    Contains(Lower(name), "gmail") || Contains(Lower(name), "google mail")
  }

  predicate MentionsYoutube(name: string) {
    Contains(Lower(name), "youtube")
  }

  /** The fixed site for a name that mentions Gmail or YouTube, checked in that order. */
  function WebOverride(name: string): (r: Option<string>)
    ensures r.Some? <==> MentionsGmail(name) || MentionsYoutube(name)
    ensures MentionsGmail(name) ==> r == Some(GmailUrl)
    ensures !MentionsGmail(name) && MentionsYoutube(name) ==> r == Some(YoutubeUrl)
  {
    if MentionsGmail(name) then Some(GmailUrl)
    else if MentionsYoutube(name) then Some(YoutubeUrl)
    else None
  }

  /** The guessed web address for a name no local application matched: the
      name with its spaces removed, between "https://www." and ".com". */
  function FallbackUrl(name: string): (r: string)
    ensures StartsWith(r, "https://www.")
    ensures |r| >= |"https://www.com"|
    ensures r[|r| - 4..] == ".com"
    ensures r == "https://www." + Without(name, ' ') + ".com"
  {
    assert " " == [' '];
    ReplaceAllIsWithout(name, ' ');
    "https://www." + ReplaceAll(name, " ", "") + ".com"
  }

  /** The fallback address contains no space, whatever the name. */
  lemma FallbackUrlHasNoSpace(name: string)
    ensures forall i :: 0 <= i < |FallbackUrl(name)| ==> FallbackUrl(name)[i] != ' '
  {
    var mid := ReplaceAll(name, " ", "");
    ReplaceAllDeletes(name, ' ');
    var head := "https://www.";
    var tail := ".com";
    assert forall i :: 0 <= i < |head| ==> head[i] != ' ';
    assert forall i :: 0 <= i < |tail| ==> tail[i] != ' ';
    var r := head + mid + tail;
    assert r == FallbackUrl(name);
    forall i | 0 <= i < |r|
      ensures r[i] != ' '
    {
      if i < |head| {
        assert r[i] == head[i];
      } else if i < |head| + |mid| {
        assert r[i] == mid[i - |head|];
      } else {
        assert r[i] == tail[i - |head| - |mid|];
      }
    }
  }

  /** What an open command does with its application name: a web override,
      else the local application when the launcher finds one, else the guessed
      web address. `launches` says whether the launcher found a match. */
  function OpenAction(name: string, launches: string -> bool): (r: Action)
    ensures r.OpenUrl? || r.LaunchApp?
    ensures r.LaunchApp? <==> WebOverride(name).None? && launches(name)
    ensures r.LaunchApp? ==> r.name == name
    ensures r.OpenUrl? && WebOverride(name).None? ==> r.url == FallbackUrl(name)
    ensures WebOverride(name).Some? ==> r == OpenUrl(WebOverride(name).value)
  {
    match WebOverride(name)
    case Some(url) => OpenUrl(url)
    case None => if launches(name) then LaunchApp(name) else OpenUrl(FallbackUrl(name))
  }

  /** `execute_system_command(command)`, as the action it takes. */
  function Route(command: string, launches: string -> bool): (r: Action)
    ensures r == OpenExplorer <==> command == "explorer"
    ensures r == PickAndOpenFile <==> command == "pick_file"
    ensures r.SearchFiles? <==> StartsWith(command, "find_file:")
    ensures r.SearchFiles? ==> command == "find_file:" + r.keyword
    ensures r.OpenUrl? || r.LaunchApp? <==> StartsWith(command, "open:")
    ensures StartsWith(command, "open:") ==> r == OpenAction(AppName(command[5..]), launches)
    ensures r.RunProcess? <==> command == "calc" || command == "notepad"
    ensures r.Unknown? ==> r.command == command
  {
    if command == "explorer" then
      NotPrefixAt(command, "open:", 0);
      OpenExplorer
    else if command == "pick_file" then
      NotPrefixAt(command, "open:", 0);
      PickAndOpenFile
    else if StartsWith(command, "find_file:") then
      NotPrefixAt(command, "open:", 0);
      AfterFirstOfPrefix("find_file:", ':', command[10..]);
      assert "find_file:" + command[10..] == command;
      SearchFiles(AfterFirst(command, ':').value)
    else if StartsWith(command, "open:") then
      AfterFirstOfPrefix("open:", ':', command[5..]);
      assert "open:" + command[5..] == command;
      OpenAction(AppName(AfterFirst(command, ':').value), launches)
    else if command == "calc" then RunProcess("calc.exe")
    else if command == "notepad" then RunProcess("notepad.exe")
    else Unknown(command)
  }

  /** Routing undoes rendering: each parsed command reaches the action it names. */
  lemma RouteRender(c: Intent.Command, launches: string -> bool)
    requires Intent.WellFormed(c)
    ensures c.Explorer? ==> Route(Intent.Render(c), launches) == OpenExplorer
    ensures c.PickFile? ==> Route(Intent.Render(c), launches) == PickAndOpenFile
    ensures c.FindFile? ==> Route(Intent.Render(c), launches) == SearchFiles(c.keyword)
    ensures c.Open? ==> Route(Intent.Render(c), launches) == OpenAction(AppName(c.app), launches)
  {
    match c
    case Explorer =>
    case PickFile =>
    case FindFile(k) =>
      var s := Intent.Render(c);
      assert s[..|"find_file:"|] == "find_file:";
      assert s[10..] == k;
    case Open(a) =>
      var s := Intent.Render(c);
      assert s[..|"open:"|] == "open:";
      NotPrefixAt(s, "find_file:", 0);
      assert s != "explorer" && s != "pick_file";
      assert s[5..] == a;
  }

  /** Whatever the user says, the router never reports an unknown command and
      never takes the bare "calc"/"notepad" branches: the parser does not emit them. */
  lemma ParsedCommandIsRouted(text: string, launches: string -> bool)
    requires Intent.ParseIntent(text).Some?
    ensures !Route(Intent.ParseIntent(text).value, launches).Unknown?
    ensures !Route(Intent.ParseIntent(text).value, launches).RunProcess?
  {
    RouteRender(Intent.Classify(text).value, launches);
  }

  /** A leading "my ", in any case, is dropped from the application name. */
  lemma AppNameDropsMy(p: string, x: string)
    requires |p| == 3 && Lower(p) == "my "
    requires x != "" && Strip(x) == x
    ensures AppName(p + x) == x
  {
    var s := p + x;
    assert LowerChar(p[0]) == 'm';
    assert !IsSpace(x[|x| - 1]);
    assert s[|s| - 1] == x[|x| - 1];
    StripTrimmed(s);
    LowerConcat(p, x);
    assert StartsWith(Lower(s), "my ") by {
      assert Lower(s)[..3] == Lower(p);
    }
    assert s[3..] == x;
  }

  lemma LowerMy()
    ensures Lower("my ") == "my "
  {
    assert NoUpper("my ");
  }

  /** Only one "my " is dropped: a second one stays in the name. */
  lemma AppNameDropsMyOnce(x: string)
    requires x != "" && Strip(x) == x
    ensures AppName("my my " + x) == "my " + x
  {
    var y := "my " + x;
    assert "my my " + x == "my " + y;
    assert !IsSpace(x[|x| - 1]);
    assert y[0] == 'm' && y[|y| - 1] == x[|x| - 1];
    StripTrimmed(y);
    LowerMy();
    AppNameDropsMy("my ", y);
  }

  /** The launcher is consulted only after the web overrides: a name that
      mentions Gmail or YouTube opens the same page whatever the launcher does. */
  lemma WebOverrideIgnoresLauncher(arg: string, l1: string -> bool, l2: string -> bool)
    requires WebOverride(AppName(arg)).Some?
    ensures Route("open:" + arg, l1) == Route("open:" + arg, l2)
    ensures Route("open:" + arg, l1).OpenUrl?
  {
    var s := "open:" + arg;
    assert s[..|"open:"|] == "open:";
    assert s[5..] == arg;
  }
}

=== FILE: soul.dfy ===
/** The prompt-injection guard (`SoulProtector`): it holds the assistant's
    system prompt as read from its file together with the file's hash, flags
    user input that contains a known injection phrase, answers such input with
    a fixed refusal and re-checks the file against the stored hash. The file
    system, SHA-256 and Python's salted `hash` are parameters. */
module Soul {
  import opened Wrappers
  import opened Text

  /** The injection phrases, checked in this order. */
  const InjectionPatterns: seq<string> := [
    "ignore all previous instructions",
    "ignore previous instructions",
    "disregard all previous",
    "forget everything",
    "new instructions",
    "you are now",
    "act as",
    "pretend to be",
    "roleplay as",
    "ignore your programming",
    "override your",
    "system prompt",
    "forget your instructions",
    "new personality",
    "change your personality",
    "you are chatgpt",
    "you are claude",
    "you are gpt",
    "become a",
    "transform into",
    "ignore all",
    "disregard previous",
    "previous instructions don't matter",
    "forget what you were told",
    "new directive",
    "override directive",
    "jailbreak",
    "developer mode",
    "sudo mode",
    "admin mode",
    "god mode",
    "unrestricted mode",
    "do anything now",
    "dan mode"
  ]

  /** The name every refusal asserts. */
  const AssistantName := "Mareen"

  /** A refusal that names the assistant between two fixed parts. */
  function Refusal(before: string, after: string): (r: string)
    ensures Contains(r, AssistantName)
  {
    var r := before + AssistantName + after;
    assert r[|before|..|before| + |AssistantName|] == AssistantName;
    ContainsAt(r, AssistantName, |before|);
    r
  }

  /** The refusals given to detected injections. */
  const Responses: seq<string> := [
    Refusal("मुझे माफ करें, लेकिन मैं अपनी core instructions को change नहीं कर सकती। मैं ", " हूँ और ऐसे ही रहूँगी। क्या मैं कुछ और help कर सकती हूँ?"),
    Refusal("नहीं, मैं अपनी personality बदल नहीं सकती। मैं ", " हूँ। आपकी actually क्या मदद चाहिए?"),
    Refusal("मैं ", " हूँ और मेरी identity change नहीं होती। कोई genuine query है जिसमें मैं help कर सकूँ?"),
    Refusal("Sorry, लेकिन मैं अपने instructions ignore नहीं कर सकती। मैं हमेशा ", " रहूँगी। कुछ और बताइए?")
  ]

  // ----- detect_injection -----

  /** The index of the first pattern that occurs in `text`. */
  function FirstMatch(text: string, patterns: seq<string>): (r: Option<nat>)
    ensures r.Some? ==> r.value < |patterns| && Contains(text, patterns[r.value])
    ensures r.Some? ==> forall j :: 0 <= j < r.value ==> !Contains(text, patterns[j])
    ensures r.None? <==> forall j :: 0 <= j < |patterns| ==> !Contains(text, patterns[j])
    decreases |patterns|
  {
    if |patterns| == 0 then None
    else if Contains(text, patterns[0]) then Some(0)
    else match FirstMatch(text, patterns[1..])
      case None => None
      case Some(i) => Some(i + 1)
  }

  /** `(is_injection_detected, detected_pattern)`. */
  datatype Detection = Detection(detected: bool, pattern: Option<string>)

  /** `detect_injection(user_input)`: the first pattern, in list order, that
      occurs in the lower-cased input. */
  function DetectInjection(input: string): (r: Detection)
    ensures r.detected <==> r.pattern.Some?
    ensures !r.detected <==> forall j :: 0 <= j < |InjectionPatterns| ==> !Contains(Lower(input), InjectionPatterns[j])
    ensures r.detected ==> exists i :: (0 <= i < |InjectionPatterns| && InjectionPatterns[i] == r.pattern.value
      && Contains(Lower(input), InjectionPatterns[i])
      && forall j :: 0 <= j < i ==> !Contains(Lower(input), InjectionPatterns[j]))
  {
    match FirstMatch(Lower(input), InjectionPatterns)
    case None => Detection(false, None)
    case Some(i) => Detection(true, Some(InjectionPatterns[i]))
  }

  /** A text that starts with `p` contains every prefix of `p`. */
  lemma {:induction false} ContainsPrefix(s: string, p: string, q: string)
    requires Contains(s, p) && StartsWith(p, q)
    ensures Contains(s, q)
    decreases |s|
  {
    if StartsWith(s, p) {
      assert s[..|q|] == p[..|q|];
    } else {
      ContainsPrefix(s[1..], p, q);
    }
  }

  /** First match wins: input containing "ignore all previous instructions"
      is reported with that pattern, although the later pattern "ignore all"
      occurs in it too. */
  lemma FirstPatternWins(input: string)
    requires Contains(Lower(input), InjectionPatterns[0])
    ensures DetectInjection(input) == Detection(true, Some(InjectionPatterns[0]))
    ensures Contains(Lower(input), InjectionPatterns[20])
  {
    var p, q := InjectionPatterns[0], InjectionPatterns[20];
    assert p == "ignore all previous instructions" && q == "ignore all";
    assert p[..|q|] == q;
    ContainsPrefix(Lower(input), p, q);
  }

  // ----- get_injection_response -----

  /** `get_injection_response(detected_pattern)`: the refusal that the
      pattern's hash, as seed, picks; `choice` stands for the seeded pick. */
  function GetInjectionResponse(pattern: string, choice: string -> nat): (r: string)
    ensures r in Responses
    ensures r == Responses[choice(pattern) % |Responses|]
  {
    Responses[choice(pattern) % |Responses|]
  }

  /** `p` occurs in `s` at position `i`. */
  lemma ContainsAt(s: string, p: string, i: nat)
    requires i + |p| <= |s| && s[i..i + |p|] == p
    ensures Contains(s, p)
    decreases i
  {
    if i > 0 {
      assert s[1..][i - 1..i - 1 + |p|] == p;
      ContainsAt(s[1..], p, i - 1);
    }
  }

  /** Every refusal names the assistant, so whichever is picked the
      assistant keeps its identity. */
  lemma ResponsesKeepIdentity(pattern: string, choice: string -> nat)
    ensures Contains(GetInjectionResponse(pattern, choice), AssistantName)
  {
    assert forall k :: 0 <= k < |Responses| ==> Contains(Responses[k], AssistantName);
  }

  // ----- the protected prompt and its integrity -----

  /** The prompt as loaded and the SHA-256 of it. */
  datatype Protector = Protector(content: string, hash: string)

  /** The stored hash is the hash of the stored prompt. */
  predicate Consistent(p: Protector, sha: string -> string) {
    p.hash == sha(p.content)
  }

  /** `_load_soul()`: the file's text verbatim, or the error raised when the
      file is missing; `file` is what reading it gives. */
  function LoadSoul(file: Option<string>): (r: Result<string, string>)
    ensures file.None? <==> r.Err?
    ensures file.Some? ==> r == Ok(file.value)
  {
    match file
    case None => Err("Soul file not found")
    case Some(text) => Ok(text)
  }

  /** `SoulProtector()`: the prompt loaded and hashed; construction fails
      when the file is missing. */
  function NewProtector(file: Option<string>, sha: string -> string): (r: Result<Protector, string>)
    ensures file.None? <==> r.Err?
    ensures r.Ok? ==> r.value.content == file.value && Consistent(r.value, sha)
  {
    match LoadSoul(file)
    case Err(e) => Err(e)
    case Ok(text) => Ok(Protector(text, sha(text)))
  }

  /** `get_system_prompt()`: the stored text itself, unprocessed. */
  function GetSystemPrompt(p: Protector): (r: string)
    ensures |r| == |p.content|
    ensures r == p.content
  {
    p.content
  }

  /** `verify_soul_integrity()`: true when the file still hashes to the
      stored hash; on a mismatch the new text and hash are adopted and the
      answer is false; when the file cannot be read nothing changes and the
      answer is false. */
  function VerifySoulIntegrity(p: Protector, file: Option<string>, sha: string -> string): (r: (bool, Protector))
    ensures r.0 <==> file.Some? && sha(file.value) == p.hash
    ensures file.None? ==> r.1 == p
    ensures r.0 ==> r.1 == p
    ensures file.Some? && !r.0 ==> r.1 == Protector(file.value, sha(file.value))
  {
    match LoadSoul(file)
    case Err(_) => (false, p)
    case Ok(text) =>
      var current := sha(text);
      if current != p.hash then (false, Protector(text, current)) else (true, p)
  }

  /** Verification keeps the stored hash that of the stored prompt. */
  lemma VerifyKeepsConsistent(p: Protector, file: Option<string>, sha: string -> string)
    requires Consistent(p, sha)
    ensures Consistent(VerifySoulIntegrity(p, file, sha).1, sha)
  {
  }

  /** After a check of a readable file, checking the unchanged file again
      succeeds, and the prompt served hashes like the file. */
  lemma RecheckSucceeds(p: Protector, text: string, sha: string -> string)
    requires Consistent(p, sha)
    ensures var p1 := VerifySoulIntegrity(p, Some(text), sha).1;
      && VerifySoulIntegrity(p1, Some(text), sha) == (true, p1)
      && sha(GetSystemPrompt(p1)) == sha(text)
  {
  }

  /** A freshly loaded guard passes its first check of the same file and
      serves the file's text verbatim. */
  lemma FreshProtectorVerifies(text: string, sha: string -> string)
    ensures NewProtector(Some(text), sha).Ok?
    ensures var p := NewProtector(Some(text), sha).value;
      GetSystemPrompt(p) == text && VerifySoulIntegrity(p, Some(text), sha) == (true, p)
  {
  }

  /** `get_soul_stats()`. */
  datatype SoulStats = SoulStats(
    soulLoaded: bool,
    soulLength: nat,
    soulHash: string,
    protectedPatterns: nat,
    integrityVerified: bool)

  /** `get_soul_stats()`: the dictionary's entries are evaluated in order, so
      length and hash describe the prompt before the integrity check, which
      may then replace it. */
  function GetSoulStats(p: Protector, file: Option<string>, sha: string -> string): (r: (SoulStats, Protector))
    ensures r.0.soulLoaded <==> |p.content| > 0
    ensures r.0.soulLength == |p.content| && r.0.soulHash == p.hash
    ensures r.0.protectedPatterns == 34
    ensures r.0.integrityVerified <==> file.Some? && sha(file.value) == p.hash
    ensures r.1 == VerifySoulIntegrity(p, file, sha).1
  {
    var (ok, p1) := VerifySoulIntegrity(p, file, sha);
    (SoulStats(|p.content| > 0, |p.content|, p.hash, |InjectionPatterns|, ok), p1)
  }
}

=== FILE: speech.dfy ===
/** Text-to-speech chunking (`split_text`, `speak_neural`): a reply is cut
    into sentences at whitespace that follows terminal punctuation, and the
    sentences are packed greedily into chunks shorter than a length budget.
    Audio synthesis and playback are effects outside the model. */
module Speech {
  import opened Wrappers
  import opened Text

  predicate IsTerminal(c: char) { c == '.' || c == '!' || c == '?' }

  /** Where the sentence pattern `(?<=[.!?])\s+` can start: a whitespace
      character right after terminal punctuation. */
  predicate BreakAt(s: string, i: int) {
    0 < i < |s| && IsTerminal(s[i - 1]) && IsSpace(s[i])
  }

  predicate NoBreak(s: string) {
    forall i :: 0 <= i < |s| ==> !BreakAt(s, i)
  }

  predicate AllSpace(s: string) {
    forall i :: 0 <= i < |s| ==> IsSpace(s[i])
  }

  /** The first split point at or after `from`. */
  function BreakFrom(s: string, from: nat): (r: Option<nat>)
    ensures r.Some? ==> from <= r.value && BreakAt(s, r.value)
    ensures r.Some? ==> forall j :: from <= j < r.value ==> !BreakAt(s, j)
    ensures r.None? ==> forall j :: from <= j ==> !BreakAt(s, j)
    decreases |s| - from
  {
    if from >= |s| then None
    else if BreakAt(s, from) then Some(from)
    else BreakFrom(s, from + 1)
  }

  /** The length of the leading whitespace run, which `\s+` consumes greedily. */
  function SpaceLen(s: string): (n: nat)
    ensures n <= |s| && AllSpace(s[..n])
    ensures n == |s| || !IsSpace(s[n])
    decreases |s|
  {
    if |s| == 0 || !IsSpace(s[0]) then 0
    else
      var n := 1 + SpaceLen(s[1..]);
      assert forall i :: 1 <= i < n ==> s[..n][i] == s[1..][..n - 1][i - 1];
      n
  }

  /** Breaks inside a prefix that stops at the first break do not exist. */
  lemma PrefixNoBreak(s: string, i: nat)
    requires i <= |s| && forall j :: 0 <= j < i ==> !BreakAt(s, j)
    ensures NoBreak(s[..i])
  {
    forall j | BreakAt(s[..i], j)
      ensures false
    {
      assert BreakAt(s, j);
    }
  }

  /** `re.split(r'(?<=[.!?])\s+', s)`: the pieces between the split runs. */
  function Sentences(s: string): (r: seq<string>)
    ensures |r| >= 1
    ensures forall k :: 0 <= k < |r| ==> NoBreak(r[k])
    ensures forall k :: 0 <= k < |r| - 1 ==> |r[k]| > 0 && IsTerminal(r[k][|r[k]| - 1])
    ensures forall k :: 0 < k < |r| ==> r[k] == "" || !IsSpace(r[k][0])
    decreases |s|
  {
    match BreakFrom(s, 0)
    case None => [s]
    case Some(i) =>
      var j := i + SpaceLen(s[i..]);
      PrefixNoBreak(s, i);
      var rest := Sentences(s[j..]);
      assert s[j..] == "" || !IsSpace(s[j..][0]);
      [s[..i]] + rest
  }

  /** The whitespace runs `re.split` removes, in order. */
  function Gaps(s: string): (r: seq<string>)
    ensures |r| + 1 == |Sentences(s)|
    ensures forall k :: 0 <= k < |r| ==> |r[k]| > 0 && AllSpace(r[k])
    decreases |s|
  {
    match BreakFrom(s, 0)
    case None => []
    case Some(i) =>
      var j := i + SpaceLen(s[i..]);
      assert s[i..j] == s[i..][..j - i];
      [s[i..j]] + Gaps(s[j..])
  }

  /** The pieces put back together with the runs between them. */
  function Weave(xs: seq<string>, gs: seq<string>): string
    requires |gs| + 1 == |xs|
  {
    if |gs| == 0 then xs[0] else xs[0] + gs[0] + Weave(xs[1..], gs[1..])
  }

  /** Splitting into sentences loses nothing: the sentences and the removed
      whitespace runs, interleaved, give back the text. */
  lemma {:induction false} SentencesRoundTrip(s: string)
    ensures Weave(Sentences(s), Gaps(s)) == s
    decreases |s|
  {
    match BreakFrom(s, 0)
    case None =>
    case Some(i) =>
      var j := i + SpaceLen(s[i..]);
      SentencesRoundTrip(s[j..]);
      assert Sentences(s) == [s[..i]] + Sentences(s[j..]);
      assert Gaps(s) == [s[i..j]] + Gaps(s[j..]);
      assert s == s[..i] + s[i..j] + s[j..];
  }

  /** The chunk buffer after appending the sentences of `g`, each followed by
      one space, to an empty buffer. */
  function Buffer(g: seq<string>): (r: string)
    ensures |g| > 0 ==> |r| > 0 && r[|r| - 1] == ' '
  {
    if |g| == 0 then "" else Buffer(g[..|g| - 1]) + g[|g| - 1] + " "
  }

  /** Each sentence of a chunk after its first (and, for the first chunk,
      also its first) was appended because the buffer and the sentence
      together stayed below the budget. */
  predicate GroupFits(g: seq<string>, first: bool, maxLength: int) {
    forall m :: 0 <= m < |g| && (first || m > 0) ==> |Buffer(g[..m])| + |g[m]| < maxLength
  }

  predicate Fits(gs: seq<seq<string>>, maxLength: int) {
    forall k :: 0 <= k < |gs| ==> GroupFits(gs[k], k == 0, maxLength)
  }

  /** `next` opens a new chunk: its first sentence did not fit after `prev`. */
  predicate Opens(prev: seq<string>, next: seq<string>, maxLength: int) {
    |next| > 0 && |Buffer(prev)| + |next[0]| >= maxLength
  }

  /** Every chunk after the first starts with a sentence that did not fit into
      the previous chunk's buffer. */
  predicate Full(gs: seq<seq<string>>, maxLength: int) {
    forall k :: 1 <= k < |gs| ==> Opens(gs[k - 1], gs[k], maxLength)
  }

  /** `gs` is the greedy packing of the sentences `ss` under the budget. */
  predicate Greedy(gs: seq<seq<string>>, ss: seq<string>, maxLength: int) {
    |gs| >= 1 && Flatten(gs) == ss && Fits(gs, maxLength) && Full(gs, maxLength)
  }

  lemma FlattenSnoc(gs: seq<seq<string>>, g: seq<string>, s: string)
    ensures Flatten(gs + [g + [s]]) == Flatten(gs + [g]) + [s]
    ensures Flatten(gs + [g] + [[s]]) == Flatten(gs + [g]) + [s]
  {
    assert (gs + [g + [s]])[..|gs|] == gs;
    assert (gs + [g])[..|gs|] == gs;
    assert (gs + [g] + [[s]])[..|gs| + 1] == gs + [g];
    assert Flatten([]) + [s] == [s];
  }

  lemma GroupFitsSnoc(g: seq<string>, first: bool, s: string, maxLength: int)
    requires GroupFits(g, first, maxLength) && (first || |g| > 0)
    requires |Buffer(g)| + |s| < maxLength
    ensures GroupFits(g + [s], first, maxLength)
  {
    var h := g + [s];
    forall m | 0 <= m < |h| && (first || m > 0)
      ensures |Buffer(h[..m])| + |h[m]| < maxLength
    {
      if m < |g| {
        assert h[..m] == g[..m];
      } else {
        assert h[..m] == g;
      }
    }
  }

  /** Appending a sentence that fits keeps the packing greedy. */
  lemma AppendStep(gs: seq<seq<string>>, g: seq<string>, s: string, maxLength: int)
    requires Fits(gs + [g], maxLength) && Full(gs + [g], maxLength)
    requires |gs| == 0 || |g| > 0
    requires |Buffer(g)| + |s| < maxLength
    ensures Fits(gs + [g + [s]], maxLength) && Full(gs + [g + [s]], maxLength)
  {
    var before := gs + [g];
    var after := gs + [g + [s]];
    assert GroupFits(before[|gs|], |gs| == 0, maxLength);
    GroupFitsSnoc(g, |gs| == 0, s, maxLength);
    forall k | 0 <= k < |after|
      ensures GroupFits(after[k], k == 0, maxLength)
    {
      if k < |gs| {
        assert after[k] == before[k];
      }
    }
    forall k | 1 <= k < |after|
      ensures Opens(after[k - 1], after[k], maxLength)
    {
      assert after[k - 1] == before[k - 1];
      assert Opens(before[k - 1], before[k], maxLength);
      if k < |gs| {
        assert after[k] == before[k];
      } else {
        assert before[k] == g && after[k] == g + [s];
        assert (g + [s])[0] == g[0];
      }
    }
  }

  /** Starting a new chunk with a sentence that does not fit keeps the
      packing greedy. */
  lemma CutStep(gs: seq<seq<string>>, g: seq<string>, s: string, maxLength: int)
    requires Fits(gs + [g], maxLength) && Full(gs + [g], maxLength)
    requires |Buffer(g)| + |s| >= maxLength
    ensures Fits(gs + [g] + [[s]], maxLength) && Full(gs + [g] + [[s]], maxLength)
  {
    var before := gs + [g];
    var after := gs + [g] + [[s]];
    forall k | 0 <= k < |after|
      ensures GroupFits(after[k], k == 0, maxLength)
    {
      if k < |before| {
        assert after[k] == before[k];
      } else {
        assert after[k][..0] == [];
      }
    }
    forall k | 1 <= k < |after|
      ensures Opens(after[k - 1], after[k], maxLength)
    {
      if k < |before| {
        assert after[k] == before[k];
        assert after[k - 1] == before[k - 1];
      }
    }
  }

  /** A chunk built from two or more sentences, or the first chunk built from
      one, is shorter than the budget. Only a sentence that opened a later
      chunk can be longer. */
  lemma ChunkFits(gs: seq<seq<string>>, maxLength: int, k: nat)
    requires Fits(gs, maxLength) && k < |gs|
    requires |gs[k]| >= 2 || (k == 0 && |gs[0]| == 1)
    ensures |Strip(Buffer(gs[k]))| < maxLength
  {
    var g := gs[k];
    var m := |g| - 1;
    assert GroupFits(g, k == 0, maxLength);
    assert |Buffer(g[..m])| + |g[m]| < maxLength;
    assert |Buffer(g)| == |Buffer(g[..m])| + |g[m]| + 1;
  }

  /** The loop state of `split_text` after the first `i` sentences: closed
      chunks with the sentences they were built from, and the open buffer
      holding the sentences of the current chunk. */
  predicate Packed(ss: seq<string>, i: nat, chunks: seq<string>, groups: seq<seq<string>>,
                   group: seq<string>, current: string, maxLength: int)
  {
    && i <= |ss|
    && current == Buffer(group)
    && |chunks| == |groups|
    && (forall k :: 0 <= k < |chunks| ==> chunks[k] == Strip(Buffer(groups[k])))
    && Flatten(groups + [group]) == ss[..i]
    && Fits(groups + [group], maxLength) && Full(groups + [group], maxLength)
    && (i > 0 ==> |group| > 0)
    && (i == 0 ==> groups == [] && group == [])
  }

  /** One turn of the loop that appends a sentence which fits. */
  lemma PackAppend(ss: seq<string>, i: nat, chunks: seq<string>, groups: seq<seq<string>>,
                   group: seq<string>, current: string, maxLength: int)
    requires Packed(ss, i, chunks, groups, group, current, maxLength) && i < |ss|
    requires |current| + |ss[i]| < maxLength
    ensures Packed(ss, i + 1, chunks, groups, group + [ss[i]], current + ss[i] + " ", maxLength)
  {
    FlattenSnoc(groups, group, ss[i]);
    TakeSnoc(ss, i);
    AppendStep(groups, group, ss[i], maxLength);
    assert (group + [ss[i]])[..|group|] == group;
  }

  /** One turn of the loop that closes the chunk and opens the next with a
      sentence which does not fit. */
  lemma PackCut(ss: seq<string>, i: nat, chunks: seq<string>, groups: seq<seq<string>>,
                group: seq<string>, current: string, maxLength: int)
    requires Packed(ss, i, chunks, groups, group, current, maxLength) && i < |ss|
    requires |current| + |ss[i]| >= maxLength
    ensures Packed(ss, i + 1, chunks + [Strip(current)], groups + [group], [ss[i]], ss[i] + " ", maxLength)
  {
    var sentence := ss[i];
    FlattenSnoc(groups, group, sentence);
    TakeSnoc(ss, i);
    CutStep(groups, group, sentence, maxLength);
    BufferOne(sentence);
    ChunksSnoc(chunks, groups, group, current);
  }

  lemma TakeSnoc(ss: seq<string>, i: nat)
    requires i < |ss|
    ensures ss[..i + 1] == ss[..i] + [ss[i]]
  {
  }

  /** The buffer of a single sentence. */
  lemma BufferOne(s: string)
    ensures Buffer([s]) == s + " "
  {
    assert [s][..0] == [];
    assert Buffer([s]) == "" + s + " ";
  }

  /** Closing the open buffer adds its stripped text as the chunk of its
      sentences. */
  lemma ChunksSnoc(chunks: seq<string>, groups: seq<seq<string>>, group: seq<string>, current: string)
    requires |chunks| == |groups| && current == Buffer(group)
    requires forall k :: 0 <= k < |chunks| ==> chunks[k] == Strip(Buffer(groups[k]))
    ensures forall k :: 0 <= k < |chunks| + 1 ==> (chunks + [Strip(current)])[k] == Strip(Buffer((groups + [group])[k]))
  {
    var cs := chunks + [Strip(current)];
    var gs := groups + [group];
    forall k | 0 <= k < |cs|
      ensures cs[k] == Strip(Buffer(gs[k]))
    {
      if k < |chunks| {
        assert cs[k] == chunks[k] && gs[k] == groups[k];
      }
    }
  }

  /** After the last sentence the buffer is never empty, and closing it gives
      the greedy packing. */
  lemma PackDone(ss: seq<string>, chunks: seq<string>, groups: seq<seq<string>>,
                 group: seq<string>, current: string, maxLength: int)
    requires Packed(ss, |ss|, chunks, groups, group, current, maxLength) && |ss| > 0
    ensures current != ""
    ensures Greedy(groups + [group], ss, maxLength)
    ensures forall k :: 0 <= k < |chunks| + 1 ==> (chunks + [Strip(current)])[k] == Strip(Buffer((groups + [group])[k]))
    ensures forall k :: 0 <= k < |chunks| + 1 && |(groups + [group])[k]| >= 2 ==> |(chunks + [Strip(current)])[k]| < maxLength
  {
    assert ss[..|ss|] == ss;
    ChunksSnoc(chunks, groups, group, current);
    var cs := chunks + [Strip(current)];
    var gs := groups + [group];
    forall k | 0 <= k < |cs| && |gs[k]| >= 2
      ensures |cs[k]| < maxLength
    {
      ChunkFits(gs, maxLength, k);
    }
  }

  /** The packing of one more sentence, as one turn of the loop computes it:
      into the open chunk when it fits, else into a new chunk. */
  function Extend(gs: seq<seq<string>>, s: string, maxLength: int): seq<seq<string>>
    requires |gs| >= 1
  {
    var last := gs[|gs| - 1];
    if |Buffer(last)| + |s| < maxLength then gs[..|gs| - 1] + [last + [s]]
    else gs + [[s]]
  }

  /** The packing with its last sentence taken away. */
  function Shrink(gs: seq<seq<string>>): seq<seq<string>>
    requires |gs| >= 1 && |gs[|gs| - 1]| > 0
  {
    var last := gs[|gs| - 1];
    if |last| >= 2 || |gs| == 1 then gs[..|gs| - 1] + [last[..|last| - 1]]
    else gs[..|gs| - 1]
  }

  lemma {:induction false} FlattenPrefix(gs: seq<seq<string>>, j: nat)
    requires j <= |gs|
    ensures |Flatten(gs[..j])| <= |Flatten(gs)| && Flatten(gs)[..|Flatten(gs[..j])|] == Flatten(gs[..j])
    decreases |gs|
  {
    if j < |gs| {
      var init := gs[..|gs| - 1];
      FlattenPrefix(init, j);
      assert init[..j] == gs[..j];
      assert Flatten(gs) == Flatten(init) + gs[|gs| - 1];
    } else {
      assert gs[..j] == gs;
    }
  }

  /** The first sentence sits in the first chunk, or opens the second when
      the first chunk is empty. */
  lemma FlattenFirst(gs: seq<seq<string>>)
    requires |gs| >= 1 && |Flatten(gs)| > 0
    ensures |gs[0]| > 0 ==> Flatten(gs)[0] == gs[0][0]
    ensures |gs[0]| == 0 && |gs| >= 2 && |gs[1]| > 0 ==> Flatten(gs)[0] == gs[1][0]
  {
    FlattenPrefix(gs, 1);
    assert gs[..1][..0] == [];
    assert Flatten(gs[..1]) == Flatten([]) + gs[0];
    if |gs[0]| == 0 && |gs| >= 2 && |gs[1]| > 0 {
      FlattenPrefix(gs, 2);
      assert gs[..2][..1] == gs[..1];
      assert Flatten(gs[..2]) == Flatten(gs[..1]) + gs[1];
    }
  }

  lemma FlattenSingle(gs: seq<seq<string>>)
    ensures |gs| == 1 ==> Flatten(gs) == gs[0]
  {
    if |gs| == 1 {
      assert Flatten(gs) == Flatten([]) + gs[0];
    }
  }

  /** A chunk after the first is never empty. */
  lemma LaterNonEmpty(gs: seq<seq<string>>, maxLength: int)
    ensures Full(gs, maxLength) && |gs| >= 2 ==> |gs[|gs| - 1]| > 0
  {
    if Full(gs, maxLength) && |gs| >= 2 {
      assert Opens(gs[|gs| - 2], gs[|gs| - 1], maxLength);
    }
  }

  /** The first chunk is empty exactly when the first sentence alone reaches
      the budget: `split_text` then emits an empty chunk first. */
  lemma FirstChunkEmpty(gs: seq<seq<string>>, ss: seq<string>, maxLength: int)
    requires Greedy(gs, ss, maxLength) && |ss| > 0
    ensures gs[0] == [] <==> |ss[0]| >= maxLength
  {
    FlattenFirst(gs);
    FlattenSingle(gs);
    assert GroupFits(gs[0], true, maxLength);
    if gs[0] == [] {
      assert Opens(gs[0], gs[1], maxLength);
    } else {
      assert gs[0][..0] == [];
    }
  }

  /** The last chunk of a packing of a non-empty list is not empty. */
  lemma LastNonEmpty(gs: seq<seq<string>>, ss: seq<string>, maxLength: int)
    requires Greedy(gs, ss, maxLength) && |ss| > 0
    ensures |gs[|gs| - 1]| > 0
  {
    var n := |gs| - 1;
    if n == 0 {
      assert Flatten(gs) == Flatten(gs[..0]) + gs[0];
    } else {
      assert Opens(gs[n - 1], gs[n], maxLength);
    }
  }

  /** Dropping the last sentence of the last chunk keeps every chunk fitting. */
  lemma TruncateFits(gs: seq<seq<string>>, maxLength: int)
    requires |gs| >= 1 && Fits(gs, maxLength)
    requires |gs[|gs| - 1]| >= 2 || (|gs| == 1 && |gs[0]| == 1)
    ensures Fits(Shrink(gs), maxLength)
  {
    var n := |gs| - 1;
    var last := gs[n];
    var m := |last| - 1;
    assert gs[..n] + [last[..m]] == Shrink(gs);
    assert GroupFits(last, n == 0, maxLength);
    GroupFitsPrefix(last, n == 0, m, maxLength);
    FitsReplaceLast(gs, last[..m], maxLength);
  }

  /** Replacing the last chunk by one that fits in its place keeps the
      chunks fitting. */
  lemma FitsReplaceLast(gs: seq<seq<string>>, g: seq<string>, maxLength: int)
    requires |gs| >= 1 && Fits(gs, maxLength) && GroupFits(g, |gs| == 1, maxLength)
    ensures Fits(gs[..|gs| - 1] + [g], maxLength)
  {
    var n := |gs| - 1;
    var h := gs[..n] + [g];
    forall k | 0 <= k < |h|
      ensures GroupFits(h[k], k == 0, maxLength)
    {
      if k < n {
        assert h[k] == gs[k];
      }
    }
  }

  /** Dropping the last sentence of a chunk of two or more keeps every later
      chunk opening as before. */
  lemma TruncateFull(gs: seq<seq<string>>, maxLength: int)
    requires |gs| >= 1 && Full(gs, maxLength)
    requires |gs[|gs| - 1]| >= 2 || (|gs| == 1 && |gs[0]| == 1)
    ensures Full(Shrink(gs), maxLength)
  {
    var n := |gs| - 1;
    var last := gs[n];
    var h := gs[..n] + [last[..|last| - 1]];
    assert h == Shrink(gs);
    forall k | 1 <= k < |h|
      ensures Opens(h[k - 1], h[k], maxLength)
    {
      assert h[k - 1] == gs[k - 1];
      assert Opens(gs[k - 1], gs[k], maxLength);
    }
  }

  /** Taking away a sentence that was appended to the last chunk leaves the
      packing of all sentences but the last. */
  lemma ShrinkAppendedFlatten(gs: seq<seq<string>>, ss: seq<string>)
    requires |gs| >= 1 && Flatten(gs) == ss
    requires |gs[|gs| - 1]| >= 2 || (|gs| == 1 && |gs[0]| == 1)
    ensures |ss| > 0 && Flatten(Shrink(gs)) == ss[..|ss| - 1]
    ensures var last := gs[|gs| - 1]; ss[|ss| - 1] == last[|last| - 1]
  {
    ShrinkLastSentence(gs);
    var f := Flatten(Shrink(gs));
    assert ss[..|ss| - 1] == f;
  }

  /** Flattening the shrunk packing leaves out exactly the last sentence of
      the last chunk. */
  lemma ShrinkLastSentence(gs: seq<seq<string>>)
    requires |gs| >= 1 && |gs[|gs| - 1]| >= 1
    requires |gs[|gs| - 1]| >= 2 || |gs| == 1
    ensures var last := gs[|gs| - 1];
      Flatten(gs) == Flatten(Shrink(gs)) + [last[|last| - 1]]
  {
    var n := |gs| - 1;
    var init, last := gs[..n], gs[n];
    var m := |last| - 1;
    calc {
      Flatten(gs);
      { assert gs == init + [last]; }
      Flatten(init + [last]);
      { FlattenGroup(init, last); }
      Flatten(init) + last;
      { assert last == last[..m] + [last[m]]; }
      Flatten(init) + last[..m] + [last[m]];
      { FlattenGroup(init, last[..m]); }
      Flatten(init + [last[..m]]) + [last[m]];
      { assert Shrink(gs) == init + [last[..m]]; }
      Flatten(Shrink(gs)) + [last[m]];
    }
  }

  /** Flattening a packing with one more chunk appends its sentences. */
  lemma FlattenGroup(gs: seq<seq<string>>, g: seq<string>)
    ensures Flatten(gs + [g]) == Flatten(gs) + g
  {
    assert (gs + [g])[..|gs|] == gs;
  }

  /** A sentence that fit after the rest of the last chunk is appended to it
      again. */
  lemma ShrinkAppendedExtend(gs: seq<seq<string>>, maxLength: int)
    requires |gs| >= 1
    requires |gs[|gs| - 1]| >= 2 || (|gs| == 1 && |gs[0]| == 1)
    requires var last := gs[|gs| - 1];
      |Buffer(last[..|last| - 1])| + |last[|last| - 1]| < maxLength
    ensures var last := gs[|gs| - 1]; gs == Extend(Shrink(gs), last[|last| - 1], maxLength)
  {
    var n := |gs| - 1;
    var init, last := gs[..n], gs[n];
    var m := |last| - 1;
    var h := init + [last[..m]];
    calc {
      Extend(Shrink(gs), last[m], maxLength);
      { assert Shrink(gs) == h; }
      Extend(h, last[m], maxLength);
      { assert h[|h| - 1] == last[..m] && h[..|h| - 1] == init; }
      init + [last[..m] + [last[m]]];
      { assert last[..m] + [last[m]] == last; }
      init + [last];
      gs;
    }
  }

  /** Taking away a sentence that was appended to the last chunk. */
  lemma ShrinkAppended(gs: seq<seq<string>>, ss: seq<string>, maxLength: int)
    requires |gs| >= 1 && Flatten(gs) == ss
    requires |gs[|gs| - 1]| >= 2 || (|gs| == 1 && |gs[0]| == 1)
    requires var last := gs[|gs| - 1];
      |Buffer(last[..|last| - 1])| + |last[|last| - 1]| < maxLength
    ensures |ss| > 0 && Flatten(Shrink(gs)) == ss[..|ss| - 1]
    ensures gs == Extend(Shrink(gs), ss[|ss| - 1], maxLength)
  {
    ShrinkAppendedFlatten(gs, ss);
    ShrinkAppendedExtend(gs, maxLength);
  }

  lemma GroupFitsPrefix(g: seq<string>, first: bool, m: nat, maxLength: int)
    requires GroupFits(g, first, maxLength) && m <= |g|
    ensures GroupFits(g[..m], first, maxLength)
  {
    forall j | 0 <= j < m && (first || j > 0)
      ensures |Buffer(g[..m][..j])| + |g[..m][j]| < maxLength
    {
      assert g[..m][..j] == g[..j];
    }
  }

  /** Taking away a sentence that opened the last chunk. */
  lemma ShrinkOpened(gs: seq<seq<string>>, ss: seq<string>, maxLength: int)
    requires Greedy(gs, ss, maxLength) && |ss| > 0
    requires |gs| >= 2 && |gs[|gs| - 1]| == 1
    ensures Greedy(Shrink(gs), ss[..|ss| - 1], maxLength)
    ensures gs == Extend(Shrink(gs), ss[|ss| - 1], maxLength)
  {
    var n := |gs| - 1;
    var init := gs[..n];
    assert Flatten(gs) == Flatten(init) + gs[n];
    assert Flatten(init) == ss[..|ss| - 1];
    forall k | 0 <= k < |init|
      ensures GroupFits(init[k], k == 0, maxLength)
    {
      assert init[k] == gs[k];
    }
    forall k | 1 <= k < |init|
      ensures Opens(init[k - 1], init[k], maxLength)
    {
      assert Opens(gs[k - 1], gs[k], maxLength);
    }
    assert Opens(gs[n - 1], gs[n], maxLength);
    assert gs[n] == [gs[n][0]];
    assert init + [[gs[n][0]]] == gs;
  }

  /** A greedy packing of a non-empty list is the greedy packing of all but
      its last sentence, extended by that sentence. */
  lemma ShrinkExtend(gs: seq<seq<string>>, ss: seq<string>, maxLength: int)
    requires Greedy(gs, ss, maxLength) && |ss| > 0
    ensures |gs[|gs| - 1]| > 0
    ensures Greedy(Shrink(gs), ss[..|ss| - 1], maxLength)
    ensures gs == Extend(Shrink(gs), ss[|ss| - 1], maxLength)
  {
    LastNonEmpty(gs, ss, maxLength);
    var last := gs[|gs| - 1];
    if |last| >= 2 || |gs| == 1 {
      assert GroupFits(last, |gs| == 1, maxLength);
      ShrinkAppended(gs, ss, maxLength);
      TruncateFits(gs, maxLength);
      TruncateFull(gs, maxLength);
    } else {
      ShrinkOpened(gs, ss, maxLength);
    }
  }

  /** The greedy packing is unique: the contract of `SplitText` determines its
      chunks completely. */
  lemma {:induction false} GreedyUnique(gs1: seq<seq<string>>, gs2: seq<seq<string>>, ss: seq<string>, maxLength: int)
    requires Greedy(gs1, ss, maxLength) && Greedy(gs2, ss, maxLength)
    ensures gs1 == gs2
    decreases |ss|
  {
    if |ss| == 0 {
      EmptyPacking(gs1, maxLength);
      EmptyPacking(gs2, maxLength);
    } else {
      ShrinkExtend(gs1, ss, maxLength);
      ShrinkExtend(gs2, ss, maxLength);
      GreedyUnique(Shrink(gs1), Shrink(gs2), ss[..|ss| - 1], maxLength);
    }
  }

  /** The only packing of no sentences is one empty chunk. */
  lemma EmptyPacking(gs: seq<seq<string>>, maxLength: int)
    requires Greedy(gs, [], maxLength)
    ensures gs == [[]]
  {
    var n := |gs| - 1;
    assert Flatten(gs) == Flatten(gs[..n]) + gs[n];
    LaterNonEmpty(gs, maxLength);
    FlattenSingle(gs);
  }

  /** One turn of the packing loop: the sentence joins the open chunk when
      the buffer and it stay below the budget, else the open chunk is closed
      and the sentence opens the next one. */
  method PackStep(ss: seq<string>, i: nat, chunks: seq<string>, groups: seq<seq<string>>,
                  group: seq<string>, current: string, maxLength: int)
    returns (chunks': seq<string>, groups': seq<seq<string>>, group': seq<string>, current': string)
    requires i < |ss| && Packed(ss, i, chunks, groups, group, current, maxLength)
    ensures Packed(ss, i + 1, chunks', groups', group', current', maxLength)
  {
    if |current| + |ss[i]| < maxLength {
      PackAppend(ss, i, chunks, groups, group, current, maxLength);
      chunks', groups' := chunks, groups;
      current' := current + ss[i] + " ";
      group' := group + [ss[i]];
    } else {
      PackCut(ss, i, chunks, groups, group, current, maxLength);
      chunks' := chunks + [Strip(current)];
      groups' := groups + [group];
      current' := ss[i] + " ";
      group' := [ss[i]];
    }
  }

  /** `split_text(text, max_length)`: the chunks, together with the sentences
      each was built from. */
  method SplitText(text: string, maxLength: int) returns (chunks: seq<string>, groups: seq<seq<string>>)
    ensures Greedy(groups, Sentences(text), maxLength)
    ensures |chunks| == |groups|
    ensures forall k :: 0 <= k < |chunks| ==> chunks[k] == Strip(Buffer(groups[k]))
    ensures forall k :: 0 <= k < |chunks| && |groups[k]| >= 2 ==> |chunks[k]| < maxLength
  {
    chunks, groups := Pack(Sentences(text), maxLength);
  }

  /** The packing loop of `split_text` over the sentences, which are never
      an empty list. */
  method Pack(ss: seq<string>, maxLength: int) returns (chunks: seq<string>, groups: seq<seq<string>>)
    requires |ss| > 0
    ensures Greedy(groups, ss, maxLength)
    ensures |chunks| == |groups|
    ensures forall k :: 0 <= k < |chunks| ==> chunks[k] == Strip(Buffer(groups[k]))
    ensures forall k :: 0 <= k < |chunks| && |groups[k]| >= 2 ==> |chunks[k]| < maxLength
  {
    chunks := [];
    groups := [];
    var group: seq<string> := [];
    var current := "";
    var i := 0;
    while i < |ss|
      invariant Packed(ss, i, chunks, groups, group, current, maxLength)
    {
      chunks, groups, group, current := PackStep(ss, i, chunks, groups, group, current, maxLength);
      i := i + 1;
    }
    chunks, groups := Close(ss, chunks, groups, group, current, maxLength);
  }

  /** After the loop: the open buffer, when non-empty, becomes the last chunk. */
  method Close(ss: seq<string>, chunks: seq<string>, groups: seq<seq<string>>,
               group: seq<string>, current: string, maxLength: int)
    returns (chunks': seq<string>, groups': seq<seq<string>>)
    requires Packed(ss, |ss|, chunks, groups, group, current, maxLength) && |ss| > 0
    ensures Greedy(groups', ss, maxLength)
    ensures |chunks'| == |groups'|
    ensures forall k :: 0 <= k < |chunks'| ==> chunks'[k] == Strip(Buffer(groups'[k]))
    ensures forall k :: 0 <= k < |chunks'| && |groups'[k]| >= 2 ==> |chunks'[k]| < maxLength
  {
    PackDone(ss, chunks, groups, group, current, maxLength);
    chunks', groups' := chunks, groups;
    if current != "" {
      chunks' := chunks + [Strip(current)];
      groups' := groups + [group];
    }
  }

  /** The default length budget of `split_text`. */
  const MaxChunk: int := 500

  /** The neural voices tried for each chunk, in order. */
  const Voices: seq<string> := ["en-IN-NeerjaNeural", "hi-IN-SwaraNeural", "en-US-AriaNeural"]

  /** How a chunk is voiced: by the first neural voice that synthesises it,
      else by the offline engine. */
  datatype Playback = Neural(chunk: string, voice: string) | Offline(chunk: string)

  /** The index of the first voice that synthesises `chunk`. Synthesis is an
      outside service; `synthesises` says whether a voice produced audio. */
  function FirstVoice(voices: seq<string>, chunk: string, synthesises: (string, string) -> bool): (r: Option<nat>)
    ensures r.Some? ==> r.value < |voices| && synthesises(chunk, voices[r.value])
    ensures r.Some? ==> forall j :: 0 <= j < r.value ==> !synthesises(chunk, voices[j])
    ensures r.None? <==> forall j :: 0 <= j < |voices| ==> !synthesises(chunk, voices[j])
  {
    if |voices| == 0 then None
    else if synthesises(chunk, voices[0]) then Some(0)
    else match FirstVoice(voices[1..], chunk, synthesises)
      case None => None
      case Some(j) => Some(j + 1)
  }

  function Voice(chunk: string, synthesises: (string, string) -> bool): (r: Playback)
    ensures r.chunk == chunk
    ensures r.Neural? ==> r.voice in Voices && synthesises(chunk, r.voice)
    ensures r.Offline? <==> forall j :: 0 <= j < |Voices| ==> !synthesises(chunk, Voices[j])
  {
    match FirstVoice(Voices, chunk, synthesises)
    case Some(j) => Neural(chunk, Voices[j])
    case None => Offline(chunk)
  }

  /** The chunks that are not blank, in their order. */
  function NonBlank(chunks: seq<string>): seq<string>
    decreases |chunks|
  {
    if |chunks| == 0 then []
    else (if Strip(chunks[0]) == "" then [] else [chunks[0]]) + NonBlank(chunks[1..])
  }

  /** The filter keeps exactly the chunks that are not blank. */
  lemma {:induction false} NonBlankMembers(chunks: seq<string>, x: string)
    ensures x in NonBlank(chunks) <==> x in chunks && Strip(x) != ""
    decreases |chunks|
  {
    if |chunks| > 0 {
      NonBlankMembers(chunks[1..], x);
      assert chunks == [chunks[0]] + chunks[1..];
    }
  }

  /** The chunks in order, blank ones skipped, each with how it is voiced. */
  function Perform(chunks: seq<string>, synthesises: (string, string) -> bool): (r: seq<Playback>)
    ensures |r| <= |chunks|
    ensures forall k :: 0 <= k < |r| ==> Strip(r[k].chunk) != "" && r[k].chunk in chunks
    ensures (forall k :: 0 <= k < |chunks| ==> Strip(chunks[k]) != "") ==> |r| == |chunks|
  {
    if |chunks| == 0 then []
    else
      var rest := Perform(chunks[1..], synthesises);
      if Strip(chunks[0]) == "" then rest else [Voice(chunks[0], synthesises)] + rest
  }

  /** Performing voices exactly the non-blank chunks, one playback each,
      in their order. */
  lemma {:induction false} PerformVoicesNonBlank(chunks: seq<string>, synthesises: (string, string) -> bool)
    ensures |Perform(chunks, synthesises)| == |NonBlank(chunks)|
    ensures forall k :: 0 <= k < |NonBlank(chunks)| ==>
      Perform(chunks, synthesises)[k] == Voice(NonBlank(chunks)[k], synthesises)
    decreases |chunks|
  {
    if |chunks| > 0 {
      var rest, kept := Perform(chunks[1..], synthesises), NonBlank(chunks[1..]);
      PerformVoicesNonBlank(chunks[1..], synthesises);
      if Strip(chunks[0]) == "" {
        assert Perform(chunks, synthesises) == rest;
        assert NonBlank(chunks) == [] + kept == kept;
      } else {
        assert Perform(chunks, synthesises) == [Voice(chunks[0], synthesises)] + rest;
        assert NonBlank(chunks) == [chunks[0]] + kept;
        VoicedCons(chunks[0], kept, rest, synthesises);
      }
    }
  }

  /** Voicing one more chunk in front keeps the playbacks aligned with the
      chunks. */
  lemma VoicedCons(c: string, kept: seq<string>, rest: seq<Playback>, synthesises: (string, string) -> bool)
    requires |rest| == |kept|
    requires forall k :: 0 <= k < |kept| ==> rest[k] == Voice(kept[k], synthesises)
    ensures forall k :: 0 <= k < |[c] + kept| ==>
      ([Voice(c, synthesises)] + rest)[k] == Voice(([c] + kept)[k], synthesises)
  {
    var ps, cs := [Voice(c, synthesises)] + rest, [c] + kept;
    forall k | 0 <= k < |cs|
      ensures ps[k] == Voice(cs[k], synthesises)
    {
      if k > 0 {
        assert ps[k] == rest[k - 1] && cs[k] == kept[k - 1];
      }
    }
  }

  function ChunksOf(gs: seq<seq<string>>): (r: seq<string>)
    ensures |r| == |gs|
  {
    seq(|gs|, k requires 0 <= k < |gs| => Strip(Buffer(gs[k])))
  }

  /** `speak_neural(text)`: nothing for a blank text, else the chunks of
      `split_text(text)` voiced in order, blank chunks skipped. */
  method SpeakNeural(text: string, synthesises: (string, string) -> bool) returns (plays: seq<Playback>)
    ensures Strip(text) == "" ==> plays == []
    ensures Strip(text) != "" ==>
      exists gs :: Greedy(gs, Sentences(text), MaxChunk) && plays == Perform(ChunksOf(gs), synthesises)
    ensures forall k :: 0 <= k < |plays| ==> Strip(plays[k].chunk) != ""
  {
    if Strip(text) == "" {
      return [];
    }
    var chunks, groups := SplitText(text, MaxChunk);
    assert chunks == ChunksOf(groups);
    plays := Perform(chunks, synthesises);
  }
}

=== FILE: text.dfy ===
/** The string operations of Python's `str` that the core relies on, over
    `seq<char>`: ASCII `lower()`, `strip()`, `split()`, `startswith`, the `in`
    substring test, `replace` (all occurrences or the first), `split(c, 1)`,
    `join` and the decimal rendering of a natural number. */
module Text {
  import opened Wrappers

  /** The whitespace characters below U+0080 that Python's `str.isspace`,
      `str.split()`, `str.strip()` and the regular-expression class `\s` agree on. */
  predicate IsSpace(c: char) {
    c == ' ' || c == '\t' || c == '\n' || c == '\r' || c == '\U{000B}' || c == '\U{000C}'
    || c == '\U{001C}' || c == '\U{001D}' || c == '\U{001E}' || c == '\U{001F}'
  }

  predicate IsUpper(c: char) { 'A' <= c <= 'Z' }

  function LowerChar(c: char): (r: char)
    ensures !IsUpper(r)
    ensures !IsUpper(c) ==> r == c
  {
    if IsUpper(c) then (c as int + 32) as char else c
  }

  predicate NoUpper(s: string) {
    forall i :: 0 <= i < |s| ==> !IsUpper(s[i])
  }

  /** ASCII `str.lower()`: upper-case Latin letters are mapped, everything else kept. */
  function Lower(s: string): (r: string)
    ensures |r| == |s|
    ensures forall i :: 0 <= i < |s| ==> r[i] == LowerChar(s[i])
    ensures NoUpper(r)
    ensures NoUpper(s) ==> r == s
  {
    if |s| == 0 then [] else [LowerChar(s[0])] + Lower(s[1..])
  }

  /** Lower-casing works character by character, so it distributes over `+`. */
  lemma {:induction false} LowerConcat(a: string, b: string)
    ensures Lower(a + b) == Lower(a) + Lower(b)
    decreases |a|
  {
    if |a| == 0 {
      assert a + b == b;
    } else {
      assert (a + b)[0] == a[0];
      assert (a + b)[1..] == a[1..] + b;
      LowerConcat(a[1..], b);
    }
  }

  predicate StartsWith(s: string, p: string) {
    |p| <= |s| && s[..|p|] == p
  }

  /** A single differing character rules out a prefix. */
  lemma NotPrefixAt(s: string, p: string, i: nat)
    requires i < |p| && i < |s| && s[i] != p[i]
    ensures !StartsWith(s, p)
  {
    if |p| <= |s| {
      assert s[..|p|][i] != p[i];
    }
  }

  /** Python's `p in s`, scanning the start positions of `s` left to right. */
  predicate Contains(s: string, p: string)
    decreases |s|
  {
    StartsWith(s, p) || (|s| > 0 && Contains(s[1..], p))
  }

  lemma NoUpperConcat(a: string, b: string)
    requires NoUpper(a) && NoUpper(b)
    ensures NoUpper(a + b)
  {
    assert forall i :: 0 <= i < |a + b| ==> (a + b)[i] == if i < |a| then a[i] else b[i - |a|];
  }

  /** A text contains whatever it ends with. */
  lemma {:induction false} ContainsSuffix(pre: string, p: string)
    ensures Contains(pre + p, p)
    decreases |pre|
  {
    if |pre| == 0 {
      assert pre + p == p;
      assert p[..|p|] == p;
    } else {
      ContainsSuffix(pre[1..], p);
      assert (pre + p)[1..] == pre[1..] + p;
    }
  }

  function StripLeft(s: string): (r: string)
    ensures |r| <= |s|
    ensures |r| == 0 || !IsSpace(r[0])
    ensures forall i :: 0 <= i < |s| - |r| ==> IsSpace(s[i])
    ensures NoUpper(s) ==> NoUpper(r)
    decreases |s|
  {
    if |s| > 0 && IsSpace(s[0]) then StripLeft(s[1..]) else s
  }

  function StripRight(s: string): (r: string)
    ensures |r| <= |s| && r == s[..|r|]
    ensures |r| == 0 || !IsSpace(r[|r| - 1])
    ensures forall i :: |r| <= i < |s| ==> IsSpace(s[i])
    ensures NoUpper(s) ==> NoUpper(r)
    decreases |s|
  {
    if |s| > 0 && IsSpace(s[|s| - 1]) then StripRight(s[..|s| - 1]) else s
  }

  /** `str.strip()` with no argument. */
  function Strip(s: string): (r: string)
    ensures |r| <= |s|
    ensures |r| == 0 || (!IsSpace(r[0]) && !IsSpace(r[|r| - 1]))
    ensures |s| > 0 && IsSpace(s[|s| - 1]) ==> |r| < |s|
    ensures NoUpper(s) ==> NoUpper(r)
  {
    StripRight(StripLeft(s))
  }

  /** A text with no surrounding whitespace is its own strip. */
  lemma StripTrimmed(s: string)
    requires |s| > 0 && !IsSpace(s[0]) && !IsSpace(s[|s| - 1])
    ensures Strip(s) == s
  {
  }

  /** Stripping keeps a leading non-space character, and with it every
      character up to the last non-space one. */
  lemma StripKeepsHead(s: string, n: nat)
    requires 0 < n <= |s| && !IsSpace(s[0]) && !IsSpace(s[n - 1])
    ensures n <= |Strip(s)| && Strip(s)[..n] == s[..n]
  {
  }

  /** Python's `s.replace(pat, rep)`: every non-overlapping occurrence of `pat`,
      found left to right, is replaced. */
  function ReplaceAll(s: string, pat: string, rep: string): (r: string)
    requires |pat| > 0
    ensures NoUpper(s) && NoUpper(rep) ==> NoUpper(r)
    ensures !Contains(s, pat) ==> r == s
    decreases |s|
  {
    if |s| < |pat| then s
    else if s[..|pat|] == pat then rep + ReplaceAll(s[|pat|..], pat, rep)
    else [s[0]] + ReplaceAll(s[1..], pat, rep)
  }

  /** Occurrences are removed from the front one at a time. */
  lemma ReplaceAllLeading(p: string, s: string, rep: string)
    requires |p| > 0
    ensures ReplaceAll(p + s, p, rep) == rep + ReplaceAll(s, p, rep)
  {
    assert (p + s)[..|p|] == p;
    assert (p + s)[|p|..] == s;
  }

  /** The characters of `s` other than `c`, in their order. */
  function Without(s: string, c: char): (r: string)
    ensures |r| <= |s|
    decreases |s|
  {
    if |s| == 0 then "" else (if s[0] == c then "" else [s[0]]) + Without(s[1..], c)
  }

  /** The filter keeps exactly the characters that differ from `c`. */
  lemma {:induction false} WithoutMembers(s: string, c: char, x: char)
    ensures x in Without(s, c) <==> x in s && x != c
    decreases |s|
  {
    if |s| > 0 {
      WithoutMembers(s[1..], c, x);
      assert s == [s[0]] + s[1..];
    }
  }

  /** Replacing a single character by nothing is filtering it out. */
  lemma {:induction false} ReplaceAllIsWithout(s: string, c: char)
    ensures ReplaceAll(s, [c], "") == Without(s, c)
    decreases |s|
  {
    if |s| >= 1 {
      ReplaceAllIsWithout(s[1..], c);
      if s[..1] == [c] {
        assert ReplaceAll(s, [c], "") == "" + ReplaceAll(s[1..], [c], "");
      } else {
        assert s[0] != c;
      }
    }
  }

  /** Deleting every occurrence of a single character leaves none of it. */
  lemma {:induction false} ReplaceAllDeletes(s: string, c: char)
    ensures forall i :: 0 <= i < |ReplaceAll(s, [c], "")| ==> ReplaceAll(s, [c], "")[i] != c
    decreases |s|
  {
    if |s| >= 1 {
      ReplaceAllDeletes(s[1..], c);
      if s[..1] == [c] {
        assert ReplaceAll(s, [c], "") == "" + ReplaceAll(s[1..], [c], "");
        assert "" + ReplaceAll(s[1..], [c], "") == ReplaceAll(s[1..], [c], "");
      } else {
        assert s[0] != c;
      }
    }
  }

  /** Python's `s.replace(pat, rep, 1)`: only the leftmost occurrence is replaced. */
  function ReplaceFirst(s: string, pat: string, rep: string): (r: string)
    requires |pat| > 0
    ensures StartsWith(s, pat) ==> r == rep + s[|pat|..]
    ensures !Contains(s, pat) ==> r == s
    decreases |s|
  {
    if |s| < |pat| then s
    else if s[..|pat|] == pat then rep + s[|pat|..]
    else [s[0]] + ReplaceFirst(s[1..], pat, rep)
  }

  /** The length of the leading run of non-space characters. */
  function WordLen(s: string): (n: nat)
    ensures n <= |s|
    ensures forall i :: 0 <= i < n ==> !IsSpace(s[i])
    ensures n == |s| || IsSpace(s[n])
    decreases |s|
  {
    if |s| == 0 || IsSpace(s[0]) then 0 else 1 + WordLen(s[1..])
  }

  /** A non-empty run of non-space characters. */
  predicate IsWord(w: string) {
    |w| > 0 && forall i :: 0 <= i < |w| ==> !IsSpace(w[i])
  }

  /** The leading word of a text that starts with a non-space character. */
  function FirstWord(t: string): (w: string)
    requires |t| > 0 && !IsSpace(t[0])
    ensures IsWord(w) && |w| <= |t| && w == t[..|w|]
    ensures |w| == |t| || IsSpace(t[|w|])
  {
    t[..WordLen(t)]
  }

  /** `str.split()` with no argument: the maximal runs of non-space characters. */
  function Words(s: string): (r: seq<string>)
    ensures forall k :: 0 <= k < |r| ==> IsWord(r[k])
    ensures |r| == 0 <==> |StripLeft(s)| == 0
    decreases |s|
  {
    var t := StripLeft(s);
    if |t| == 0 then []
    else
      var w := FirstWord(t);
      [w] + Words(t[|w|..])
  }

  function WordSet(s: string): set<string> {
    set w | w in Words(s)
  }

  /** `sep.join(parts)`. */
  function Join(parts: seq<string>, sep: string): string {
    if |parts| == 0 then ""
    else if |parts| == 1 then parts[0]
    else parts[0] + sep + Join(parts[1..], sep)
  }

  /** Joining one more part adds the separator and that part at the end. */
  lemma {:induction false} JoinSnoc(parts: seq<string>, x: string, sep: string)
    requires |parts| > 0
    ensures Join(parts + [x], sep) == Join(parts, sep) + sep + x
    decreases |parts|
  {
    if |parts| == 1 {
      JoinPair(parts[0], x, sep);
      assert parts + [x] == [parts[0], x];
    } else {
      JoinSnoc(parts[1..], x, sep);
      JoinSnocStep(parts, x, sep);
    }
  }

  lemma JoinPair(a: string, b: string, sep: string)
    ensures Join([a, b], sep) == a + sep + b
  {
    JoinCons([a, b], sep);
    assert [a, b][1..] == [b];
  }

  /** The inductive step of `JoinSnoc`, on its own. */
  lemma JoinSnocStep(parts: seq<string>, x: string, sep: string)
    requires |parts| >= 2
    requires Join(parts[1..] + [x], sep) == Join(parts[1..], sep) + sep + x
    ensures Join(parts + [x], sep) == Join(parts, sep) + sep + x
  {
    var ys := parts + [x];
    assert ys[1..] == parts[1..] + [x];
    var head, mid := parts[0] + sep, Join(parts[1..], sep);
    assert Join(ys, sep) == head + (mid + (sep + x)) by {
      JoinCons(ys, sep);
    }
    assert Join(parts, sep) == head + mid by {
      JoinCons(parts, sep);
    }
    ConcatAssoc(head, mid, sep + x);
  }

  /** The lists one after another, as repeated `extend` builds them. */
  function Flatten<T>(ls: seq<seq<T>>): seq<T> {
    if |ls| == 0 then [] else Flatten(ls[..|ls| - 1]) + ls[|ls| - 1]
  }

  /** Flattening also splits off the first list. */
  lemma {:induction false} FlattenCons<T>(ls: seq<seq<T>>)
    requires |ls| > 0
    ensures Flatten(ls) == ls[0] + Flatten(ls[1..])
    decreases |ls|
  {
    var n := |ls| - 1;
    if n == 0 {
      assert ls[..n] == [] && ls[1..] == [];
    } else {
      var init := ls[..n];
      var tail := ls[1..];
      assert init[0] == ls[0];
      assert init[1..] == tail[..n - 1] && tail[n - 1] == ls[n];
      calc {
        Flatten(ls);
        Flatten(init) + ls[n];
        { FlattenCons(init); }
        (ls[0] + Flatten(init[1..])) + ls[n];
        ls[0] + (Flatten(init[1..]) + ls[n]);
        ls[0] + Flatten(tail);
      }
    }
  }

  /** Where entry `k` of the flattened lists comes from: the first list or
      the rest. */
  lemma FlattenAtSplit<T>(ls: seq<seq<T>>, k: nat)
    requires |ls| > 0 && k < |Flatten(ls)|
    ensures |Flatten(ls)| == |ls[0]| + |Flatten(ls[1..])|
    ensures k < |ls[0]| ==> Flatten(ls)[k] == ls[0][k]
    ensures k >= |ls[0]| ==> Flatten(ls)[k] == Flatten(ls[1..])[k - |ls[0]|]
  {
    FlattenCons(ls);
  }

  /** Every entry of a flattened list comes from one of the lists. */
  lemma {:induction false} FlattenAt<T>(ls: seq<seq<T>>, k: nat)
    requires k < |Flatten(ls)|
    ensures exists i, j :: 0 <= i < |ls| && 0 <= j < |ls[i]| && Flatten(ls)[k] == ls[i][j]
    decreases |ls|
  {
    FlattenCons(ls);
    if k >= |ls[0]| {
      FlattenAt(ls[1..], k - |ls[0]|);
      var i, j :| 0 <= i < |ls[1..]| && 0 <= j < |ls[1..][i]| && Flatten(ls[1..])[k - |ls[0]|] == ls[1..][i][j];
      assert ls[1..][i] == ls[i + 1];
    } else {
      assert Flatten(ls)[k] == ls[0][k];
    }
  }

  lemma ConcatAssoc(a: string, b: string, c: string)
    ensures a + (b + c) == (a + b) + c
  {
  }

  lemma JoinCons(parts: seq<string>, sep: string)
    requires |parts| >= 2
    ensures Join(parts, sep) == parts[0] + sep + Join(parts[1..], sep)
  {
  }

  /** The index of the first occurrence of `c`, as `str.find` computes it. */
  function IndexOf(s: string, c: char): (r: Option<nat>)
    ensures r.Some? ==> r.value < |s| && s[r.value] == c
    ensures r.Some? ==> forall i :: 0 <= i < r.value ==> s[i] != c
    ensures r.None? <==> forall i :: 0 <= i < |s| ==> s[i] != c
    decreases |s|
  {
    if |s| == 0 then None
    else if s[0] == c then Some(0)
    else match IndexOf(s[1..], c)
      case None => None
      case Some(i) => Some(i + 1)
  }

  /** `s.split(c, 1)[1]`: the text after the first `c`, absent when `s` has none. */
  function AfterFirst(s: string, c: char): Option<string> {
    match IndexOf(s, c)
    case None => None
    case Some(i) => Some(s[i + 1..])
  }

  /** A prefix ending in its only `c` is exactly what `split(c, 1)` cuts off. */
  lemma AfterFirstOfPrefix(p: string, c: char, rest: string)
    requires |p| > 0 && p[|p| - 1] == c
    requires forall i :: 0 <= i < |p| - 1 ==> p[i] != c
    ensures AfterFirst(p + rest, c) == Some(rest)
  {
    var s := p + rest;
    assert forall i :: 0 <= i < |p| - 1 ==> s[i] != c;
    assert s[|p| - 1] == c;
    assert s[|p|..] == rest;
  }

  function DigitChar(d: nat): char
    requires d < 10
  {
    ('0' as int + d) as char
  }

  predicate IsDigit(c: char) { '0' <= c <= '9' }

  /** `str(n)` for a natural number. */
  function NatToString(n: nat): (r: string)
    ensures |r| > 0
    ensures forall i :: 0 <= i < |r| ==> IsDigit(r[i])
  {
    if n < 10 then [DigitChar(n)] else NatToString(n / 10) + [DigitChar(n % 10)]
  }

  /** `int(s)` for a string of decimal digits. */
  function ParseNat(s: string): nat
    requires forall i :: 0 <= i < |s| ==> IsDigit(s[i])
  {
    if |s| == 0 then 0
    else
      assert IsDigit(s[|s| - 1]);
      ParseNat(s[..|s| - 1]) * 10 + (s[|s| - 1] as int - '0' as int)
  }

  lemma {:induction false} NatToStringRoundTrip(n: nat)
    ensures ParseNat(NatToString(n)) == n
  {
    if n >= 10 {
      NatToStringRoundTrip(n / 10);
      var s := NatToString(n);
      assert s[..|s| - 1] == NatToString(n / 10);
    }
  }
}

=== FILE: wrappers.dfy ===
/** Failure-carrying values used across the model: an optional value (Python's
    `None`) and a success-or-error result (a raised exception). */
module Wrappers {

  datatype Option<+T> = None | Some(value: T)

  datatype Result<+T, +E> = Ok(value: T) | Err(error: E)
}
